=== FILE: README.md ===
# audio-api-graph: compiler, playback engine and graph store in Dafny

audio-api-graph is a node-graph editor for audio. The user places nodes on a
canvas, such as an oscillator, a gain, a biquad filter, a stereo panner, an
audio buffer source and the destination. The user then draws connections
between the nodes' sockets and presses play. This project models the part of
the app that turns the graph into audio primitives and keeps the two in
step:

- **The graph compiler** (`compileAudioGraph` with its `play` and `stop`
  closures) is the class `CompileGraph.CompiledGraph`. It holds the instance
  table (node id to primitive) and the pending cleanup timer. Each of its
  loops is a `while` loop proved against a function of module `Playback`.
- **The playback hook** (`useAudioEngine`) is the class `AudioEngine.Engine`.
  It covers `toNumber`, the live parameter sync, `handleStop`, `handlePlay`,
  `togglePlay` and the unmount cleanup. The hook's instantiation differs from
  the compiler's only for buffer sources, and that is proved.
- **The buffer cache** (`bufferManager`) is the class
  `BufferManager.Manager`. The pure functions `Load` and `Settle` specify it.
- **The graph store's write operations** (add, remove with cascade, move) and
  the id-to-node index are functions of module `GraphStore`.
- **The node-type registry** is the class `NodeRegistry.Registry`. Module
  `AudioNodes` holds the ten-type catalogue registered at load time.
  Module `LegacyAudioNodes` holds the older six-type catalogue.

Audio primitives live in an arena, the class `Primitives.AudioContext`. A
primitive is a record of:

- its kind;
- its `AudioParam`s, each with a value and a log of scheduled automation;
- its plain attributes (`type`);
- its outgoing connections, each into a node or into a (node, param) pair;
- the times of its `start` and `stop` calls;
- its `disconnect` count;
- its buffer.

Handle 0 is the context's single destination. An instance table maps node ids
to handles. `node !== audioContext.destination` becomes "handle is not 0".
JavaScript `Map`s are `OrderedMaps.OrderedMap`s, which keep insertion order,
because iteration order decides the order of creation and the point where a
throw stops the loop. Node `data` is optional: the three initial nodes have
none.

Behaviour of the code that the model reproduces:

- Reading `node.data.x` when `data` is undefined throws a TypeError. Both
  `play` and `handlePlay` throw on such a node of any of the five creatable
  kinds. The primitive has already been created at that point. It is not
  recorded, and nothing is wired or started (`Playback.ThrowsOn`).
- The connection list may hold a falsy entry. The store's removal filter
  drops such entries, but nothing else keeps them out. Both wiring loops read
  `connection.from` without a check, so a falsy entry throws a TypeError.
  The nodes are instantiated and the connections before it are wired, but
  no source is started (`CompileGraph.FalsyConnectionThrows`).
- `gain` is applied whenever it is defined, even as 0. `frequency`, `Q`,
  `pan`, `playbackRate` and `type` are applied only when truthy.
- A source that was never started raises on `stop`, and the error is
  swallowed. The model leaves such a source untouched.
- A load that fails keeps its rejected promise in the in-flight map, so
  every later load of that key rejects the same way. A failed load is never
  evicted from the in-flight map.
- There is no latch against a second play while one is loading:
  `handlePlay` can start again before the first call's loads finish.
- The hook's cleanup timers are never cancelled. Each acts on the shared
  instance table as it is when it fires. A stop followed by a play within
  100 ms therefore has its new graph disconnected by the first timer while
  the hook reports that it is playing (`AudioEngine.Engine.ReplayBeforeCleanup`).
  From there the player is stuck: `togglePlay` sees it playing and calls
  `handleStop`, which returns at once on the empty table, so every further
  toggle leaves it playing (`AudioEngine.Engine.ToggleAfterReplay`).
- The compiler's `stop` cancels its own pending timer. Two stops therefore
  give a single cleanup pass (`CompileGraph.CompiledGraph.StopTwiceThenCleanup`).

External inputs become parameters:

- `Date.now()` is a timestamp, and `Math.random()` is two reals.
- `Number(string)` is a function `numberOf`.
- What an `AudioParam`'s `value` getter reports for the value last assigned
  to it is a function `paramValue`. The library stores param values in
  single precision, so 0.35 reads back as 0.3499999940395355.
- The result of a fetch and decode is a function `fetchOutcome`.
- The two URL defaults of the catalogue are parameters, because the
  constants module that defines them is not part of this model.

## Model

| member | source | states |
|---|---|---|
| Playback.KindOf | runtime/compileGraph.ts:44-72 | exactly six node types get a primitive; only `AudioDestination` maps to the destination; every other type (Streamer, Music, ...) gets none |
| Playback.ConfigureFollowsRules | runtime/compileGraph.ts:45-66 | a new primitive has its kind's params and attributes; `gain` takes any defined value including 0; frequency, Q, pan and playbackRate take only truthy values, else keep the default; `type` is copied only when truthy; nothing is connected, started, stopped or buffered |
| Playback.Configure | runtime/compileGraph.ts:45-66 | a new primitive has the node's kind, exactly its kind's params and attributes, and no connection, start, stop, disconnect or buffer |
| Playback.CompileNode | runtime/compileGraph.ts:42-75 | one step throws exactly on a creatable node without data, adds at most one primitive and never alters an earlier one |
| Playback.InstantiateAll | runtime/compileGraph.ts:42-76 | a throw names a listed node of a creatable kind without data; earlier primitives are never altered |
| Playback.CompileNodeKeepsTable | runtime/compileGraph.ts:42-75 | one instantiation step keeps at most one entry per id, shares a handle only for the destination, never alters an earlier primitive, and throws exactly on a creatable node without data |
| Playback.InstantiateAllSpec | runtime/compileGraph.ts:42-76 | the instantiation loop: the table stays well formed; a throw names a node with undefined data; without a throw the new keys are exactly the ids of known types, and other entries are unchanged |
| Playback.InstantiateAllEntry | runtime/compileGraph.ts:45-75 | without a throw, the destination node maps to the context destination, and every other known node maps to a primitive created in this pass and configured from its own data |
| Playback.TargetOf | runtime/compileGraph.ts:84-89 | a resolved connection goes into the target's param named by the socket when the target has that `AudioParam`, and into the target node otherwise |
| Playback.RoutesFrom | runtime/compileGraph.ts:78-91 | every route leaving a primitive comes from a listed connection whose two endpoints are in the table and whose source maps to that primitive |
| Playback.WireOneEffect | runtime/compileGraph.ts:79-90 | one connection appends its route to the primitive it leaves and changes no other primitive; an unresolved connection changes nothing |
| Playback.Wire | runtime/compileGraph.ts:78-91 | wiring changes nothing but the primitives' outgoing connections |
| Playback.PresentPrefix | runtime/compileGraph.ts:78-79 | the connections the loop reaches: those before the first falsy entry, in order, with a falsy entry right after them when they are not the whole list |
| Playback.WireFrom | runtime/compileGraph.ts:78-91 | the loop from a position keeps the number of primitives, and a throw names a falsy position at or after it |
| Playback.WireFromPresentPrefix | runtime/compileGraph.ts:78-91 | the loop wires exactly the connections before the first falsy entry, in order, and throws exactly when there is a falsy entry, at the first |
| Playback.WireFromWiresPresent | runtime/compileGraph.ts:78-91 | the primitives the loop leaves are those the connections before the first falsy entry wire |
| Playback.WireFromThrowsAtFirstFalsy | runtime/compileGraph.ts:78-80 | the loop throws exactly when a falsy entry follows, at the first one |
| Playback.WireAppendsRoutes | runtime/compileGraph.ts:78-91 | wiring only appends: each primitive gains exactly the routes of the resolved connections leaving it, in list order, and nothing else changes |
| Playback.NoRoutesFromUnlisted | runtime/compileGraph.ts:79-83 | a primitive outside the table is never wired from |
| Playback.StartAllStartsSourcesOnce | runtime/compileGraph.ts:93-97 | every scheduled source in the table is started exactly once at `time`; gain, filter, panner and destination are never started; nothing else changes |
| Playback.StartAll | runtime/compileGraph.ts:93-97 | the start pass changes nothing but start times |
| Playback.StopAllStopsStartedSources | runtime/compileGraph.ts:21-28 | every started scheduled source in the table is stopped exactly once at the stop time; a source never started raises, which is swallowed; nothing else changes |
| Playback.StopAll | runtime/compileGraph.ts:21-28 | the stop pass changes nothing but stop times |
| Playback.DisconnectAllOnce | runtime/compileGraph.ts:30-35 | the cleanup disconnects every primitive in the table exactly once, except the destination, which is never disconnected |
| Playback.DisconnectAll | runtime/compileGraph.ts:30-35 | the cleanup pass changes nothing but outgoing connections and disconnect counts, which never decrease, and leaves the destination alone |
| Playback.StopCleanupEffect | runtime/compileGraph.ts:21-35 | a stop pass then the cleanup pass leave every primitive of the table but the destination with no outgoing connection, one more `disconnect`, and one more stop if it is a started source; primitives outside the table are unchanged |
| Playback.WireAndStartEffect | runtime/compileGraph.ts:78-97 | after wiring then starting, each primitive has its old routes plus those of its resolved connections before the first falsy entry; the loop throws exactly when there is a falsy entry, at the first; without a throw a listed source has one more start, and with one nothing is started; unlisted primitives are untouched |
| Playback.WireAndStart | runtime/compileGraph.ts:78-97 | wiring and starting keep the table and the number of primitives |
| CompileGraph.NonNegative | runtime/compileGraph.ts:19 | the cleanup delay is never negative; it is the computed delay when that is positive and 0 otherwise |
| CompileGraph.Played | runtime/compileGraph.ts:41-98 | `play` keeps the instance table well formed, whether it completes or throws while instantiating or wiring: one entry per id, handles in range, a handle shared only by destination nodes |
| CompileGraph.FalsyConnectionThrows | runtime/compileGraph.ts:78-97 | a falsy entry of the connection list makes `play` throw at the first one, after wiring exactly the connections before it, and no source is started |
| CompileGraph.PlayStopCleanupSilences | runtime/compileGraph.ts:13-98 | after play, stop and the cleanup, every primitive in the table but the destination has no outgoing connection and exactly one `disconnect`; each source was started once at the play time and stopped once at the stop time |
| CompileGraph.StartStopCleanup | runtime/compileGraph.ts:21-35 | from the instantiated table: wiring and starting, a stop pass and the cleanup pass leave each listed primitive but the destination silent and disconnected once, with one start and one stop if it is a source |
| CompileGraph.UnresolvedConnectionSkipped | runtime/compileGraph.ts:83 | a connection with an endpoint missing from the table wires nothing, wherever it sits in the list |
| CompileGraph.CompiledGraph.constructor | runtime/compileGraph.ts:5-11 | a new compiled graph has an empty instance table and no pending cleanup, and it creates no primitive |
| CompileGraph.CompiledGraph.InstantiateNode | runtime/compileGraph.ts:43-75 | one iteration of the instantiation loop is the instantiation step on the table and the primitives |
| CompileGraph.CompiledGraph.CreateConfigured | runtime/compileGraph.ts:45-66 | creating a node of a creatable kind appends exactly the primitive configured from its data, at the next handle, and alters no earlier primitive |
| CompileGraph.CompiledGraph.InstantiateNodes | runtime/compileGraph.ts:42-76 | the instantiation loop, in map order up to the first throw, is the instantiation fold |
| CompileGraph.CompiledGraph.WireConnections | runtime/compileGraph.ts:78-91 | the wiring loop wires the connection list in order and throws at its first falsy entry, naming that position |
| CompileGraph.CompiledGraph.StartSources | runtime/compileGraph.ts:93-97 | the start loop is the start pass over the table |
| CompileGraph.CompiledGraph.Play | runtime/compileGraph.ts:41-98 | `play` instantiates, then wires, then starts, on the table as it finds it; on a throw while instantiating, what was built stays and nothing is wired or started; on a falsy connection, what was wired stays and nothing is started; the timer state is unchanged |
| CompileGraph.CompiledGraph.Stop | runtime/compileGraph.ts:13-39 | `stop` replaces any pending cleanup with one new timer; the stop time defaults to the current time; started sources are stopped at it; the delay is `max(0, (stopTime - now) * 1000)`; the table is kept for the cleanup |
| CompileGraph.CompiledGraph.StopSources | runtime/compileGraph.ts:21-28 | the stop loop is the stop pass over the table at the stop time |
| Primitives.AudioContext.StopIfSource | runtime/compileGraph.ts:22-27 | the stop step records one stop on a started scheduled source and changes nothing otherwise, the raised error being swallowed |
| CompileGraph.CompiledGraph.DisconnectSources | runtime/compileGraph.ts:31-35 | the timer's loop is the disconnect pass over the table |
| CompileGraph.CompiledGraph.FireCleanup | runtime/compileGraph.ts:30-38 | the cleanup disconnects every primitive in the table but the destination, clears the table and leaves no cleanup pending |
| CompileGraph.CompiledGraph.StopTwiceThenCleanup | runtime/compileGraph.ts:13-38 | two stops before the timer fires give one cleanup pass: every primitive in the table but the destination is disconnected exactly once, and nothing is pending afterwards |
| CompileGraph.StopStopCleanupDisconnectsOnce | runtime/compileGraph.ts:13-38 | two stop passes at any two times, then one cleanup pass, leave every primitive of the table but the destination with exactly one more `disconnect` and no outgoing connection |
| AudioEngine.ToNumber | hooks/useAudioEngine.ts:16-27 | a value exactly when the input is a finite number (returned as is) or a string that parses to a finite number (its parse); nothing for null, undefined, non-finite numbers and other types |
| AudioEngine.ResolveSample | hooks/useAudioEngine.ts:135-154 | a falsy or non-string sample gives no buffer and no load; a cached key gives the cached buffer with no load; a buffer given is the one the cache then holds; a failed or unconfigured key gives none; the loader invariant is kept |
| AudioEngine.EngineStepAgreesWithCompiler | hooks/useAudioEngine.ts:108-170 | every node that is not a buffer source is instantiated by the hook exactly as by the compiler, and the loader is not touched |
| AudioEngine.BufferSourceStep | hooks/useAudioEngine.ts:133-162 | a buffer source with data gets its entry with the buffer the cache holds for its sample (none when the load failed) and a playback rate set exactly when `toNumber` gives one; without data it resolves its sample, then throws |
| AudioEngine.EngineStepKeepsTable | hooks/useAudioEngine.ts:107-169 | one step of the hook's loop keeps the table well formed, never alters an earlier primitive and keeps the loader invariant |
| AudioEngine.EngineStep | hooks/useAudioEngine.ts:107-169 | one step of the hook's loop throws exactly on a creatable node without data, adds at most one primitive and never alters an earlier one |
| AudioEngine.EngineAll | hooks/useAudioEngine.ts:107-170 | a throw of the hook's loop names a listed node of a creatable kind without data; earlier primitives are never altered |
| AudioEngine.EngineAllSpec | hooks/useAudioEngine.ts:107-170 | the hook's instantiation loop throws only on a creatable node without data; without a throw, exactly the nodes of known types get entries; old primitives are untouched |
| AudioEngine.EnginePlayed | hooks/useAudioEngine.ts:104-191 | rebuilding on a cleared table keeps the table well formed and the loader invariant; without a throw, the table's keys are exactly the ids of nodes of known types |
| AudioEngine.SyncInstance | hooks/useAudioEngine.ts:47-66 | the sync never adds or removes a param or attribute, never sets a param's value directly, and never touches routing, start, stop or buffer |
| AudioEngine.SyncUnmentioned | hooks/useAudioEngine.ts:47-49 | a member whose key the data does not mention is left as it was |
| AudioEngine.SyncKeyExtends | hooks/useAudioEngine.ts:47-66 | the key-by-key loop gives the same primitive whatever order the keys are visited in |
| AudioEngine.SyncInstanceByKey | hooks/useAudioEngine.ts:49-65 | a param whose defined new value differs (`!==`) from the value the param reports (`paramValue` of what was last assigned, the library's single-precision read-back) gets exactly one `setTargetAtTime(v, now, 0.015)`, and any other param is untouched; an attribute is assigned only if it exists, is not a param, and the defined new value differs |
| AudioEngine.SyncAll | hooks/useAudioEngine.ts:43-67 | the sync pass over all nodes keeps the number of primitives |
| AudioEngine.SyncAllEffect | hooks/useAudioEngine.ts:43-67 | for distinct ids that share a primitive only when it has no params and no attributes (the destination nodes at handle 0), the primitive of each node with a live primitive is synced with that node's data, and a primitive no listed node holds is untouched |
| AudioEngine.SyncKey | hooks/useAudioEngine.ts:47-66 | one key's sync never adds or removes a param or attribute, never sets a param's value, never touches routing, start, stop or buffer, and changes no attribute but the one the key names |
| AudioEngine.SyncSameValue | hooks/useAudioEngine.ts:51-58 | a param that was last assigned `v` is scheduled towards `v` again exactly when the value it reports for `v` differs from `v`, as 0.35 does in single precision |
| AudioEngine.Engine.constructor | hooks/useAudioEngine.ts:34-37 | a mounted hook is not playing, not loading, has an empty table and no cleanup timer |
| AudioEngine.Engine.SyncNode | hooks/useAudioEngine.ts:47-66 | the key loop on one primitive, in any key order, gives the whole-record sync of that primitive, and no other primitive changes |
| AudioEngine.Engine.SyncKeyOn | hooks/useAudioEngine.ts:48-65 | one iteration of the key loop changes only the primitive being synced, and that as the per-key sync says |
| AudioEngine.Engine.SyncParams | hooks/useAudioEngine.ts:39-68 | the sync does nothing when not playing; otherwise each node with a live primitive is synced with its data, at the current time |
| AudioEngine.Engine.HandleStop | hooks/useAudioEngine.ts:70-97 | on an empty table nothing changes, not even the flags; otherwise started sources are stopped at the current time, one more cleanup timer is pending, and both flags drop |
| AudioEngine.Engine.StopSources | hooks/useAudioEngine.ts:74-84 | the stop loop of `handleStop` is the stop pass over the table at the given time |
| AudioEngine.Engine.FireCleanup | hooks/useAudioEngine.ts:86-93 | a timer disconnects every primitive but the destination in the table as it is when it fires, then empties the table; the flags do not change |
| AudioEngine.Engine.DisconnectSources | hooks/useAudioEngine.ts:87-91 | the timer's loop is the disconnect pass over the table |
| AudioEngine.Engine.InstantiateBufferSource | hooks/useAudioEngine.ts:133-162 | the buffer-source arm is the hook's step for that node, including the cache lookup and the awaited load |
| AudioEngine.Engine.BuildSource | hooks/useAudioEngine.ts:134-160 | the arm appends exactly one buffer source, with the resolved buffer and the playback rate `toNumber` gives, and moves the loader as the sample resolution does |
| AudioEngine.Engine.CreateBufferSource | hooks/useAudioEngine.ts:134-154 | `createBufferSource()` and the sample handling append exactly one buffer source holding the resolved buffer |
| AudioEngine.Engine.ResolveSampleInto | hooks/useAudioEngine.ts:135-154 | the source gets the cached or loaded buffer the sample resolves to, or none, and the loader takes the state the resolution gives |
| AudioEngine.Engine.InstantiateOther | hooks/useAudioEngine.ts:108-169 | every arm but the buffer source instantiates a node exactly as the compiler's step does |
| AudioEngine.Engine.InstantiateOne | hooks/useAudioEngine.ts:108-169 | one pass of the loop's switch on the node type is the hook's step for that node |
| AudioEngine.Engine.CreateConfigured | hooks/useAudioEngine.ts:110-132 | creating an oscillator, gain, filter or panner appends exactly the primitive configured from its data, at the next handle |
| AudioEngine.Engine.InstantiateNodes | hooks/useAudioEngine.ts:107-170 | the instantiation loop, in map order up to the first throw, is the hook's instantiation fold |
| AudioEngine.Engine.WireConnections | hooks/useAudioEngine.ts:172-185 | the wiring loop wires the connection list in order and throws at its first falsy entry, naming that position |
| AudioEngine.Engine.StartSources | hooks/useAudioEngine.ts:187-191 | the start loop is the start pass over the table at the given time |
| AudioEngine.Engine.ClearForPlay | hooks/useAudioEngine.ts:100-105 | a leftover graph has its sources stopped at the current time, one more cleanup pending and both flags dropped; with no leftover nothing changes but the table, which ends empty either way |
| AudioEngine.Engine.Rebuild | hooks/useAudioEngine.ts:107-191 | from a cleared table, the instances, the table and the loader end as the hook's play function gives them; the flags and timers are untouched |
| AudioEngine.Engine.HandlePlay | hooks/useAudioEngine.ts:99-195 | `handlePlay` stops a leftover graph and schedules its cleanup, clears the table, then instantiates, wires and starts at the current time; it ends playing and not loading, or on a throw while instantiating or wiring leaves the flags as they stood at that point |
| AudioEngine.Engine.TogglePlay | hooks/useAudioEngine.ts:201-207 | when playing with an empty table nothing changes and the hook stays playing; when playing with a non-empty table the sources are stopped at the current time, one more cleanup is pending and both flags drop; otherwise table, primitives and loader are those of the rebuild after a leftover graph is stopped, and the flags are as `handlePlay` leaves them |
| AudioEngine.Engine.Unmount | hooks/useAudioEngine.ts:197-199 | the unmount cleanup is `handleStop`: with an empty table nothing changes, not even the flags; otherwise it stops the sources, schedules a cleanup and drops both flags |
| AudioEngine.Engine.StopThenPlay | hooks/useAudioEngine.ts:201-207 | two toggles from playing: the old graph is stopped with a cleanup timer from each, and unless the play throws the hook is playing with a table of exactly the nodes of known types |
| AudioEngine.Engine.ReplayBeforeCleanup | hooks/useAudioEngine.ts:86-105 | stop and play again before the 100 ms timer fires: the rebuilt table holds exactly the nodes of known types, and the first timer then empties the table and leaves each of their non-destination primitives without connections, while the hook still reports playing |
| AudioEngine.Engine.ToggleAfterReplay | hooks/useAudioEngine.ts:70-72 | after that replay, any number of further toggles leave the hook reporting playing, with an empty table and no new cleanup |
| BufferManager.Load | runtime/bufferManager.ts:16-49 | a cached key returns its buffer and changes nothing; a key in flight returns the stored promise; an unconfigured key rejects and changes nothing; otherwise one fetch of its URL is started and recorded in flight; the loader invariant is kept |
| BufferManager.Settle | runtime/bufferManager.ts:35-45 | a successful load caches the buffer and leaves the in-flight map in the same step; a failed one leaves the cache alone and keeps the rejected promise in flight |
| BufferManager.LoadsCoalesce | runtime/bufferManager.ts:24-26 | two loads of one key before it completes share one pending promise and one fetch |
| BufferManager.UnconfiguredKeyRejects | runtime/bufferManager.ts:28-31 | a key other than `speech` and `music` rejects and leaves both maps unchanged |
| BufferManager.FailedLoadIsSticky | runtime/bufferManager.ts:36-47 | after a failure every later load of the key returns the same rejection, starts no fetch, and the key is never cached |
| BufferManager.CompletedLoadIsCached | runtime/bufferManager.ts:20-22 | after a success every later load returns the decoded buffer at once |
| BufferManager.SampleKeyOf | runtime/bufferManager.ts:57-61 | a node yields a key exactly when it is a buffer source whose `sample` is a string, and the key is that string |
| BufferManager.CollectKeysSpec | runtime/bufferManager.ts:55-63 | the collected keys are distinct and are exactly the string samples of the buffer-source nodes |
| BufferManager.CollectKeys | runtime/bufferManager.ts:55-63 | collecting only appends: the keys gathered so far stay first, in order |
| BufferManager.CollectSampleKeys | runtime/bufferManager.ts:55-63 | the collecting loop gives the key fold over the nodes in map order |
| BufferManager.LoadEachFetchesOnce | runtime/bufferManager.ts:65 | loading distinct keys fetches exactly the configured, uncached keys not in flight, each once, in order |
| BufferManager.LoadEach | runtime/bufferManager.ts:65 | loading the keys in turn gives one promise per key and keeps the loader invariant |
| BufferManager.Manager.constructor | runtime/bufferManager.ts:9-10 | both maps start empty |
| BufferManager.Manager.GetCachedBuffer | runtime/bufferManager.ts:12-14 | a buffer exactly for a cached key, and it is the cached one |
| BufferManager.Manager.LoadBufferForKey | runtime/bufferManager.ts:16-49 | the method's new state and promise are those of `Load` |
| BufferManager.Manager.CompleteLoad | runtime/bufferManager.ts:35-45 | the method's new state is that of `Settle` |
| BufferManager.Manager.EnsureBuffersForNodes | runtime/bufferManager.ts:51-66 | each distinct string sample of the buffer-source nodes is requested once; the new fetches are exactly those the keys need |
| BufferManager.Manager.LoadKeys | runtime/bufferManager.ts:65 | loading the keys one by one gives the state and promises of `loadBufferForKey` applied in order |
| GraphStore.DecimalDigitsInjective | stores/graphDataAtoms.ts:33 | distinct timestamps render as distinct decimal strings |
| GraphStore.NewNodeIdsDiffer | stores/graphDataAtoms.ts:33 | two nodes of one type added at different milliseconds get different ids |
| GraphStore.AddNode | stores/graphDataAtoms.ts:28-41 | one node is appended with id `type_<now>`, the given type, empty data and a position in [100, 300); earlier nodes, connections and the raised node are unchanged |
| GraphStore.KeepNodes | stores/graphDataAtoms.ts:51 | the kept nodes are exactly those whose id differs |
| GraphStore.KeepConnections | stores/graphDataAtoms.ts:55-57 | the kept entries are exactly the non-falsy connections not touching the id |
| GraphStore.KeepNodesAppend | stores/graphDataAtoms.ts:51 | node removal keeps the others in their original order |
| GraphStore.KeepConnectionsAppend | stores/graphDataAtoms.ts:55-57 | connection removal keeps the others in their original order |
| GraphStore.RemoveNode | stores/graphDataAtoms.ts:43-64 | removal never adds a node or a connection, never keeps a node with a removed id, and changes the raised node only by clearing it when it was the removed id |
| GraphStore.RemoveDestinationIsNoop | stores/graphDataAtoms.ts:46-48 | removing `destination_1` leaves the nodes, the connections and the raised node unchanged |
| GraphStore.RemoveNodeCascades | stores/graphDataAtoms.ts:50-62 | removing another id deletes exactly its nodes, every connection touching it and every falsy entry, and clears the raised node exactly when it was that id |
| GraphStore.RemoveNodeIdempotent | stores/graphDataAtoms.ts:43-64 | removing an id twice gives the same store as removing it once |
| GraphStore.UpdateNodePositionPreserves | stores/graphDataAtoms.ts:66-77 | a null payload changes nothing; otherwise length, order, ids, types and data are kept and only nodes with the id move |
| GraphStore.UpdateNodePosition | stores/graphDataAtoms.ts:66-77 | a move keeps the node count, every id in place, the connections and the raised node |
| GraphStore.IndexFromKeys | stores/graphDataAtoms.ts:82-85 | the map fold keys are the accumulator's keys plus the list's ids |
| GraphStore.IndexFromLast | stores/graphDataAtoms.ts:83-85 | the map fold maps each id to the last node carrying it |
| GraphStore.NodesMapIndexesLastNode | stores/graphDataAtoms.ts:80-87 | the index has exactly the list's ids as keys, each once, and a duplicated id maps to its later node; with distinct ids the keys are the ids in list order |
| GraphStore.NodesMap | stores/graphDataAtoms.ts:80-87 | the index is a valid map whose keys are the list's ids, each once, in the order of their first occurrence |
| GraphStore.IndexFromOrder | stores/graphDataAtoms.ts:82-85 | the map fold lists the accumulator's keys first, then the list's new ids in the order of their first occurrence |
| NodeRegistry.Registered | runtime/nodeRegistry.ts:51-53 | after registering, the type name looks up the descriptor; every other entry is unchanged; the registry grows by one exactly when the type is new |
| NodeRegistry.RegisterCommutes | runtime/nodeRegistry.ts:52 | registering two descriptors of different type names gives the same registry in either order |
| NodeRegistry.RegisteredAllDistinct | runtime/nodeRegistry.ts:49-53 | registering descriptors with distinct type names adds exactly those names, each mapped to its own descriptor, and keeps every other entry |
| NodeRegistry.Registry.constructor | runtime/nodeRegistry.ts:49 | the registry starts empty |
| NodeRegistry.Registry.Get | runtime/nodeRegistry.ts:49 | a lookup finds a descriptor exactly for a registered type, and it is the registered one |
| NodeRegistry.Registry.RegisterNode | runtime/nodeRegistry.ts:51-53 | `registerNode` stores the descriptor under its type name, replacing any earlier one |
| NodeRegistry.Registry.RegisterAll | runtime/nodeRegistry.ts:51-53 | a sequence of `registerNode` calls registers the descriptors in order |
| AudioNodes.LoadAudioNodes | runtime/audioNodes.ts:5-109 | loading the catalogue registers its ten descriptors in order |
| AudioNodes.DescriptorNamesDistinct | runtime/audioNodes.ts:5-109 | the ten type names are pairwise distinct |
| AudioNodes.RegistryHasTenEntries | runtime/audioNodes.ts:5-109 | loaded into an empty registry, the catalogue gives exactly ten entries, each type name mapped to its own descriptor |
| AudioNodes.DestinationSockets | runtime/audioNodes.ts:5-10 | the destination has the single audio input `input` and no outputs |
| AudioNodes.DescriptorsWellFormed | runtime/audioNodes.ts:20-65 | every slider default lies in its range with a positive step, every selector default is an option, and socket names are unique per side |
| AudioNodes.SampleSourcesCompute | runtime/audioNodes.ts:84-96 | `Music` and `Speech` compute to the sample keys `music` and `speech` on a param-kind output |
| LegacyAudioNodes.LoadLegacyAudioNodes | runtime/audioNodes.js:4-72 | loading the older catalogue registers its six descriptors in order |
| LegacyAudioNodes.LegacyRegistryHasSixEntries | runtime/audioNodes.js:4-72 | the six type names are distinct and give exactly six entries, each type name mapped to its own descriptor |
| LegacyAudioNodes.LegacyDescriptorsWellFormed | runtime/audioNodes.js:20-70 | every slider default lies in its range and every selector default is one of its options |
| LegacyAudioNodes.LegacyInputSockets | runtime/audioNodes.js:4-42 | the filter takes audio on `input` and param signals on `frequency` and `Q`; the oscillator takes a param signal on `frequency`; the destination has one audio input and no outputs |

## Left out

- User interface: canvas rendering, gestures, socket snapping and the
  connection overlay are not part of this model. Connections are taken to
  arrive with arbitrary endpoints, which the compiler tolerates.
- React and jotai plumbing: state hooks, effect dependencies and atom
  subscriptions. Only the bodies are modelled, as state transitions.
  `compiledGraphAtom` (stores/graphDataAtoms.ts:89-95) only calls
  `compileAudioGraph`, so it has no member of its own.
- Audio signal semantics: what `connect`, `start`, `stop` and
  `setTargetAtTime` do to sound is not modelled. The primitives record which
  calls were made and with which arguments. `setTargetAtTime` is logged as
  automation and does not change the param's `value`, so a later sync with
  the same data schedules again.
- Network and decoding: `fetch`, `response.arrayBuffer()` and
  `decodeAudioData` are the environment. A load completes through
  `CompleteLoad` or the `fetchOutcome` parameter, with success or failure.
- Timers: `setTimeout` becomes a pending cleanup that `FireCleanup` delivers.
  The compiler's delay is recorded, but the model does not tie the firing to
  the passing of that much time.
- Concurrency at `await`: in `handlePlay` each awaited load completes before
  the loop goes on. Other events (a stop, a sync, a second play) arriving
  during the await are not interleaved. The audio clock is also held fixed
  across an awaited load. `handlePlay` reads `currentTime` for `start` only
  after its loads, so a source whose sample was not yet cached really starts
  later than the moment of the call. `AudioEngine.Engine.Rebuild` and
  `HandlePlay` record the time at the call as the start time instead.
- `Date.now()`, `Math.random()` and `Number(string)` are parameters.
- `SAMPLE_URLS` lookups through inherited object properties (a sample key
  such as `constructor`) are not modelled. Only `speech` and `music` have a
  URL.
- `compute`: every `compute` ignores its arguments and returns a constant
  record. The model keeps that record as the descriptor's `computed` map.
- The values of `RADIO_EXAMPLE` and `MUSIC_EXAMPLE`: constants/AudioSources
  is not part of this model, so the catalogue takes them as parameters.
- `connect` called on the destination (a connection out of the destination
  node) is wired like any other. The library's behaviour there is not part
  of this model.
- Members addressed by a sync key other than the params and plain
  attributes (methods, `buffer`, `onended`) are treated as absent, so the
  sync leaves them alone.
- Order of `for ... in` keys: the sync is proved independent of the key
  order, so no particular order is modelled.
- `paramValue`: the model does not fix the single-precision rounding
  function. The sync is proved for every choice of it.
- CompileGraph.CompiledGraph.Stop: a negative `time` makes the library's
  `stop` raise a RangeError, which is swallowed, so the source is not
  stopped. A NaN `time` gives a NaN delay. The model records the stop at any
  real time it is given. No caller of `stop` passes a time.
- Numbers: the sign of zero and double rounding are not modelled. Numbers are
  reals plus NaN and the two infinities.

=== FILE: audio_engine.dfy ===
/**
 * The playback hook `useAudioEngine`: it keeps its own instance table, builds
 * the graph the way the compiler does (and also resolves samples for buffer
 * sources through the buffer cache), pushes live edits of node data into the
 * running primitives, and drives play, stop and teardown. React state and
 * effects become the fields and methods of an `Engine`; each `setTimeout`
 * cleanup is a pending event that `FireCleanup` delivers.
 */
module AudioEngine {
  import opened Wrappers
  import opened JsValues
  import opened OrderedMaps
  import opened Primitives
  import opened GraphStore
  import opened Playback
  import opened BufferManager

  /** `toNumber(v)`: a finite number as is, a string through `Number(...)` when that is finite, nothing otherwise. */
  function ToNumber(v: Value, numberOf: string -> Number): (r: Option<real>)
    ensures r.Some? <==> (v.Num? && v.n.Finite?) || (v.Str? && numberOf(v.s).Finite?)
    ensures v.Num? && v.n.Finite? ==> r == Some(v.n.r)
    ensures v.Str? && numberOf(v.s).Finite? ==> r == Some(numberOf(v.s).r)
  {
    match v
    case Num(n) => if n.Finite? then Some(n.r) else None
    case Str(s) => var n := numberOf(s); if n.Finite? then Some(n.r) else None
    case _ => None
  }

  // ---------------------------------------------------------------- instantiation with samples

  /**
   * Resolving a buffer source's `sample`: nothing for a falsy one; a string is
   * looked up in the cache and, on a miss, loaded and awaited (the pending
   * fetch completing with `fetchOutcome`); a failed load leaves the source
   * without a buffer. A truthy non-string misses the cache and has no URL, so
   * its load rejects without touching the loader.
   */
  function ResolveSample(sample: Value, st: LoaderState, fetchOutcome: string -> Result<Buffer, LoadError>): (r: (LoaderState, Option<Buffer>))
    ensures !Truthy(sample) || !sample.Str? ==> r == (st, None)
    ensures Truthy(sample) && sample.Str? && sample.s in st.cache ==> r == (st, Some(st.cache[sample.s]))
    ensures r.1.Some? ==> sample.Str? && sample.s in r.0.cache && r.0.cache[sample.s] == r.1.value
    ensures Truthy(sample) && sample.Str? && sample.s !in st.cache && sample.s in st.loads && st.loads[sample.s].status.Failed? ==> r == (st, None)
    ensures Truthy(sample) && sample.Str? && sample.s !in st.cache && sample.s !in SampleUrls && sample.s !in st.loads ==> r == (st, None)
    ensures LoaderValid(st) ==> LoaderValid(r.0)
  {
    if !Truthy(sample) || !sample.Str? then (st, None)
    else
      var key := sample.s;
      if key in st.cache then (st, Some(st.cache[key]))
      else
        var (st1, p) := Load(st, key);
        match p
        case Resolved(b) => (st1, Some(b))
        case Rejected(_) => (st1, None)
        case Waiting(_) =>
          var outcome := fetchOutcome(key);
          (Settle(st1, key, outcome), if outcome.Ok? then Some(outcome.value) else None)
  }

  /** `source.playbackRate.value = playback` when `toNumber` gave a value. */
  function WithPlaybackRate(source: Instance, rate: Option<real>): (r: Instance)
    requires source.kind == BufferSource && "playbackRate" in source.params
    ensures r.kind == BufferSource && r.buffer == source.buffer
  {
    if rate.Some? then WithParamValue(source, "playbackRate", Num(Finite(rate.value))) else source
  }

  /**
   * The hook's step for one node. Every kind but the buffer source is handled
   * exactly as the compiler does. A buffer source is created, its sample is
   * resolved (`data?.sample` tolerates missing data), and then
   * `toNumber(data.playbackRate)` throws when the data is undefined.
   */
  function EngineStep(id: string, node: GraphNode, b: Built, st: LoaderState,
                      numberOf: string -> Number, fetchOutcome: string -> Result<Buffer, LoadError>): (r: (Built, LoaderState, bool))
    ensures r.2 <==> ThrowsOn(node)
    ensures |b.instances| <= |r.0.instances| <= |b.instances| + 1 && r.0.instances[..|b.instances|] == b.instances
  {
    if KindOf(node.nodeType) == Some(BufferSource) then SourceStep(id, node, b, st, numberOf, fetchOutcome)
    else
      var (b1, threw) := CompileNode(id, node, b);
      (b1, st, threw)
  }

  /**
   * The buffer-source arm of the hook's step: the new source is recorded in
   * the table unless `toNumber(data.playbackRate)` threw on undefined data.
   */
  function SourceStep(id: string, node: GraphNode, b: Built, st: LoaderState,
                      numberOf: string -> Number, fetchOutcome: string -> Result<Buffer, LoadError>): (r: (Built, LoaderState, bool))
  {
    var (st1, source) := NewSource(node, st, numberOf, fetchOutcome);
    if node.data.None? then (Built(b.table, b.instances + [source]), st1, true)
    else (Built(b.table.Set(id, |b.instances|), b.instances + [source]), st1, false)
  }

  /**
   * The buffer source the arm builds: created, given the buffer its sample
   * resolves to, then given the playback rate `toNumber` yields (undefined
   * data throws before that assignment).
   */
  function NewSource(node: GraphNode, st: LoaderState,
                     numberOf: string -> Number, fetchOutcome: string -> Result<Buffer, LoadError>): (r: (LoaderState, Instance))
  {
    var (st1, buf) := ResolveSample(OptionalProperty(node.data, "sample"), st, fetchOutcome);
    var source := Fresh(BufferSource).(buffer := buf);
    if node.data.None? then (st1, source)
    else (st1, WithPlaybackRate(source, ToNumber(Property(node.data.value, "playbackRate"), numberOf)))
  }

  /** The hook's instantiation loop, in map order, stopping at the first throw. */
  function EngineAll(ids: seq<string>, nodes: map<string, GraphNode>, b: Built, st: LoaderState,
                     numberOf: string -> Number, fetchOutcome: string -> Result<Buffer, LoadError>): (r: (Built, LoaderState, Option<string>))
    requires forall id :: id in ids ==> id in nodes
    ensures r.2.Some? ==> r.2.value in ids && ThrowsOn(nodes[r.2.value])
    ensures |b.instances| <= |r.0.instances| && r.0.instances[..|b.instances|] == b.instances
    decreases |ids|
  {
    if ids == [] then (b, st, None)
    else
      var (next, st1, threw) := EngineStep(ids[0], nodes[ids[0]], b, st, numberOf, fetchOutcome);
      if threw then (next, st1, Some(ids[0])) else EngineAll(ids[1..], nodes, next, st1, numberOf, fetchOutcome)
  }

  /**
   * Nodes that are not buffer sources are instantiated by the hook exactly as
   * by the compiler, and the loader is not consulted for them.
   */
  lemma EngineStepAgreesWithCompiler(id: string, node: GraphNode, b: Built, st: LoaderState,
                                     numberOf: string -> Number, fetchOutcome: string -> Result<Buffer, LoadError>)
    requires KindOf(node.nodeType) != Some(BufferSource)
    ensures var (b1, st1, threw) := EngineStep(id, node, b, st, numberOf, fetchOutcome);
      (b1, threw) == CompileNode(id, node, b) && st1 == st
  {
  }

  /**
   * A buffer source with data always gets its entry: its buffer is the one the
   * cache holds for its sample afterwards (or none when the load failed or
   * there is no string sample), and its playback rate is set exactly when
   * `toNumber` yields a value. Without data it still resolves its sample, then throws.
   */
  lemma BufferSourceStep(id: string, node: GraphNode, b: Built, st: LoaderState,
                         numberOf: string -> Number, fetchOutcome: string -> Result<Buffer, LoadError>)
    requires node.nodeType == "AudioBufferSource"
    ensures var (b1, st1, threw) := EngineStep(id, node, b, st, numberOf, fetchOutcome);
      var sample := OptionalProperty(node.data, "sample");
      && (threw <==> node.data.None?)
      && |b1.instances| == |b.instances| + 1 && b1.instances[..|b.instances|] == b.instances
      && var source := b1.instances[|b.instances|];
      && source.kind == BufferSource
      && st1 == ResolveSample(sample, st, fetchOutcome).0
      && source.buffer == ResolveSample(sample, st, fetchOutcome).1
      && (source.buffer.Some? ==> sample.Str? && st1.cache[sample.s] == source.buffer.value)
      && (!threw ==>
            && b1.table == b.table.Set(id, |b.instances|)
            && var rate := ToNumber(Property(node.data.value, "playbackRate"), numberOf);
               source.params["playbackRate"].value == if rate.Some? then Num(Finite(rate.value)) else Num(Finite(1.0)))
      && (threw ==> b1.table == b.table)
  {
    var (b1, st1, threw) := EngineStep(id, node, b, st, numberOf, fetchOutcome);
    assert b1.instances[..|b.instances|] == b.instances;
  }

  /** A single step keeps the table well formed, never touches an existing primitive and keeps the loader valid. */
  lemma EngineStepKeepsTable(id: string, node: GraphNode, b: Built, st: LoaderState,
                             numberOf: string -> Number, fetchOutcome: string -> Result<Buffer, LoadError>)
    requires TableOk(b.table, |b.instances|) && LoaderValid(st)
    ensures var (r, st1, threw) := EngineStep(id, node, b, st, numberOf, fetchOutcome);
      && TableOk(r.table, |r.instances|) && LoaderValid(st1)
      && |b.instances| <= |r.instances| && r.instances[..|b.instances|] == b.instances
      && (threw <==> ThrowsOn(node))
      && (!threw ==> forall x :: x in r.table.entries <==> x in b.table.entries || (x == id && KindOf(node.nodeType).Some?))
  {
    if KindOf(node.nodeType) == Some(BufferSource) {
      var (r, st1, threw) := EngineStep(id, node, b, st, numberOf, fetchOutcome);
      if threw {
        TableOkGrow(b.table, |b.instances|, |b.instances| + 1);
      } else {
        TableOkSetFresh(b.table, |b.instances|, id);
      }
      assert r.instances[..|b.instances|] == b.instances;
    } else {
      CompileNodeKeepsTable(id, node, b);
    }
  }

  /**
   * The hook's instantiation loop keeps the table well formed and the loader
   * valid, leaves old primitives alone, throws only on a node whose kind needs
   * a primitive but whose data is undefined, and without a throw gives an
   * entry exactly to the nodes of known types (and the old entries).
   */
  lemma {:induction false} EngineAllSpec(ids: seq<string>, nodes: map<string, GraphNode>, b: Built, st: LoaderState,
                                         numberOf: string -> Number, fetchOutcome: string -> Result<Buffer, LoadError>)
    requires forall id :: id in ids ==> id in nodes
    requires TableOk(b.table, |b.instances|) && LoaderValid(st)
    ensures var (r, st1, thrown) := EngineAll(ids, nodes, b, st, numberOf, fetchOutcome);
      && TableOk(r.table, |r.instances|) && LoaderValid(st1)
      && |b.instances| <= |r.instances| && r.instances[..|b.instances|] == b.instances
      && (thrown.Some? ==> thrown.value in ids && ThrowsOn(nodes[thrown.value]))
      && (thrown.None? ==>
            && (forall id :: id in ids ==> !ThrowsOn(nodes[id]))
            && (forall id :: id in r.table.entries <==> id in b.table.entries || (id in ids && KindOf(nodes[id].nodeType).Some?)))
    decreases |ids|
  {
    if ids != [] {
      var (next, st1, threw) := EngineStep(ids[0], nodes[ids[0]], b, st, numberOf, fetchOutcome);
      EngineStepKeepsTable(ids[0], nodes[ids[0]], b, st, numberOf, fetchOutcome);
      if !threw {
        EngineAllSpec(ids[1..], nodes, next, st1, numberOf, fetchOutcome);
        var (r, st2, thrown) := EngineAll(ids, nodes, b, st, numberOf, fetchOutcome);
        assert (r, st2, thrown) == EngineAll(ids[1..], nodes, next, st1, numberOf, fetchOutcome);
        if thrown.None? {
          forall id | id in ids ensures !ThrowsOn(nodes[id]) {
            if id != ids[0] { assert id in ids[1..]; }
          }
          forall id ensures id in r.table.entries <==> id in b.table.entries || (id in ids && KindOf(nodes[id].nodeType).Some?) {
            if id != ids[0] { assert id in ids <==> id in ids[1..]; }
          }
        }
      }
    }
  }

  /**
   * What `handlePlay` does once the table has been cleared: instantiate on an
   * empty table over the primitives `insts`; unless that throws, wire and
   * start everything at `time`, unless the wiring loop throws on a falsy
   * entry of the connection list.
   */
  function EnginePlayed(nodes: OrderedMap<GraphNode>, conns: seq<Option<Connection>>, insts: seq<Instance>, st: LoaderState, time: real,
                        numberOf: string -> Number, fetchOutcome: string -> Result<Buffer, LoadError>): (r: (Built, LoaderState, Option<Thrown>))
    requires nodes.Valid() && |insts| > 0 && LoaderValid(st)
    ensures TableOk(r.0.table, |r.0.instances|) && LoaderValid(r.1)
    ensures r.2.None? ==> forall id :: id in r.0.table.entries <==> id in nodes.entries && KindOf(nodes.entries[id].nodeType).Some?
  {
    EngineAllSpec(nodes.keys, nodes.entries, Built(Empty(), insts), st, numberOf, fetchOutcome);
    var (built, st1, thrown) := EngineAll(nodes.keys, nodes.entries, Built(Empty(), insts), st, numberOf, fetchOutcome);
    if thrown.Some? then (built, st1, Some(DataUndefined(thrown.value)))
    else
      var (r, falsy) := WireAndStart(built, conns, time);
      (r, st1, if falsy.Some? then Some(FalsyConnection(falsy.value)) else None)
  }

  // ---------------------------------------------------------------- live parameter sync

  /** The time constant of the smoothed approach, in seconds. */
  const SmoothingTimeConstant: real := 0.015

  /**
   * One key of the sync pass on one primitive, as the loop body does it. A
   * param is compared through `paramValue`, what its `value` getter reports for
   * the value last assigned to it: the audio library keeps params in single
   * precision (0.35 reads back as 0.3499999940395355) and reads `null` as 0, so
   * a value it cannot hold exactly differs from itself and is scheduled again.
   */
  function SyncKey(inst: Instance, key: string, v: Value, now: real, paramValue: Value -> Value): (r: Instance)
    ensures r.kind == inst.kind && r.outputs == inst.outputs && r.buffer == inst.buffer
    ensures r.starts == inst.starts && r.stops == inst.stops && r.disconnects == inst.disconnects
    ensures r.params.Keys == inst.params.Keys && r.fields.Keys == inst.fields.Keys
    ensures forall n :: n in r.params ==> r.params[n].value == inst.params[n].value
    ensures forall n :: n in r.fields && n != key ==> r.fields[n] == inst.fields[n]
  {
    if v == Undefined then inst
    else if key in inst.params then
      if !StrictEquals(paramValue(inst.params[key].value), v) then WithScheduledTarget(inst, key, v, now, SmoothingTimeConstant) else inst
    else if key in inst.fields && inst.fields[key] != Undefined && !StrictEquals(inst.fields[key], v) then WithField(inst, key, v)
    else inst
  }

  /** A param's share of the sync: a smoothed approach to `v` when `v` is defined and differs from the value the param reports. */
  function SyncParam(p: Param, v: Value, now: real, paramValue: Value -> Value): Param
  {
    if v != Undefined && !StrictEquals(paramValue(p.value), v) then p.(automation := p.automation + [SetTarget(v, now, SmoothingTimeConstant)]) else p
  }

  /** A plain attribute's share: assigned when it exists (is not undefined), is no param, and `v` is defined and differs. */
  function SyncField(isParam: bool, current: Value, v: Value): Value
  {
    if !isParam && v != Undefined && current != Undefined && !StrictEquals(current, v) then v else current
  }

  /** The params' share of the sync. */
  function SyncParamMap(params: map<string, Param>, data: map<string, Value>, now: real, paramValue: Value -> Value): (r: map<string, Param>)
    ensures r.Keys == params.Keys
    ensures forall n :: n in r ==> r[n].value == params[n].value
  {
    map n | n in params :: SyncParam(params[n], Property(data, n), now, paramValue)
  }

  /** The plain attributes' share of the sync. */
  function SyncFieldMap(params: map<string, Param>, fields: map<string, Value>, data: map<string, Value>): (r: map<string, Value>)
    ensures r.Keys == fields.Keys
  {
    map n | n in fields :: SyncField(n in params, fields[n], Property(data, n))
  }

  /**
   * The sync pass on one primitive, as a whole: every param and every plain
   * attribute takes its share of `data`, independently of the others; keys of
   * `data` that name neither are ignored.
   */
  function SyncInstance(inst: Instance, data: map<string, Value>, now: real, paramValue: Value -> Value): (r: Instance)
    ensures r.kind == inst.kind && r.outputs == inst.outputs && r.buffer == inst.buffer
    ensures r.starts == inst.starts && r.stops == inst.stops && r.disconnects == inst.disconnects
    ensures r.params.Keys == inst.params.Keys && r.fields.Keys == inst.fields.Keys
    ensures forall n :: n in r.params ==> r.params[n].value == inst.params[n].value
  {
    inst.(params := SyncParamMap(inst.params, data, now, paramValue), fields := SyncFieldMap(inst.params, inst.fields, data))
  }

  /** Keys the data does not mention leave the sync unchanged. */
  lemma SyncUnmentioned(inst: Instance, data: map<string, Value>, now: real, key: string, paramValue: Value -> Value)
    requires key !in data
    ensures key in inst.params ==> SyncInstance(inst, data, now, paramValue).params[key] == inst.params[key]
    ensures key in inst.fields ==> SyncInstance(inst, data, now, paramValue).fields[key] == inst.fields[key]
  {
  }

  /** The params' share for one more key. */
  lemma SyncParamMapExtends(params: map<string, Param>, done: map<string, Value>, key: string, v: Value, now: real, paramValue: Value -> Value)
    requires key !in done && key in params
    ensures SyncParamMap(params, done, now, paramValue)[key := SyncParam(params[key], v, now, paramValue)] == SyncParamMap(params, done[key := v], now, paramValue)
  {
    var lhs := SyncParamMap(params, done, now, paramValue)[key := SyncParam(params[key], v, now, paramValue)];
    var rhs := SyncParamMap(params, done[key := v], now, paramValue);
    assert lhs.Keys == rhs.Keys;
    forall n | n in lhs ensures lhs[n] == rhs[n] {
      if n != key { assert Property(done, n) == Property(done[key := v], n); }
    }
  }

  /** The attributes' share for one more key. */
  lemma SyncFieldMapExtends(params: map<string, Param>, fields: map<string, Value>, done: map<string, Value>, key: string, v: Value)
    requires key !in done && key in fields
    ensures SyncFieldMap(params, fields, done)[key := SyncField(key in params, fields[key], v)] == SyncFieldMap(params, fields, done[key := v])
  {
    var lhs := SyncFieldMap(params, fields, done)[key := SyncField(key in params, fields[key], v)];
    var rhs := SyncFieldMap(params, fields, done[key := v]);
    assert lhs.Keys == rhs.Keys;
    forall n | n in lhs ensures lhs[n] == rhs[n] {
      if n != key { assert Property(done, n) == Property(done[key := v], n); }
    }
  }

  /** A key the primitive has no member for changes nothing. */
  lemma SyncMapsIgnore(inst: Instance, done: map<string, Value>, key: string, v: Value, now: real, paramValue: Value -> Value)
    requires key !in done
    ensures key !in inst.params ==> SyncParamMap(inst.params, done, now, paramValue) == SyncParamMap(inst.params, done[key := v], now, paramValue)
    ensures key !in inst.fields ==> SyncFieldMap(inst.params, inst.fields, done) == SyncFieldMap(inst.params, inst.fields, done[key := v])
  {
    if key !in inst.params {
      var lhs := SyncParamMap(inst.params, done, now, paramValue);
      var rhs := SyncParamMap(inst.params, done[key := v], now, paramValue);
      forall n | n in lhs ensures lhs[n] == rhs[n] {
        assert Property(done, n) == Property(done[key := v], n);
      }
    }
    if key !in inst.fields {
      var lhs := SyncFieldMap(inst.params, inst.fields, done);
      var rhs := SyncFieldMap(inst.params, inst.fields, done[key := v]);
      forall n | n in lhs ensures lhs[n] == rhs[n] {
        assert Property(done, n) == Property(done[key := v], n);
      }
    }
  }

  /**
   * The key-by-key loop agrees with the whole-record sync whatever order the
   * keys are visited in: applying one more key to the result of a set of
   * keys gives the sync of the set with that key added.
   */
  lemma SyncKeyExtends(orig: Instance, done: map<string, Value>, key: string, v: Value, now: real, paramValue: Value -> Value)
    requires key !in done
    ensures SyncKey(SyncInstance(orig, done, now, paramValue), key, v, now, paramValue) == SyncInstance(orig, done[key := v], now, paramValue)
  {
    var cur := SyncInstance(orig, done, now, paramValue);
    var goal := SyncInstance(orig, done[key := v], now, paramValue);
    SyncUnmentioned(orig, done, now, key, paramValue);
    SyncMapsIgnore(orig, done, key, v, now, paramValue);
    if key in orig.params {
      SyncParamMapExtends(orig.params, done, key, v, now, paramValue);
    }
    if key in orig.fields {
      SyncFieldMapExtends(orig.params, orig.fields, done, key, v);
    }
    if key in orig.params && key in orig.fields {
      assert SyncField(true, orig.fields[key], v) == orig.fields[key];
      assert cur.fields == cur.fields[key := orig.fields[key]];
    }
    if v == Undefined {
      if key in orig.params {
        assert SyncParam(orig.params[key], v, now, paramValue) == orig.params[key];
        assert cur.params == cur.params[key := orig.params[key]];
      }
      if key in orig.fields {
        assert cur.fields == cur.fields[key := orig.fields[key]];
      }
    } else if key in orig.params {
      if StrictEquals(paramValue(cur.params[key].value), v) {
        assert cur.params == cur.params[key := orig.params[key]];
      }
    } else if key in orig.fields {
      if !(orig.fields[key] != Undefined && !StrictEquals(orig.fields[key], v)) {
        assert cur.fields == cur.fields[key := orig.fields[key]];
      }
    }
  }

  /**
   * Per key, the sync of one primitive: a param whose new value is defined and
   * differs (`!==`) from the value the param reports gets exactly one
   * `setTargetAtTime(v, now, 0.015)`, keeping its value; any other param is untouched; a plain attribute changes only if it
   * exists, is no param, and the defined new value differs, and then it takes
   * the new value.
   */
  lemma SyncInstanceByKey(inst: Instance, data: map<string, Value>, now: real, paramValue: Value -> Value)
    ensures var r := SyncInstance(inst, data, now, paramValue);
      && (forall n :: n in inst.params ==>
            var v := Property(data, n);
            r.params[n].automation ==
              if v != Undefined && !StrictEquals(paramValue(inst.params[n].value), v)
              then inst.params[n].automation + [SetTarget(v, now, SmoothingTimeConstant)]
              else inst.params[n].automation)
      && (forall n :: n in inst.fields ==>
            var v := Property(data, n);
            var takes := n !in inst.params && v != Undefined && inst.fields[n] != Undefined && !StrictEquals(inst.fields[n], v);
            && (takes ==> r.fields[n] == v)
            && (!takes ==> r.fields[n] == inst.fields[n]))
  {
  }

  /**
   * Syncing a param with the very value it was last assigned schedules an
   * approach to it exactly when the param cannot report that value back
   * unchanged, as with a value single precision cannot hold.
   */
  lemma SyncSameValue(inst: Instance, key: string, v: Value, now: real, paramValue: Value -> Value)
    requires key in inst.params && inst.params[key].value == v && v != Undefined
    ensures var r := SyncKey(inst, key, v, now, paramValue);
      && r.params.Keys == inst.params.Keys && r.params[key].value == v
      && r.params[key].automation
           == if StrictEquals(paramValue(v), v) then inst.params[key].automation
              else inst.params[key].automation + [SetTarget(v, now, SmoothingTimeConstant)]
  {
  }

  /** The sync pass over the nodes in map order: each node with a live primitive has it synced with the node's data. */
  function SyncAll(ids: seq<string>, nodes: map<string, GraphNode>, table: map<string, nat>, insts: seq<Instance>, now: real, paramValue: Value -> Value): (r: seq<Instance>)
    requires forall id :: id in ids ==> id in nodes
    requires InRange(table, |insts|)
    ensures |r| == |insts|
    decreases |ids|
  {
    if ids == [] then insts
    else
      var id := ids[0];
      var next := if id in table then insts[table[id] := SyncInstance(insts[table[id]], DataOf(nodes[id]), now, paramValue)] else insts;
      SyncAll(ids[1..], nodes, table, next, now, paramValue)
  }

  /**
   * A primitive with no params and no plain attributes, as the destination is
   * (`DefaultParams(Destination)` and `DefaultFields(Destination)` are empty):
   * the sync cannot change it, whatever the data.
   */
  predicate Inert(inst: Instance)
  {
    inst.params.Keys == {} && inst.fields.Keys == {}
  }

  /** Syncing an inert primitive leaves it as it is. */
  lemma SyncInert(inst: Instance, data: map<string, Value>, now: real, paramValue: Value -> Value)
    requires Inert(inst)
    ensures SyncInstance(inst, data, now, paramValue) == inst
  {
    var r := SyncInstance(inst, data, now, paramValue);
    assert r.params == inst.params;
    assert r.fields == inst.fields;
  }

  /** The sharing condition of `SyncAllEffect` passes to the rest of the ids once the first is synced. */
  lemma SharedInertTail(ids: seq<string>, table: map<string, nat>, insts: seq<Instance>, next: seq<Instance>)
    requires |ids| > 0 && InRange(table, |insts|) && |next| == |insts|
    requires forall x :: 0 <= x < |insts| && Inert(insts[x]) ==> Inert(next[x])
    requires forall i, j :: 0 <= i < j < |ids| && ids[i] in table && ids[j] in table && table[ids[i]] == table[ids[j]] ==>
               ids[i] != ids[j] && Inert(insts[table[ids[i]]])
    ensures forall i, j :: 0 <= i < j < |ids[1..]| && ids[1..][i] in table && ids[1..][j] in table && table[ids[1..][i]] == table[ids[1..][j]] ==>
               ids[1..][i] != ids[1..][j] && Inert(next[table[ids[1..][i]]])
  {
    forall i, j | 0 <= i < j < |ids[1..]| && ids[1..][i] in table && ids[1..][j] in table && table[ids[1..][i]] == table[ids[1..][j]]
      ensures ids[1..][i] != ids[1..][j] && Inert(next[table[ids[1..][i]]])
    {
      assert ids[1..][i] == ids[i + 1] && ids[1..][j] == ids[j + 1];
    }
  }

  /**
   * What one pass of the sync effect does to handle `h`: the listed ids are
   * the keys of a map, so distinct, and two of them share a primitive only
   * when it is inert, as the destination nodes sharing handle 0 do. The
   * primitive at `h` is then synced against the data of any node living
   * there, and a handle no listed id holds is untouched.
   */
  lemma {:induction false} SyncAllEffect(ids: seq<string>, nodes: map<string, GraphNode>, table: map<string, nat>, insts: seq<Instance>,
                                         now: real, paramValue: Value -> Value, h: nat)
    requires forall id :: id in ids ==> id in nodes
    requires InRange(table, |insts|) && h < |insts|
    requires forall i, j :: 0 <= i < j < |ids| && ids[i] in table && ids[j] in table && table[ids[i]] == table[ids[j]] ==>
               ids[i] != ids[j] && Inert(insts[table[ids[i]]])
    ensures var r := SyncAll(ids, nodes, table, insts, now, paramValue);
      && (forall i :: 0 <= i < |ids| && ids[i] in table && table[ids[i]] == h ==>
            r[h] == SyncInstance(insts[h], DataOf(nodes[ids[i]]), now, paramValue))
      && ((forall id :: id in ids && id in table ==> table[id] != h) ==> r[h] == insts[h])
    decreases |ids|
  {
    if Inert(insts[h]) {
      SyncAllInert(ids, nodes, table, insts, now, paramValue, h);
      forall i | 0 <= i < |ids| && ids[i] in table && table[ids[i]] == h
        ensures SyncAll(ids, nodes, table, insts, now, paramValue)[h] == SyncInstance(insts[h], DataOf(nodes[ids[i]]), now, paramValue)
      {
        SyncInert(insts[h], DataOf(nodes[ids[i]]), now, paramValue);
      }
    } else if ids != [] {
      var id := ids[0];
      var next := if id in table then insts[table[id] := SyncInstance(insts[table[id]], DataOf(nodes[id]), now, paramValue)] else insts;
      SharedInertTail(ids, table, insts, next);
      SyncAllEffect(ids[1..], nodes, table, next, now, paramValue, h);
      var r := SyncAll(ids, nodes, table, insts, now, paramValue);
      assert r == SyncAll(ids[1..], nodes, table, next, now, paramValue);
      if id in table && table[id] == h {
        // A primitive that is not inert is held by one listed id at most.
        forall id' | id' in ids[1..] && id' in table
          ensures table[id'] != h
        {
          var j :| 0 <= j < |ids[1..]| && ids[1..][j] == id';
          assert ids[j + 1] == id';
        }
      } else {
        forall i | 0 <= i < |ids| && ids[i] in table && table[ids[i]] == h
          ensures r[h] == SyncInstance(insts[h], DataOf(nodes[ids[i]]), now, paramValue)
        {
          assert ids[1..][i - 1] == ids[i];
        }
      }
    }
  }

  /** An inert primitive comes out of the whole sync pass as it went in. */
  lemma {:induction false} SyncAllInert(ids: seq<string>, nodes: map<string, GraphNode>, table: map<string, nat>, insts: seq<Instance>,
                                        now: real, paramValue: Value -> Value, h: nat)
    requires forall id :: id in ids ==> id in nodes
    requires InRange(table, |insts|) && h < |insts| && Inert(insts[h])
    ensures SyncAll(ids, nodes, table, insts, now, paramValue)[h] == insts[h]
    decreases |ids|
  {
    if ids != [] {
      var id := ids[0];
      var next := if id in table then insts[table[id] := SyncInstance(insts[table[id]], DataOf(nodes[id]), now, paramValue)] else insts;
      if id in table && table[id] == h {
        SyncInert(insts[h], DataOf(nodes[id]), now, paramValue);
      }
      assert next[h] == insts[h];
      SyncAllInert(ids[1..], nodes, table, next, now, paramValue, h);
    }
  }

  /** `for (const key in node.data)`: undefined data has no keys. */
  function DataOf(node: GraphNode): map<string, Value>
  {
    if node.data.Some? then node.data.value else map[]
  }

  // ---------------------------------------------------------------- the hook

  class Engine {
    const ctx: AudioContext
    const buffers: Manager
    /** `activeNodesRef.current`: one map for the hook's whole life, shared with every cleanup timer. */
    var active: OrderedMap<nat>
    var isPlaying: bool
    var isLoading: bool
    /** Cleanup timers scheduled and not yet fired; they are never cancelled. */
    var pendingCleanups: nat

    ghost predicate Valid()
      reads this`active, ctx, buffers
    {
      ctx.Valid() && buffers.Valid() && TableOk(active, |ctx.instances|)
    }

    /** A mounted hook: nothing playing, nothing loading, an empty table. */
    constructor (ctx: AudioContext, buffers: Manager)
      requires ctx.Valid() && buffers.Valid()
      ensures Valid() && this.ctx == ctx && this.buffers == buffers
      ensures active == Empty() && !isPlaying && !isLoading && pendingCleanups == 0
    {
      this.ctx := ctx;
      this.buffers := buffers;
      active := Empty();
      isPlaying := false;
      isLoading := false;
      pendingCleanups := 0;
    }

    /** The sync pass on one primitive, visiting the keys of `data` in any order. */
    method SyncNode(h: nat, data: map<string, Value>, paramValue: Value -> Value)
      requires ctx.Valid() && h < |ctx.instances|
      modifies ctx
      ensures ctx.Valid() && ctx.currentTime == old(ctx.currentTime)
      ensures ctx.instances == old(ctx.instances)[h := SyncInstance(old(ctx.instances)[h], data, old(ctx.currentTime), paramValue)]
    {
      var remaining := data.Keys;
      ghost var done: map<string, Value> := map[];
      ghost var orig := ctx.instances[h];
      assert SyncInstance(orig, map[], ctx.currentTime, paramValue) == orig;
      while remaining != {}
        invariant ctx.Valid() && ctx.currentTime == old(ctx.currentTime) && |ctx.instances| == |old(ctx.instances)|
        invariant remaining <= data.Keys && done.Keys == data.Keys - remaining
        invariant forall k :: k in done ==> done[k] == data[k]
        invariant ctx.instances == old(ctx.instances)[h := SyncInstance(orig, done, ctx.currentTime, paramValue)]
        decreases remaining
      {
        var key :| key in remaining;
        var newValue := data[key];
        SyncKeyExtends(orig, done, key, newValue, ctx.currentTime, paramValue);
        ghost var before := ctx.instances;
        SyncKeyOn(h, key, newValue, paramValue);
        UpdateTwice(old(ctx.instances), h, before[h], ctx.instances[h]);
        remaining := remaining - {key};
        done := done[key := newValue];
      }
      assert done == data;
    }

    /** The loop body of the sync pass for one key of `data`. */
    method SyncKeyOn(h: nat, key: string, newValue: Value, paramValue: Value -> Value)
      requires ctx.Valid() && h < |ctx.instances|
      modifies ctx
      ensures ctx.Valid() && ctx.currentTime == old(ctx.currentTime)
      ensures ctx.instances == old(ctx.instances)[h := SyncKey(old(ctx.instances)[h], key, newValue, old(ctx.currentTime), paramValue)]
    {
      var inst := ctx.instances[h];
      if newValue != Undefined {
        if key in inst.params {
          if !StrictEquals(paramValue(inst.params[key].value), newValue) {
            ctx.SetTargetAtTime(h, key, newValue, ctx.currentTime, SmoothingTimeConstant);
          }
        } else if key in inst.fields && inst.fields[key] != Undefined && !StrictEquals(inst.fields[key], newValue) {
          ctx.SetField(h, key, newValue);
        }
      }
    }

    /** The parameter-sync effect: nothing unless playing; otherwise every node with a live primitive is synced. */
    method SyncParams(nodesMap: OrderedMap<GraphNode>, paramValue: Value -> Value)
      requires Valid() && nodesMap.Valid()
      modifies ctx
      ensures Valid() && ctx.currentTime == old(ctx.currentTime)
      ensures !isPlaying ==> ctx.instances == old(ctx.instances)
      ensures isPlaying ==> ctx.instances == SyncAll(nodesMap.keys, nodesMap.entries, active.entries, old(ctx.instances), ctx.currentTime, paramValue)
    {
      if !isPlaying {
        return;
      }
      var i := 0;
      while i < |nodesMap.keys|
        invariant 0 <= i <= |nodesMap.keys| && Valid()
        invariant ctx.currentTime == old(ctx.currentTime) && |ctx.instances| == |old(ctx.instances)|
        invariant SyncAll(nodesMap.keys, nodesMap.entries, active.entries, old(ctx.instances), ctx.currentTime, paramValue)
               == SyncAll(nodesMap.keys[i..], nodesMap.entries, active.entries, ctx.instances, ctx.currentTime, paramValue)
      {
        var id := nodesMap.keys[i];
        assert nodesMap.keys[i..][1..] == nodesMap.keys[i + 1..];
        var audioNode := active.Get(id);
        if audioNode.Some? {
          SyncNode(audioNode.value, DataOf(nodesMap.entries[id]), paramValue);
        }
        i := i + 1;
      }
    }

    /**
     * `handleStop`: nothing at all on an empty table (not even the flags).
     * Otherwise every started scheduled source is stopped at the current
     * time (errors swallowed), one more cleanup timer is scheduled, and the
     * flags drop; the table itself is left for the cleanup.
     */
    method HandleStop()
      requires Valid()
      modifies this, ctx
      ensures Valid() && active == old(active) && ctx.currentTime == old(ctx.currentTime)
      ensures old(active.Size()) == 0 ==>
        ctx.instances == old(ctx.instances) && pendingCleanups == old(pendingCleanups)
        && isPlaying == old(isPlaying) && isLoading == old(isLoading)
      ensures old(active.Size()) > 0 ==>
        && ctx.instances == StopAll(active.keys, active.entries, old(ctx.instances), old(ctx.currentTime))
        && pendingCleanups == old(pendingCleanups) + 1
        && !isPlaying && !isLoading
    {
      if active.Size() == 0 {
        return;
      }
      StopSources(ctx.currentTime);
      pendingCleanups := pendingCleanups + 1;
      isPlaying := false;
      isLoading := false;
    }

    /** The stop loop of `handleStop`: every scheduled source in the table is stopped at `stopTime`. */
    method StopSources(stopTime: real)
      requires Valid()
      modifies ctx
      ensures Valid() && ctx.currentTime == old(ctx.currentTime)
      ensures ctx.instances == StopAll(active.keys, active.entries, old(ctx.instances), stopTime)
    {
      TableOkShares(active, |ctx.instances|);
      var i := 0;
      while i < |active.keys|
        invariant 0 <= i <= |active.keys| && ctx.Valid()
        invariant |ctx.instances| == |old(ctx.instances)| && ctx.currentTime == old(ctx.currentTime)
        invariant StopAll(active.keys, active.entries, old(ctx.instances), stopTime)
               == StopAll(active.keys[i..], active.entries, ctx.instances, stopTime)
      {
        var h := active.entries[active.keys[i]];
        StopAllAt(active.keys, active.entries, ctx.instances, stopTime, i);
        ctx.StopIfSource(h, stopTime);
        i := i + 1;
      }
    }

    /**
     * One cleanup timer fires: it disconnects every primitive but the
     * destination in the table as it is now, whoever filled it, and clears it.
     */
    method FireCleanup()
      requires Valid() && pendingCleanups > 0
      modifies this, ctx
      ensures Valid() && ctx.currentTime == old(ctx.currentTime)
      ensures ctx.instances == DisconnectAll(old(active.keys), old(active.entries), old(ctx.instances))
      ensures active == Empty() && pendingCleanups == old(pendingCleanups) - 1
      ensures isPlaying == old(isPlaying) && isLoading == old(isLoading)
    {
      DisconnectSources();
      active := Empty();
      pendingCleanups := pendingCleanups - 1;
    }

    /** The loop of a cleanup timer: `disconnect()` on every primitive in the table but the destination. */
    method DisconnectSources()
      requires Valid()
      modifies ctx
      ensures Valid() && ctx.currentTime == old(ctx.currentTime)
      ensures ctx.instances == DisconnectAll(active.keys, active.entries, old(ctx.instances))
    {
      TableOkShares(active, |ctx.instances|);
      var i := 0;
      while i < |active.keys|
        invariant 0 <= i <= |active.keys| && ctx.Valid()
        invariant |ctx.instances| == |old(ctx.instances)| && ctx.currentTime == old(ctx.currentTime)
        invariant DisconnectAll(active.keys, active.entries, old(ctx.instances))
               == DisconnectAll(active.keys[i..], active.entries, ctx.instances)
      {
        var h := active.entries[active.keys[i]];
        DisconnectAllAt(active.keys, active.entries, ctx.instances, i);
        if h != DestinationHandle {
          ctx.Disconnect(h);
        }
        i := i + 1;
      }
    }

    /** The buffer-source arm of `handlePlay`'s switch. */
    method InstantiateBufferSource(id: string, node: GraphNode, numberOf: string -> Number, fetchOutcome: string -> Result<Buffer, LoadError>)
      returns (threw: bool)
      requires Valid()
      modifies this, ctx, buffers
      ensures Valid() && ctx.currentTime == old(ctx.currentTime)
      ensures (Built(active, ctx.instances), buffers.State(), threw)
           == SourceStep(id, node, Built(old(active), old(ctx.instances)), old(buffers.State()), numberOf, fetchOutcome)
      ensures isPlaying == old(isPlaying) && isLoading == old(isLoading) && pendingCleanups == old(pendingCleanups)
    {
      ghost var count := |ctx.instances|;
      var h := BuildSource(node, numberOf, fetchOutcome);
      if node.data.None? {
        TableOkGrow(active, count, |ctx.instances|);
        return true;
      }
      TableOkSetFresh(active, count, id);
      active := active.Set(id, h);
      threw := false;
    }

    /** The primitive work of the buffer-source arm: create the source, resolve its sample, set its playback rate. */
    method BuildSource(node: GraphNode, numberOf: string -> Number, fetchOutcome: string -> Result<Buffer, LoadError>) returns (h: nat)
      requires ctx.Valid() && buffers.Valid()
      modifies ctx, buffers
      ensures ctx.Valid() && buffers.Valid() && ctx.currentTime == old(ctx.currentTime)
      ensures var (st, source) := NewSource(node, old(buffers.State()), numberOf, fetchOutcome);
        && h == |old(ctx.instances)| && buffers.State() == st
        && ctx.instances == old(ctx.instances) + [source]
    {
      ghost var before := ctx.instances;
      h := CreateBufferSource(OptionalProperty(node.data, "sample"), fetchOutcome);
      if node.data.Some? {
        ghost var source := ctx.instances[h];
        var playback := ToNumber(Property(node.data.value, "playbackRate"), numberOf);
        if playback.Some? {
          ctx.SetParamValue(h, "playbackRate", Num(Finite(playback.value)));
          UpdateLast(before, source, WithPlaybackRate(source, playback));
        }
      }
    }

    /** `createBufferSource()`, then the sample handling: the new source gets the resolved buffer, if any. */
    method CreateBufferSource(sample: Value, fetchOutcome: string -> Result<Buffer, LoadError>) returns (h: nat)
      requires ctx.Valid() && buffers.Valid()
      modifies ctx, buffers
      ensures ctx.Valid() && buffers.Valid() && ctx.currentTime == old(ctx.currentTime)
      ensures var (st, buf) := ResolveSample(sample, old(buffers.State()), fetchOutcome);
        && h == |old(ctx.instances)| && buffers.State() == st
        && ctx.instances == old(ctx.instances) + [Fresh(BufferSource).(buffer := buf)]
    {
      ghost var before := ctx.instances;
      h := ctx.Create(BufferSource);
      ResolveSampleInto(h, sample, fetchOutcome);
      UpdateLast(before, Fresh(BufferSource), ctx.instances[h]);
    }

    /**
     * The sample handling of the buffer-source arm: the source `h` gets the
     * cached buffer, or the one the awaited load delivers, or none.
     */
    method ResolveSampleInto(h: nat, sampleKey: Value, fetchOutcome: string -> Result<Buffer, LoadError>)
      requires ctx.Valid() && buffers.Valid() && h < |ctx.instances| && ctx.instances[h].buffer.None?
      modifies ctx, buffers
      ensures ctx.Valid() && buffers.Valid() && ctx.currentTime == old(ctx.currentTime)
      ensures var (st, buf) := ResolveSample(sampleKey, old(buffers.State()), fetchOutcome);
        buffers.State() == st && ctx.instances == old(ctx.instances)[h := old(ctx.instances)[h].(buffer := buf)]
    {
      assert old(ctx.instances) == old(ctx.instances)[h := old(ctx.instances)[h].(buffer := None)];
      if Truthy(sampleKey) && sampleKey.Str? {
        var buf := buffers.GetCachedBuffer(sampleKey.s);
        if buf.Some? {
          ctx.SetBuffer(h, buf.value);
        } else {
          var p := buffers.LoadBufferForKey(sampleKey.s);
          match p {
            case Resolved(b) =>
              ctx.SetBuffer(h, b);
            case Rejected(_) =>
            case Waiting(_) =>
              var outcome := fetchOutcome(sampleKey.s);
              buffers.CompleteLoad(sampleKey.s, outcome);
              if outcome.Ok? {
                ctx.SetBuffer(h, outcome.value);
              }
          }
        }
      }
    }

    /** The other arms of the switch: create and configure as the compiler does. */
    method InstantiateOther(id: string, node: GraphNode) returns (threw: bool)
      requires Valid() && KindOf(node.nodeType) != Some(BufferSource)
      modifies this, ctx
      ensures Valid() && ctx.currentTime == old(ctx.currentTime)
      ensures (Built(active, ctx.instances), threw) == CompileNode(id, node, Built(old(active), old(ctx.instances)))
      ensures isPlaying == old(isPlaying) && isLoading == old(isLoading) && pendingCleanups == old(pendingCleanups)
    {
      CompileNodeKeepsTable(id, node, Built(active, ctx.instances));
      match KindOf(node.nodeType) {
        case None =>
          threw := false;
        case Some(k) =>
          if k == Destination {
            active := active.Set(id, DestinationHandle);
            threw := false;
          } else if node.data.None? {
            var _ := ctx.Create(k);
            threw := true;
          } else {
            var h := CreateConfigured(k, node.data.value);
            active := active.Set(id, h);
            threw := false;
          }
      }
    }

    /** Create a primitive of a kind without samples and apply the node's data to it. */
    method CreateConfigured(kind: Kind, data: map<string, Value>) returns (h: nat)
      requires ctx.Valid() && kind != Destination && kind != BufferSource
      modifies ctx
      ensures ctx.Valid() && ctx.currentTime == old(ctx.currentTime)
      ensures h == |old(ctx.instances)| && ctx.instances == old(ctx.instances) + [Configure(kind, data)]
    {
      h := ctx.Create(kind);
      match kind {
        case Oscillator =>
          var f := Property(data, "frequency");
          if Truthy(f) { ctx.SetParamValue(h, "frequency", f); }
          var t := Property(data, "type");
          if Truthy(t) { ctx.SetField(h, "type", t); }
        case Gain =>
          var g := Property(data, "gain");
          if g != Undefined { ctx.SetParamValue(h, "gain", g); }
        case BiquadFilter =>
          var t := Property(data, "type");
          if Truthy(t) { ctx.SetField(h, "type", t); }
          var f := Property(data, "frequency");
          if Truthy(f) { ctx.SetParamValue(h, "frequency", f); }
          var q := Property(data, "Q");
          if Truthy(q) { ctx.SetParamValue(h, "Q", q); }
        case StereoPanner =>
          var p := Property(data, "pan");
          if Truthy(p) { ctx.SetParamValue(h, "pan", p); }
      }
    }

    /** The instantiation loop of `handlePlay`, in map order, awaiting each load before going on. */
    method InstantiateNodes(nodesMap: OrderedMap<GraphNode>, numberOf: string -> Number, fetchOutcome: string -> Result<Buffer, LoadError>)
      returns (thrown: Option<string>)
      requires Valid() && nodesMap.Valid()
      modifies this, ctx, buffers
      ensures Valid() && ctx.currentTime == old(ctx.currentTime)
      ensures (Built(active, ctx.instances), buffers.State(), thrown)
           == EngineAll(nodesMap.keys, nodesMap.entries, Built(old(active), old(ctx.instances)), old(buffers.State()), numberOf, fetchOutcome)
      ensures isPlaying == old(isPlaying) && isLoading == old(isLoading) && pendingCleanups == old(pendingCleanups)
    {
      var i := 0;
      while i < |nodesMap.keys|
        invariant 0 <= i <= |nodesMap.keys| && Valid()
        invariant EngineAll(nodesMap.keys, nodesMap.entries, Built(old(active), old(ctx.instances)), old(buffers.State()), numberOf, fetchOutcome)
               == EngineAll(nodesMap.keys[i..], nodesMap.entries, Built(active, ctx.instances), buffers.State(), numberOf, fetchOutcome)
        invariant ctx.currentTime == old(ctx.currentTime)
        invariant isPlaying == old(isPlaying) && isLoading == old(isLoading) && pendingCleanups == old(pendingCleanups)
      {
        var id := nodesMap.keys[i];
        assert nodesMap.keys[i..][1..] == nodesMap.keys[i + 1..];
        var threw := InstantiateOne(id, nodesMap.entries[id], numberOf, fetchOutcome);
        if threw {
          return Some(id);
        }
        i := i + 1;
      }
      return None;
    }

    /** One pass of `handlePlay`'s instantiation loop: the switch on the node's type. */
    method InstantiateOne(id: string, node: GraphNode, numberOf: string -> Number, fetchOutcome: string -> Result<Buffer, LoadError>)
      returns (threw: bool)
      requires Valid()
      modifies this, ctx, buffers
      ensures Valid() && ctx.currentTime == old(ctx.currentTime)
      ensures (Built(active, ctx.instances), buffers.State(), threw)
           == EngineStep(id, node, Built(old(active), old(ctx.instances)), old(buffers.State()), numberOf, fetchOutcome)
      ensures isPlaying == old(isPlaying) && isLoading == old(isLoading) && pendingCleanups == old(pendingCleanups)
    {
      if KindOf(node.nodeType) == Some(BufferSource) {
        threw := InstantiateBufferSource(id, node, numberOf, fetchOutcome);
      } else {
        threw := InstantiateOther(id, node);
      }
    }

    /** The wiring loop of `handlePlay`: the compiler's rule, a falsy entry throwing. */
    method WireConnections(connections: seq<Option<Connection>>) returns (falsy: Option<nat>)
      requires Valid()
      modifies ctx
      ensures Valid() && ctx.currentTime == old(ctx.currentTime)
      ensures (ctx.instances, falsy) == WireFrom(connections, 0, active.entries, old(ctx.instances))
    {
      var i := 0;
      while i < |connections|
        invariant 0 <= i <= |connections| && Valid()
        invariant |ctx.instances| == |old(ctx.instances)|
        invariant WireFrom(connections, 0, active.entries, old(ctx.instances)) == WireFrom(connections, i, active.entries, ctx.instances)
        invariant ctx.currentTime == old(ctx.currentTime)
      {
        if connections[i].None? {
          return Some(i);
        }
        var c := connections[i].value;
        var fromNode := active.Get(c.from.nodeId);
        var toNode := active.Get(c.to.nodeId);
        if fromNode.Some? && toNode.Some? {
          var to := toNode.value;
          var target := if c.to.socket in ctx.instances[to].params then ParamInput(to, c.to.socket) else NodeInput(to);
          ctx.Connect(fromNode.value, target);
        }
        i := i + 1;
      }
      return None;
    }

    /** The start loop of `handlePlay`: every scheduled source starts at `time`. */
    method StartSources(time: real)
      requires Valid()
      modifies ctx
      ensures Valid() && ctx.currentTime == old(ctx.currentTime)
      ensures ctx.instances == StartAll(active.keys, active.entries, old(ctx.instances), time)
    {
      var i := 0;
      while i < |active.keys|
        invariant 0 <= i <= |active.keys| && Valid()
        invariant |ctx.instances| == |old(ctx.instances)|
        invariant StartAll(active.keys, active.entries, old(ctx.instances), time)
               == StartAll(active.keys[i..], active.entries, ctx.instances, time)
        invariant ctx.currentTime == old(ctx.currentTime)
      {
        var h := active.entries[active.keys[i]];
        StartAllAt(active.keys, active.entries, ctx.instances, time, i);
        if IsScheduledSource(ctx.instances[h].kind) {
          ctx.Start(h, time);
        }
        i := i + 1;
      }
    }

    /**
     * `handlePlay`: mark loading; stop a leftover graph (scheduling its cleanup
     * timer, which will act on the table as it is when it fires); clear the
     * table; instantiate, wire and start at the current time; then playing and
     * not loading. A throw while instantiating or wiring leaves the flags as
     * they were at that point.
     */
    method HandlePlay(nodesMap: OrderedMap<GraphNode>, connections: seq<Option<Connection>>,
                      numberOf: string -> Number, fetchOutcome: string -> Result<Buffer, LoadError>)
      returns (thrown: Option<Thrown>)
      requires Valid() && nodesMap.Valid()
      modifies this, ctx, buffers
      ensures Valid() && ctx.currentTime == old(ctx.currentTime)
      ensures var leftover := old(active.Size()) > 0;
        var stopped := if leftover then StopAll(old(active.keys), old(active.entries), old(ctx.instances), old(ctx.currentTime))
                       else old(ctx.instances);
        && |stopped| > 0
        && (Built(active, ctx.instances), buffers.State(), thrown)
             == EnginePlayed(nodesMap, connections, stopped, old(buffers.State()), old(ctx.currentTime), numberOf, fetchOutcome)
        && pendingCleanups == old(pendingCleanups) + (if leftover then 1 else 0)
        && (thrown.None? ==> isPlaying && !isLoading)
        && (thrown.Some? ==> isPlaying == (old(isPlaying) && !leftover) && isLoading == !leftover)
    {
      isLoading := true;
      ClearForPlay();
      thrown := Rebuild(nodesMap, connections, numberOf, fetchOutcome);
      if thrown.Some? {
        return;
      }
      isPlaying := true;
      isLoading := false;
    }

    /** The start of `handlePlay` once loading: stop a leftover graph, then clear the table. */
    method ClearForPlay()
      requires Valid()
      modifies this, ctx
      ensures Valid() && ctx.currentTime == old(ctx.currentTime) && active == Empty()
      ensures var leftover := old(active.Size()) > 0;
        && ctx.instances == (if leftover then StopAll(old(active.keys), old(active.entries), old(ctx.instances), old(ctx.currentTime))
                             else old(ctx.instances))
        && pendingCleanups == old(pendingCleanups) + (if leftover then 1 else 0)
        && isPlaying == (old(isPlaying) && !leftover) && isLoading == (old(isLoading) && !leftover)
    {
      if active.Size() > 0 {
        HandleStop();
      }
      active := Empty();
    }

    /** The body of `handlePlay` after the table was cleared: instantiate, then wire and start at the current time. */
    method Rebuild(nodesMap: OrderedMap<GraphNode>, connections: seq<Option<Connection>>,
                   numberOf: string -> Number, fetchOutcome: string -> Result<Buffer, LoadError>)
      returns (thrown: Option<Thrown>)
      requires Valid() && nodesMap.Valid() && active == Empty()
      modifies this, ctx, buffers
      ensures Valid() && ctx.currentTime == old(ctx.currentTime)
      ensures (Built(active, ctx.instances), buffers.State(), thrown)
           == EnginePlayed(nodesMap, connections, old(ctx.instances), old(buffers.State()), old(ctx.currentTime), numberOf, fetchOutcome)
      ensures isPlaying == old(isPlaying) && isLoading == old(isLoading) && pendingCleanups == old(pendingCleanups)
    {
      ghost var st0 := buffers.State();
      ghost var cleared := ctx.instances;
      EngineAllSpec(nodesMap.keys, nodesMap.entries, Built(Empty(), cleared), st0, numberOf, fetchOutcome);
      ghost var res := EngineAll(nodesMap.keys, nodesMap.entries, Built(Empty(), cleared), st0, numberOf, fetchOutcome);
      var missing := InstantiateNodes(nodesMap, numberOf, fetchOutcome);
      assert res == (Built(active, ctx.instances), buffers.State(), missing);
      if missing.Some? {
        return Some(DataUndefined(missing.value));
      }
      ghost var built := Built(active, ctx.instances);
      var falsy := WireConnections(connections);
      if falsy.Some? {
        return Some(FalsyConnection(falsy.value));
      }
      StartSources(ctx.currentTime);
      assert (Built(active, ctx.instances), falsy) == WireAndStart(built, connections, old(ctx.currentTime));
      return None;
    }

    /**
     * `togglePlay`: stop when playing, play otherwise. Stopping with an empty
     * table is `handleStop`'s early return: nothing changes and the hook stays
     * playing, so from that state no toggle ever leaves it.
     */
    method TogglePlay(nodesMap: OrderedMap<GraphNode>, connections: seq<Option<Connection>>,
                      numberOf: string -> Number, fetchOutcome: string -> Result<Buffer, LoadError>)
      returns (thrown: Option<Thrown>)
      requires Valid() && nodesMap.Valid()
      modifies this, ctx, buffers
      ensures Valid() && ctx.currentTime == old(ctx.currentTime)
      ensures old(isPlaying) ==> thrown.None? && buffers.State() == old(buffers.State()) && active == old(active)
      ensures old(isPlaying) && old(active.Size()) == 0 ==>
        && isPlaying && isLoading == old(isLoading) && ctx.instances == old(ctx.instances)
        && pendingCleanups == old(pendingCleanups)
      ensures old(isPlaying) && old(active.Size()) > 0 ==>
        && ctx.instances == StopAll(old(active.keys), old(active.entries), old(ctx.instances), old(ctx.currentTime))
        && !isPlaying && !isLoading && pendingCleanups == old(pendingCleanups) + 1
      ensures !old(isPlaying) ==>
        var leftover := old(active.Size()) > 0;
        var stopped := if leftover then StopAll(old(active.keys), old(active.entries), old(ctx.instances), old(ctx.currentTime))
                       else old(ctx.instances);
        && |stopped| > 0
        && (Built(active, ctx.instances), buffers.State(), thrown)
             == EnginePlayed(nodesMap, connections, stopped, old(buffers.State()), old(ctx.currentTime), numberOf, fetchOutcome)
        && pendingCleanups == old(pendingCleanups) + (if leftover then 1 else 0)
        && (thrown.None? ==> isPlaying && !isLoading)
        && (thrown.Some? ==> isPlaying == (old(isPlaying) && !leftover) && isLoading == !leftover)
    {
      if isPlaying {
        HandleStop();
        thrown := None;
      } else {
        thrown := HandlePlay(nodesMap, connections, numberOf, fetchOutcome);
      }
    }

    /** The unmount cleanup: `handleStop`, whatever the state. */
    method Unmount()
      requires Valid()
      modifies this, ctx
      ensures Valid() && active == old(active)
      ensures old(active.Size()) == 0 ==>
        ctx.instances == old(ctx.instances) && pendingCleanups == old(pendingCleanups)
        && isPlaying == old(isPlaying) && isLoading == old(isLoading)
      ensures old(active.Size()) > 0 ==>
        ctx.instances == StopAll(active.keys, active.entries, old(ctx.instances), old(ctx.currentTime))
        && pendingCleanups == old(pendingCleanups) + 1 && !isPlaying && !isLoading
    {
      HandleStop();
    }

    /**
     * A stop and a play in a row, as two clicks on the toggle: the old graph
     * is stopped (and stopped again by the play, with a second cleanup timer),
     * and the rebuilt table holds exactly the nodes of known types.
     */
    method StopThenPlay(nodesMap: OrderedMap<GraphNode>, connections: seq<Option<Connection>>,
                        numberOf: string -> Number, fetchOutcome: string -> Result<Buffer, LoadError>)
      returns (thrown: Option<Thrown>)
      requires Valid() && nodesMap.Valid() && isPlaying && active.Size() > 0
      modifies this, ctx, buffers
      ensures Valid()
      ensures thrown.None? ==>
        && isPlaying && pendingCleanups == old(pendingCleanups) + 2
        && (forall id :: id in active.entries <==> id in nodesMap.entries && KindOf(nodesMap.entries[id].nodeType).Some?)
    {
      var _ := TogglePlay(nodesMap, connections, numberOf, fetchOutcome);
      thrown := TogglePlay(nodesMap, connections, numberOf, fetchOutcome);
    }

    /**
     * Stopping and playing again before the 100 ms cleanup fires: the play
     * stops the old graph a second time and builds a new one, and the first
     * timer then disconnects the new graph's primitives and empties the table
     * while the hook still reports that it is playing.
     */
    method ReplayBeforeCleanup(nodesMap: OrderedMap<GraphNode>, connections: seq<Option<Connection>>,
                               numberOf: string -> Number, fetchOutcome: string -> Result<Buffer, LoadError>)
      returns (thrown: Option<Thrown>, replayed: OrderedMap<nat>)
      requires Valid() && nodesMap.Valid() && isPlaying && active.Size() > 0
      modifies this, ctx, buffers
      ensures Valid()
      ensures thrown.None? ==>
        && isPlaying && active.Size() == 0 && pendingCleanups == old(pendingCleanups) + 1
        && (forall id :: id in replayed.entries <==> id in nodesMap.entries && KindOf(nodesMap.entries[id].nodeType).Some?)
        && forall id :: id in replayed.entries && replayed.entries[id] != DestinationHandle ==>
             replayed.entries[id] < |ctx.instances| && ctx.instances[replayed.entries[id]].outputs == []
    {
      thrown := StopThenPlay(nodesMap, connections, numberOf, fetchOutcome);
      replayed := active;
      if thrown.None? {
        TableOkShares(active, |ctx.instances|);
        DisconnectAllOnce(active.keys, active.entries, ctx.instances);
        FireCleanup();
      }
    }

    /**
     * The trap that follows: once the first timer has emptied the table while
     * the hook reports playing, every further toggle takes `handleStop`'s
     * early return, so after any number of clicks the hook still reports
     * playing, no primitive has changed and no cleanup is scheduled.
     */
    method ToggleAfterReplay(nodesMap: OrderedMap<GraphNode>, connections: seq<Option<Connection>>, clicks: nat,
                             numberOf: string -> Number, fetchOutcome: string -> Result<Buffer, LoadError>)
      returns (thrown: Option<Thrown>)
      requires Valid() && nodesMap.Valid() && isPlaying && active.Size() > 0
      modifies this, ctx, buffers
      ensures Valid()
      ensures thrown.None? ==> isPlaying && active.Size() == 0 && pendingCleanups == old(pendingCleanups) + 1
    {
      var replayed;
      thrown, replayed := ReplayBeforeCleanup(nodesMap, connections, numberOf, fetchOutcome);
      if thrown.None? {
        ghost var silenced := ctx.instances;
        var n := 0;
        while n < clicks
          invariant Valid() && isPlaying && active.Size() == 0
          invariant ctx.instances == silenced && pendingCleanups == old(pendingCleanups) + 1
        {
          var _ := TogglePlay(nodesMap, connections, numberOf, fetchOutcome);
          n := n + 1;
        }
      }
    }
  }
}

=== FILE: audio_nodes.dfy ===
/**
 * The descriptor table registered when the current node catalogue is loaded:
 * ten node types, registered in this order. The two URL defaults come from a
 * constants module that is not part of this model, so they are parameters.
 */
module AudioNodes {
  import opened Wrappers
  import opened NodeRegistry

  const Input := Socket("input", AudioSocket)
  const AudioOutput := Socket("output", AudioSocket)
  const ParamOutput := Socket("output", ParamSocket)

  const OscillatorTypes := ["sine", "square", "sawtooth", "triangle"]
  const FilterTypes := ["lowpass", "highpass", "bandpass", "notch", "allpass", "peaking", "lowshelf", "highshelf"]

  const DestinationNode := NodeImpl("AudioDestination", [Input], [], None, map[])

  const GainNode := NodeImpl("Gain", [Input], [AudioOutput],
    Some([Slider("gain", 0.0, 20.0, 0.01, 15.0)]), map[])

  const OscillatorNode := NodeImpl("Oscillator", [], [AudioOutput],
    Some([Slider("frequency", 20.0, 3000.0, 10.0, 440.0),
          Selector("type", OscillatorTypes, "sine")]), map[])

  const BiquadFilterNode := NodeImpl("BiquadFilter", [Input], [AudioOutput],
    Some([Selector("type", FilterTypes, "lowpass"),
          Slider("frequency", 20.0, 3000.0, 10.0, 440.0),
          Slider("Q", 0.1, 20.0, 0.1, 1.0)]), map[])

  const StereoPannerNode := NodeImpl("StereoPanner", [Input], [AudioOutput],
    Some([Slider("pan", -1.0, 1.0, 0.01, 0.0)]), map[])

  const BufferSourceNode := NodeImpl("AudioBufferSource", [Socket("sample", ParamSocket)], [AudioOutput],
    Some([Slider("playbackRate", 0.1, 4.0, 0.01, 1.0)]), map[])

  function StreamerNode(radioExample: string): NodeImpl
  {
    NodeImpl("Streamer", [], [AudioOutput], Some([Url("url", radioExample)]), map[])
  }

  const MusicNode := NodeImpl("Music", [], [ParamOutput], None, map["output" := "music"])

  const SpeechNode := NodeImpl("Speech", [], [ParamOutput], None, map["output" := "speech"])

  function UrlMusicNode(musicExample: string): NodeImpl
  {
    NodeImpl("UrlMusic", [], [ParamOutput], Some([Url("source", musicExample)]), map[])
  }

  /** The ten descriptors in registration order. */
  function Descriptors(radioExample: string, musicExample: string): seq<NodeImpl>
  {
    [DestinationNode, GainNode, OscillatorNode, BiquadFilterNode, StereoPannerNode,
     BufferSourceNode, StreamerNode(radioExample), MusicNode, SpeechNode, UrlMusicNode(musicExample)]
  }

  /** Loading the catalogue: one `registerNode` call per descriptor, in order. */
  method LoadAudioNodes(registry: Registry, radioExample: string, musicExample: string)
    modifies registry
    ensures registry.entries == RegisteredAll(old(registry.entries), Descriptors(radioExample, musicExample))
  {
    registry.RegisterAll(Descriptors(radioExample, musicExample));
  }

  /** The ten type names are pairwise distinct. */
  lemma DescriptorNamesDistinct(radioExample: string, musicExample: string)
    ensures DistinctTypeNames(Descriptors(radioExample, musicExample))
  {
  }

  /**
   * Loaded into an empty registry, the catalogue yields exactly ten entries:
   * one per descriptor, each type name looked up to its own descriptor.
   */
  lemma RegistryHasTenEntries(radioExample: string, musicExample: string)
    ensures var ds := Descriptors(radioExample, musicExample);
      var r := RegisteredAll(map[], ds);
      && |r| == 10
      && (forall t :: t in r <==> t in TypeNames(ds))
      && (forall d :: d in ds ==> d.typeName in r && r[d.typeName] == d)
  {
    var ds := Descriptors(radioExample, musicExample);
    DescriptorNamesDistinct(radioExample, musicExample);
    RegisteredAllDistinct(map[], ds);
  }

  /** The destination has the single audio input `input` and no outputs. */
  lemma DestinationSockets()
    ensures DestinationNode.inputs == [Socket("input", AudioSocket)]
    ensures DestinationNode.outputs == []
  {
  }

  /**
   * Every descriptor is well formed: each slider default lies in its range with a
   * positive step, each selector default is one of its options, and socket names
   * are unique on each side.
   */
  lemma DescriptorsWellFormed(radioExample: string, musicExample: string)
    ensures forall d :: d in Descriptors(radioExample, musicExample) ==> DescriptorWellFormed(d)
  {
  }

  /** `Music` and `Speech` compute to the sample keys `music` and `speech` on a param-kind output. */
  lemma SampleSourcesCompute()
    ensures MusicNode.computed["output"] == "music" && SpeechNode.computed["output"] == "speech"
    ensures MusicNode.outputs == [Socket("output", ParamSocket)]
    ensures SpeechNode.outputs == [Socket("output", ParamSocket)]
  {
  }
}

=== FILE: audio_nodes_legacy.dfy ===
/**
 * The older descriptor table (the JavaScript catalogue): six node types, with
 * parameter-kind input sockets on the oscillator, the filter and the buffer
 * source.
 */
module LegacyAudioNodes {
  import opened Wrappers
  import opened NodeRegistry

  const Input := Socket("input", AudioSocket)
  const AudioOutput := Socket("output", AudioSocket)

  const DestinationNode := NodeImpl("AudioDestination", [Input], [], None, map[])

  const GainNode := NodeImpl("Gain", [Input], [AudioOutput],
    Some([Slider("gain", 0.0, 1.0, 0.01, 0.75)]), map[])

  const OscillatorNode := NodeImpl("Oscillator", [Socket("frequency", ParamSocket)], [AudioOutput],
    Some([Slider("frequency", 20.0, 20000.0, 1.0, 440.0),
          Selector("type", ["sine", "square", "sawtooth", "triangle"], "sine")]), map[])

  const BiquadFilterNode := NodeImpl("BiquadFilter",
    [Input, Socket("frequency", ParamSocket), Socket("Q", ParamSocket)], [AudioOutput],
    Some([Selector("type", ["lowpass", "highpass", "bandpass", "notch", "allpass", "peaking", "lowshelf", "highshelf"], "lowpass"),
          Slider("frequency", 20.0, 20000.0, 1.0, 350.0),
          Slider("Q", 0.0001, 1000.0, 0.01, 1.0)]), map[])

  const StereoPannerNode := NodeImpl("StereoPanner", [Input], [AudioOutput],
    Some([Slider("pan", -1.0, 1.0, 0.01, 0.0)]), map[])

  const BufferSourceNode := NodeImpl("AudioBufferSource", [Socket("playbackRate", ParamSocket)], [AudioOutput],
    Some([Selector("sample", ["drum_loop", "synth_pad", "vocal_chop"], "drum_loop"),
          Slider("playbackRate", 0.1, 4.0, 0.01, 1.0)]), map[])

  /** The six descriptors in registration order. */
  const LegacyDescriptors := [DestinationNode, GainNode, OscillatorNode, BiquadFilterNode,
                              StereoPannerNode, BufferSourceNode]

  /** Loading the older catalogue: one `registerNode` call per descriptor, in order. */
  method LoadLegacyAudioNodes(registry: Registry)
    modifies registry
    ensures registry.entries == RegisteredAll(old(registry.entries), LegacyDescriptors)
  {
    registry.RegisterAll(LegacyDescriptors);
  }

  /**
   * Loaded into an empty registry, the six distinct type names yield six
   * entries: one per descriptor, each type name looked up to its own descriptor.
   */
  lemma LegacyRegistryHasSixEntries()
    ensures DistinctTypeNames(LegacyDescriptors)
    ensures var r := RegisteredAll(map[], LegacyDescriptors);
      && |r| == 6
      && (forall t :: t in r <==> t in TypeNames(LegacyDescriptors))
      && (forall d :: d in LegacyDescriptors ==> d.typeName in r && r[d.typeName] == d)
  {
    RegisteredAllDistinct(map[], LegacyDescriptors);
  }

  /** Every slider default lies in its range and every selector default is one of its options. */
  lemma LegacyDescriptorsWellFormed()
    ensures forall d :: d in LegacyDescriptors ==> DescriptorWellFormed(d)
  {
  }

  /**
   * The filter takes audio on `input` and parameter signals on `frequency` and
   * `Q`; the oscillator takes a parameter signal on `frequency`; the destination
   * has exactly one audio input and no outputs.
   */
  lemma LegacyInputSockets()
    ensures BiquadFilterNode.inputs ==
      [Socket("input", AudioSocket), Socket("frequency", ParamSocket), Socket("Q", ParamSocket)]
    ensures OscillatorNode.inputs == [Socket("frequency", ParamSocket)]
    ensures DestinationNode.inputs == [Socket("input", AudioSocket)] && DestinationNode.outputs == []
  {
  }
}

=== FILE: buffer_manager.dfy ===
/**
 * The buffer cache and loader: decoded buffers keyed by sample key, and the
 * loads in flight, through which concurrent requests for one key share a single
 * fetch. The network fetch and the decode are the environment's: a load in
 * flight completes when `CompleteLoad` is called with its outcome.
 */
module BufferManager {
  import opened Wrappers
  import opened JsValues
  import opened OrderedMaps
  import opened Primitives
  import opened GraphStore

  /** The only sample keys with a configured URL. */
  const SampleUrls: map<string, string> := map[
    "speech" := "https://software-mansion.github.io/react-native-audio-api/audio/voice/example-voice-01.mp3",
    "music" := "https://software-mansion.github.io/react-native-audio-api/audio/music/example-music-03.mp3"
  ]

  datatype LoadError =
    | NoUrlConfigured(key: string)
    | FetchFailed(url: string, status: int)
    | DecodeFailed(url: string)

  /** Whether a stored load promise is still pending or has rejected. */
  datatype LoadStatus = InFlight | Failed(error: LoadError)

  /** An entry of the in-flight map: the promise's identity and its state. */
  datatype PendingLoad = PendingLoad(id: nat, status: LoadStatus)

  /** What `loadBufferForKey` hands back: a settled promise, or pending load number `id`. */
  datatype Promise = Resolved(buffer: Buffer) | Rejected(error: LoadError) | Waiting(id: nat)

  /** The module's state: `bufferCache`, `loadPromises`, the next promise identity and the log of fetched URLs. */
  datatype LoaderState = LoaderState(
    cache: map<string, Buffer>,
    loads: map<string, PendingLoad>,
    nextLoadId: nat,
    fetched: seq<string>)

  /**
   * No key is both cached and in flight, only configured keys appear in either
   * map, and every stored promise identity was handed out already.
   */
  ghost predicate LoaderValid(st: LoaderState)
  {
    && st.cache.Keys !! st.loads.Keys
    && st.cache.Keys <= SampleUrls.Keys
    && st.loads.Keys <= SampleUrls.Keys
    && (forall k :: k in st.loads ==> st.loads[k].id < st.nextLoadId)
  }

  /** Whether a load of `key` would start a new fetch. */
  predicate NeedsFetch(st: LoaderState, key: string)
  {
    key !in st.cache && key !in st.loads && key in SampleUrls
  }

  /** `loadBufferForKey(key)`: the new state and the promise the caller receives. */
  function Load(st: LoaderState, key: string): (r: (LoaderState, Promise))
    ensures key in st.cache ==> r == (st, Resolved(st.cache[key]))
    ensures key !in st.cache && key in st.loads ==>
      && r.0 == st
      && r.1 == (match st.loads[key].status
                 case InFlight => Waiting(st.loads[key].id)
                 case Failed(e) => Rejected(e))
    ensures key !in st.cache && key !in st.loads && key !in SampleUrls ==>
      r == (st, Rejected(NoUrlConfigured(key)))
    ensures NeedsFetch(st, key) ==>
      && r.1 == Waiting(st.nextLoadId)
      && r.0 == LoaderState(st.cache, st.loads[key := PendingLoad(st.nextLoadId, InFlight)],
                            st.nextLoadId + 1, st.fetched + [SampleUrls[key]])
    ensures r.1.Waiting? ==> key in r.0.loads && r.0.loads[key] == PendingLoad(r.1.id, InFlight)
    ensures LoaderValid(st) ==> LoaderValid(r.0)
  {
    if key in st.cache then (st, Resolved(st.cache[key]))
    else if key in st.loads then
      (st, match st.loads[key].status
           case InFlight => Waiting(st.loads[key].id)
           case Failed(e) => Rejected(e))
    else if key !in SampleUrls then (st, Rejected(NoUrlConfigured(key)))
    else
      var id := st.nextLoadId;
      (LoaderState(st.cache, st.loads[key := PendingLoad(id, InFlight)], id + 1, st.fetched + [SampleUrls[key]]),
       Waiting(id))
  }

  /**
   * The fetch and decode of an in-flight `key` finish. On success the buffer is
   * cached and the in-flight entry removed in the same step; on failure the
   * stored promise rejects and stays, and the cache is not touched.
   */
  function Settle(st: LoaderState, key: string, outcome: Result<Buffer, LoadError>): (r: LoaderState)
    requires key in st.loads && st.loads[key].status.InFlight?
    ensures r.nextLoadId == st.nextLoadId && r.fetched == st.fetched
    ensures outcome.Ok? ==> r.cache == st.cache[key := outcome.value] && r.loads == st.loads - {key}
    ensures outcome.Err? ==> r.cache == st.cache && r.loads == st.loads[key := PendingLoad(st.loads[key].id, Failed(outcome.error))]
    ensures LoaderValid(st) ==> LoaderValid(r)
  {
    match outcome
    case Ok(b) => st.(cache := st.cache[key := b], loads := st.loads - {key})
    case Err(e) => st.(loads := st.loads[key := PendingLoad(st.loads[key].id, Failed(e))])
  }

  /**
   * Two loads of one key issued before the first completes share one fetch:
   * the second returns the same pending load and fetches nothing more.
   */
  lemma LoadsCoalesce(st: LoaderState, key: string)
    requires NeedsFetch(st, key)
    ensures var (st1, p1) := Load(st, key);
      var (st2, p2) := Load(st1, key);
      && p1.Waiting? && p2 == p1 && st2 == st1
      && |st2.fetched| == |st.fetched| + 1
  {
  }

  /** Under the invariant, a load of an unconfigured key rejects and changes nothing, however often it is retried. */
  lemma UnconfiguredKeyRejects(st: LoaderState, key: string)
    requires LoaderValid(st) && key !in SampleUrls
    ensures Load(st, key) == (st, Rejected(NoUrlConfigured(key)))
  {
  }

  /**
   * A failed completion poisons the key: every later load returns the same
   * rejection, starts no fetch, and the key is never cached.
   */
  lemma FailedLoadIsSticky(st: LoaderState, key: string, e: LoadError)
    requires LoaderValid(st) && key in st.loads && st.loads[key].status.InFlight?
    ensures var failed := Settle(st, key, Err(e));
      && key !in failed.cache
      && Load(failed, key) == (failed, Rejected(e))
  {
  }

  /** A successful completion makes every later load return the decoded buffer at once. */
  lemma CompletedLoadIsCached(st: LoaderState, key: string, b: Buffer)
    requires key in st.loads && st.loads[key].status.InFlight?
    ensures var done := Settle(st, key, Ok(b));
      && key !in done.loads
      && Load(done, key) == (done, Resolved(b))
  {
  }

  /** The sample key `ensureBuffersForNodes` collects from a node: a string `sample` of a buffer source. */
  function SampleKeyOf(node: GraphNode): (r: Option<string>)
    ensures r.Some? <==> node.nodeType == "AudioBufferSource" && OptionalProperty(node.data, "sample").Str?
    ensures r.Some? ==> OptionalProperty(node.data, "sample") == Str(r.value)
  {
    if node.nodeType == "AudioBufferSource" then
      match OptionalProperty(node.data, "sample")
      case Str(s) => Some(s)
      case _ => None
    else None
  }

  /** The keys a `Set` holds after `add`ing, in order, the sample key of each node listed. */
  function CollectKeys(ids: seq<string>, nodes: map<string, GraphNode>, acc: seq<string>): (r: seq<string>)
    requires forall id :: id in ids ==> id in nodes
    ensures |acc| <= |r| && r[..|acc|] == acc
    decreases |ids|
  {
    if ids == [] then acc
    else
      var k := SampleKeyOf(nodes[ids[0]]);
      CollectKeys(ids[1..], nodes, if k.Some? && k.value !in acc then acc + [k.value] else acc)
  }

  predicate Distinct(keys: seq<string>)
  {
    forall i, j :: 0 <= i < j < |keys| ==> keys[i] != keys[j]
  }

  /**
   * The collected keys are distinct and are exactly the accumulated keys plus the
   * string samples of the buffer-source nodes listed.
   */
  lemma {:induction false} CollectKeysSpec(ids: seq<string>, nodes: map<string, GraphNode>, acc: seq<string>)
    requires forall id :: id in ids ==> id in nodes
    requires Distinct(acc)
    ensures var keys := CollectKeys(ids, nodes, acc);
      && Distinct(keys)
      && (forall s :: s in keys <==> s in acc || exists id :: id in ids && SampleKeyOf(nodes[id]) == Some(s))
    decreases |ids|
  {
    if ids != [] {
      var k := SampleKeyOf(nodes[ids[0]]);
      var next := if k.Some? && k.value !in acc then acc + [k.value] else acc;
      CollectKeysSpec(ids[1..], nodes, next);
      var keys := CollectKeys(ids, nodes, acc);
      forall s | s in keys
        ensures s in acc || exists id :: id in ids && SampleKeyOf(nodes[id]) == Some(s)
      {
        if s !in next {
          var id :| id in ids[1..] && SampleKeyOf(nodes[id]) == Some(s);
          assert id in ids;
        } else if s !in acc {
          assert SampleKeyOf(nodes[ids[0]]) == Some(s);
        }
      }
      forall s | s in acc || exists id :: id in ids && SampleKeyOf(nodes[id]) == Some(s)
        ensures s in keys
      {
        if s !in acc {
          var id :| id in ids && SampleKeyOf(nodes[id]) == Some(s);
          if id != ids[0] {
            assert id in ids[1..];
          }
        }
      }
    }
  }

  /** Loading each key in turn: the final state and the promises, one per key. */
  function LoadEach(st: LoaderState, keys: seq<string>): (r: (LoaderState, seq<Promise>))
    ensures |r.1| == |keys|
    ensures LoaderValid(st) ==> LoaderValid(r.0)
    decreases |keys|
  {
    if keys == [] then (st, [])
    else
      var first := Load(st, keys[0]);
      var rest := LoadEach(first.0, keys[1..]);
      (rest.0, [first.1] + rest.1)
  }

  /** The URLs fetched when the keys are loaded in turn from `st`: those needing a fetch, in order. */
  function FetchesFor(st: LoaderState, keys: seq<string>): seq<string>
    decreases |keys|
  {
    if keys == [] then []
    else (if NeedsFetch(st, keys[0]) then [SampleUrls[keys[0]]] else []) + FetchesFor(st, keys[1..])
  }

  /** Two states that agree on which of the keys need a fetch plan the same fetches. */
  lemma {:induction false} FetchesForFrame(st1: LoaderState, st2: LoaderState, keys: seq<string>)
    requires forall k :: k in keys ==> NeedsFetch(st1, k) == NeedsFetch(st2, k)
    ensures FetchesFor(st1, keys) == FetchesFor(st2, keys)
    decreases |keys|
  {
    if keys != [] {
      FetchesForFrame(st1, st2, keys[1..]);
    }
  }

  /** One load appends to the fetch log exactly when the key needs a fetch, and no other key's need changes. */
  lemma LoadStep(st: LoaderState, key: string)
    ensures Load(st, key).0.fetched == st.fetched + (if NeedsFetch(st, key) then [SampleUrls[key]] else [])
    ensures forall k :: k != key ==> NeedsFetch(Load(st, key).0, k) == NeedsFetch(st, k)
  {
  }

  /** The tail of a list of distinct keys is distinct and does not hold the head. */
  lemma DistinctRest(keys: seq<string>)
    requires keys != [] && Distinct(keys)
    ensures Distinct(keys[1..]) && keys[0] !in keys[1..]
  {
    var rest := keys[1..];
    forall i, j | 0 <= i < j < |rest| ensures rest[i] != rest[j] {
      assert rest[i] == keys[i + 1] && rest[j] == keys[j + 1];
    }
    forall i | 0 <= i < |rest| ensures rest[i] != keys[0] {
      assert rest[i] == keys[i + 1];
    }
  }

  /** The inductive step: the fetches of the tail, planned after the first load, are those planned before it. */
  lemma LoadEachStep(st: LoaderState, keys: seq<string>)
    requires keys != [] && keys[0] !in keys[1..]
    requires var st1 := Load(st, keys[0]).0;
      LoadEach(st1, keys[1..]).0.fetched == st1.fetched + FetchesFor(st1, keys[1..])
    ensures LoadEach(st, keys).0.fetched == st.fetched + FetchesFor(st, keys)
  {
    var st1 := Load(st, keys[0]).0;
    var rest := keys[1..];
    var first := if NeedsFetch(st, keys[0]) then [SampleUrls[keys[0]]] else [];
    assert LoadEach(st, keys).0 == LoadEach(st1, rest).0;
    assert FetchesFor(st1, rest) == FetchesFor(st, rest) by {
      LoadStep(st, keys[0]);
      FetchesForFrame(st1, st, rest);
    }
    assert st1.fetched == st.fetched + first by {
      LoadStep(st, keys[0]);
    }
    assert FetchesFor(st, keys) == first + FetchesFor(st, rest);
    AppendAssociates(st.fetched, first, FetchesFor(st, rest));
  }

  /**
   * Loading distinct keys fetches each key at most once: the fetch log grows by
   * exactly the URLs of the keys that were configured, not cached and not in flight.
   */
  lemma {:induction false} LoadEachFetchesOnce(st: LoaderState, keys: seq<string>)
    requires Distinct(keys)
    ensures LoadEach(st, keys).0.fetched == st.fetched + FetchesFor(st, keys)
    decreases |keys|
  {
    if keys != [] {
      DistinctRest(keys);
      LoadEachFetchesOnce(Load(st, keys[0]).0, keys[1..]);
      LoadEachStep(st, keys);
    }
  }

  /** The first loop of `ensureBuffersForNodes`: each node's string sample, first occurrence only, in map order. */
  method CollectSampleKeys(nodes: OrderedMap<GraphNode>) returns (keys: seq<string>)
    requires nodes.Valid()
    ensures keys == CollectKeys(nodes.keys, nodes.entries, [])
  {
    keys := [];
    var i := 0;
    while i < |nodes.keys|
      invariant 0 <= i <= |nodes.keys|
      invariant CollectKeys(nodes.keys, nodes.entries, []) == CollectKeys(nodes.keys[i..], nodes.entries, keys)
    {
      assert nodes.keys[i..][1..] == nodes.keys[i + 1..];
      var k := SampleKeyOf(nodes.entries[nodes.keys[i]]);
      if k.Some? && k.value !in keys {
        keys := keys + [k.value];
      }
      i := i + 1;
    }
  }

  /** The module-level cache and in-flight maps. */
  class Manager {
    var cache: map<string, Buffer>
    var loads: map<string, PendingLoad>
    var nextLoadId: nat
    var fetched: seq<string>

    function State(): LoaderState
      reads this
    {
      LoaderState(cache, loads, nextLoadId, fetched)
    }

    ghost predicate Valid()
      reads this
    {
      LoaderValid(State())
    }

    /** Both maps start empty. */
    constructor ()
      ensures Valid() && State() == LoaderState(map[], map[], 0, [])
    {
      cache, loads, nextLoadId, fetched := map[], map[], 0, [];
    }

    /** `getCachedBuffer(key)`: a lookup that reads the cache only. */
    function GetCachedBuffer(key: string): (r: Option<Buffer>)
      reads this
      ensures r.Some? <==> key in cache
      ensures r.Some? ==> r.value == cache[key]
    {
      if key in cache then Some(cache[key]) else None
    }

    /** `loadBufferForKey(key)`. */
    method LoadBufferForKey(key: string) returns (p: Promise)
      modifies this
      ensures (State(), p) == Load(old(State()), key)
    {
      if key in cache {
        return Resolved(cache[key]);
      }
      if key in loads {
        match loads[key].status
        case InFlight => return Waiting(loads[key].id);
        case Failed(e) => return Rejected(e);
      }
      if key !in SampleUrls {
        return Rejected(NoUrlConfigured(key));
      }
      fetched := fetched + [SampleUrls[key]];
      p := Waiting(nextLoadId);
      loads := loads[key := PendingLoad(nextLoadId, InFlight)];
      nextLoadId := nextLoadId + 1;
    }

    /** The environment finishes the fetch and decode of an in-flight key. */
    method CompleteLoad(key: string, outcome: Result<Buffer, LoadError>)
      requires key in loads && loads[key].status.InFlight?
      modifies this
      ensures State() == Settle(old(State()), key, outcome)
    {
      match outcome
      case Ok(b) =>
        cache := cache[key := b];
        loads := loads - {key};
      case Err(e) =>
        loads := loads[key := PendingLoad(loads[key].id, Failed(e))];
    }

    /**
     * `ensureBuffersForNodes(nodes)`: collects the distinct string samples of the
     * buffer-source nodes into a set, then requests each of them once.
     */
    method EnsureBuffersForNodes(nodes: OrderedMap<GraphNode>) returns (keys: seq<string>, promises: seq<Promise>)
      requires nodes.Valid()
      modifies this
      ensures Distinct(keys)
      ensures forall s :: s in keys <==> exists id :: id in nodes.keys && SampleKeyOf(nodes.entries[id]) == Some(s)
      ensures (State(), promises) == LoadEach(old(State()), keys)
      ensures fetched == old(fetched) + FetchesFor(old(State()), keys)
    {
      keys := CollectSampleKeys(nodes);
      CollectKeysSpec(nodes.keys, nodes.entries, []);
      ghost var st0 := State();
      promises := LoadKeys(keys);
      LoadEachFetchesOnce(st0, keys);
    }

    /** The second loop of `ensureBuffersForNodes`: `loadBufferForKey` on each key in turn. */
    method LoadKeys(keys: seq<string>) returns (promises: seq<Promise>)
      modifies this
      ensures (State(), promises) == LoadEach(old(State()), keys)
    {
      promises := [];
      var j := 0;
      ghost var st0 := State();
      assert keys[0..] == keys && promises + LoadEach(st0, keys).1 == LoadEach(st0, keys).1;
      while j < |keys|
        invariant 0 <= j <= |keys|
        invariant LoadEach(st0, keys) == (LoadEach(State(), keys[j..]).0, promises + LoadEach(State(), keys[j..]).1)
      {
        assert keys[j..][1..] == keys[j + 1..];
        ghost var before := State();
        var p := LoadBufferForKey(keys[j]);
        ghost var rest := LoadEach(State(), keys[j + 1..]);
        assert LoadEach(before, keys[j..]) == (rest.0, [p] + rest.1);
        AppendAssociates(promises, [p], rest.1);
        promises := promises + [p];
        j := j + 1;
      }
      assert keys[j..] == [] && promises + [] == promises;
    }
  }
}

=== FILE: compile_graph.dfy ===
/**
 * The graph compiler: `compileAudioGraph(nodes, connections, audioContext)`
 * returns a handle whose `play` builds and starts the primitives for the graph
 * and whose `stop` stops the sources and, after a delay, disconnects
 * everything and clears the instance table. The handle's closure state (the
 * instance table and the pending cleanup timer) is the state of a
 * `CompiledGraph`.
 */
module CompileGraph {
  import opened Wrappers
  import opened JsValues
  import opened OrderedMaps
  import opened Primitives
  import opened GraphStore
  import opened Playback

  /** `Math.max(0, x)`. */
  function NonNegative(x: real): (r: real)
    ensures r >= 0.0 && r >= x && (r == 0.0 || r == x)
  {
    if x < 0.0 then 0.0 else x
  }

  /**
   * What `play(time)` does, starting from the table and primitives `b`:
   * instantiate every node in map order; unless that throws, wire the
   * connections and then start the sources, unless the wiring loop throws on a
   * falsy entry of the list.
   */
  function Played(nodes: OrderedMap<GraphNode>, conns: seq<Option<Connection>>, b: Built, time: real): (r: (Built, Option<Thrown>))
    requires nodes.Valid() && TableOk(b.table, |b.instances|)
    ensures TableOk(r.0.table, |r.0.instances|)
  {
    InstantiateAllSpec(nodes.keys, nodes.entries, b);
    var (built, thrown) := InstantiateAll(nodes.keys, nodes.entries, b);
    if thrown.Some? then (built, Some(DataUndefined(thrown.value)))
    else
      var (r, falsy) := WireAndStart(built, conns, time);
      (r, if falsy.Some? then Some(FalsyConnection(falsy.value)) else None)
  }

  /**
   * A falsy entry in the connection list makes `play` throw once every node is
   * instantiated: the throw names the first falsy position, the connections
   * before it are wired, and no source is started.
   */
  lemma FalsyConnectionThrows(nodes: OrderedMap<GraphNode>, conns: seq<Option<Connection>>, b: Built, time: real, k: nat)
    requires nodes.Valid() && TableOk(b.table, |b.instances|)
    requires InstantiateAll(nodes.keys, nodes.entries, b).1.None?
    requires k < |conns| && conns[k].None? && forall i :: 0 <= i < k ==> conns[i].Some?
    ensures var built := InstantiateAll(nodes.keys, nodes.entries, b).0;
      var (r, thrown) := Played(nodes, conns, b, time);
      && thrown == Some(FalsyConnection(k))
      && |PresentPrefix(conns)| == k
      && r.table == built.table
      && r.instances == Wire(PresentPrefix(conns), built.table.entries, built.instances)
  {
    var built := InstantiateAll(nodes.keys, nodes.entries, b).0;
    InstantiateAllSpec(nodes.keys, nodes.entries, b);
    var present := PresentPrefix(conns);
    assert conns[0..] == conns;
    WireFromPresentPrefix(conns, 0, built.table.entries, built.instances);
  }

  /**
   * `play`, then `stop`, then the cleanup: every primitive in the table but the
   * destination ends up with no outgoing connection after exactly one
   * `disconnect()`, and each of its scheduled sources was started once at the
   * play time and stopped once at the stop time; a primitive outside the table
   * is left exactly as instantiation left it.
   */
  lemma PlayStopCleanupSilences(nodes: OrderedMap<GraphNode>, conns: seq<Option<Connection>>, b: Built, time: real, stopTime: real)
    requires nodes.Valid() && TableOk(b.table, |b.instances|)
    requires b.instances[DestinationHandle].kind == Destination
    ensures var built := InstantiateAll(nodes.keys, nodes.entries, b).0;
      var (r, thrown) := Played(nodes, conns, b, time);
      thrown.None? ==>
        var stopped := StopAll(r.table.keys, r.table.entries, r.instances, stopTime);
        var cleaned := DisconnectAll(r.table.keys, r.table.entries, stopped);
        forall h :: 0 <= h < |built.instances| ==>
          var before := built.instances[h];
          if h in HandlesOf(r.table.keys, r.table.entries) && h != DestinationHandle then
            && cleaned[h].outputs == []
            && cleaned[h].disconnects == before.disconnects + 1
            && (IsScheduledSource(before.kind) ==>
                  cleaned[h].starts == before.starts + [time] && cleaned[h].stops == before.stops + [stopTime])
            && (!IsScheduledSource(before.kind) ==> cleaned[h].starts == before.starts && cleaned[h].stops == before.stops)
          else h !in HandlesOf(r.table.keys, r.table.entries) ==> cleaned[h] == before
  {
    var built := InstantiateAll(nodes.keys, nodes.entries, b).0;
    InstantiateAllSpec(nodes.keys, nodes.entries, b);
    if InstantiateAll(nodes.keys, nodes.entries, b).1.None? {
      assert built.instances[..|b.instances|][DestinationHandle] == built.instances[DestinationHandle];
      StartStopCleanup(built, conns, time, stopTime);
    }
  }

  /** The part of `PlayStopCleanupSilences` after instantiation, from the instantiated table and primitives `b`. */
  lemma StartStopCleanup(b: Built, conns: seq<Option<Connection>>, time: real, stopTime: real)
    requires TableOk(b.table, |b.instances|) && b.instances[DestinationHandle].kind == Destination
    ensures var (r, falsy) := WireAndStart(b, conns, time);
      falsy.None? ==>
        var cleaned := DisconnectAll(r.table.keys, r.table.entries, StopAll(r.table.keys, r.table.entries, r.instances, stopTime));
        forall h :: 0 <= h < |b.instances| ==>
          var before := b.instances[h];
          if h in HandlesOf(r.table.keys, r.table.entries) && h != DestinationHandle then
            && cleaned[h].outputs == []
            && cleaned[h].disconnects == before.disconnects + 1
            && (IsScheduledSource(before.kind) ==>
                  cleaned[h].starts == before.starts + [time] && cleaned[h].stops == before.stops + [stopTime])
            && (!IsScheduledSource(before.kind) ==> cleaned[h].starts == before.starts && cleaned[h].stops == before.stops)
          else h !in HandlesOf(r.table.keys, r.table.entries) ==> cleaned[h] == before
  {
    var (r, falsy) := WireAndStart(b, conns, time);
    WireAndStartEffect(b, conns, time);
    StopCleanupEffect(r.table, r.instances, stopTime);
  }

  /**
   * Two stop passes and then one cleanup pass: every primitive of the table but
   * the destination is disconnected exactly once and left with no outgoing
   * connection, whatever the two stop times.
   */
  lemma StopStopCleanupDisconnectsOnce(table: OrderedMap<nat>, insts: seq<Instance>, t1: real, t2: real)
    requires TableOk(table, |insts|) && insts[DestinationHandle].kind == Destination
    ensures var once := StopAll(table.keys, table.entries, insts, t1);
      var twice := StopAll(table.keys, table.entries, once, t2);
      var cleaned := DisconnectAll(table.keys, table.entries, twice);
      forall id :: id in table.entries && table.entries[id] != DestinationHandle ==>
        && table.entries[id] < |cleaned|
        && cleaned[table.entries[id]].disconnects == insts[table.entries[id]].disconnects + 1
        && cleaned[table.entries[id]].outputs == []
  {
    TableOkShares(table, |insts|);
    var once := StopAll(table.keys, table.entries, insts, t1);
    StopAllStopsStartedSources(table.keys, table.entries, insts, t1);
    var twice := StopAll(table.keys, table.entries, once, t2);
    StopAllStopsStartedSources(table.keys, table.entries, once, t2);
    DisconnectAllOnce(table.keys, table.entries, twice);
    forall id | id in table.entries && table.entries[id] != DestinationHandle
      ensures table.entries[id] in HandlesOf(table.keys, table.entries)
    {
      assert id in table.keys;
    }
  }

  /** A connection with an endpoint missing from the table wires nothing, wherever it sits in the list. */
  lemma {:induction false} UnresolvedConnectionSkipped(
      before: seq<Connection>, c: Connection, after: seq<Connection>, table: map<string, nat>, insts: seq<Instance>, h: nat)
    requires InRange(table, |insts|) && !Resolved(c, table)
    ensures RoutesFrom(before + [c] + after, table, insts, h) == RoutesFrom(before + after, table, insts, h)
    decreases |before|
  {
    if before == [] {
      assert before + [c] + after == [c] + after && before + after == after;
      assert ([c] + after)[1..] == after;
    } else {
      UnresolvedConnectionSkipped(before[1..], c, after, table, insts, h);
      assert (before + [c] + after)[1..] == before[1..] + [c] + after;
      assert (before + after)[1..] == before[1..] + after;
    }
  }

  class CompiledGraph {
    const nodes: OrderedMap<GraphNode>
    /** The store's connection list, falsy entries included. */
    const connections: seq<Option<Connection>>
    const ctx: AudioContext
    /** `activeAudioNodes`: node id to primitive handle, in insertion order. */
    var active: OrderedMap<nat>
    /** Whether a cleanup timer is scheduled (`cleanupTimeout !== null`). */
    var cleanupPending: bool
    /** The delay the pending cleanup timer was scheduled with, in milliseconds. */
    var cleanupDelayMs: real

    ghost predicate Valid()
      reads this`active, ctx
    {
      ctx.Valid() && nodes.Valid() && TableOk(active, |ctx.instances|)
    }

    /** `compileAudioGraph`: creates no primitive; the table starts empty and no cleanup is pending. */
    constructor (nodes: OrderedMap<GraphNode>, connections: seq<Option<Connection>>, ctx: AudioContext)
      requires nodes.Valid() && ctx.Valid()
      ensures Valid()
      ensures this.nodes == nodes && this.connections == connections && this.ctx == ctx
      ensures active == Empty() && !cleanupPending && cleanupDelayMs == 0.0
    {
      this.nodes := nodes;
      this.connections := connections;
      this.ctx := ctx;
      active := Empty();
      cleanupPending := false;
      cleanupDelayMs := 0.0;
    }

    /** The `switch` arm for a kind with a primitive: create it, then apply the node's data to it. */
    method CreateConfigured(kind: Kind, data: map<string, Value>) returns (h: nat)
      requires ctx.Valid() && kind != Destination
      modifies ctx
      ensures ctx.Valid() && ctx.currentTime == old(ctx.currentTime)
      ensures h == |old(ctx.instances)| && ctx.instances == old(ctx.instances) + [Configure(kind, data)]
    {
      ghost var before := ctx.instances;
      h := ctx.Create(kind);
      match kind {
        case Oscillator =>
          var f := Property(data, "frequency");
          if Truthy(f) { ctx.SetParamValue(h, "frequency", f); }
          var t := Property(data, "type");
          if Truthy(t) { ctx.SetField(h, "type", t); }
        case Gain =>
          var g := Property(data, "gain");
          if g != Undefined { ctx.SetParamValue(h, "gain", g); }
        case BiquadFilter =>
          var t := Property(data, "type");
          if Truthy(t) { ctx.SetField(h, "type", t); }
          var f := Property(data, "frequency");
          if Truthy(f) { ctx.SetParamValue(h, "frequency", f); }
          var q := Property(data, "Q");
          if Truthy(q) { ctx.SetParamValue(h, "Q", q); }
        case StereoPanner =>
          var p := Property(data, "pan");
          if Truthy(p) { ctx.SetParamValue(h, "pan", p); }
        case BufferSource =>
          var r := Property(data, "playbackRate");
          if Truthy(r) { ctx.SetParamValue(h, "playbackRate", r); }
      }
    }

    /** One iteration of the instantiation loop of `play`. */
    method InstantiateNode(id: string, node: GraphNode) returns (threw: bool)
      requires Valid()
      modifies this, ctx
      ensures Valid()
      ensures (Built(active, ctx.instances), threw) == CompileNode(id, node, Built(old(active), old(ctx.instances)))
      ensures ctx.currentTime == old(ctx.currentTime)
      ensures cleanupPending == old(cleanupPending) && cleanupDelayMs == old(cleanupDelayMs)
    {
      CompileNodeKeepsTable(id, node, Built(active, ctx.instances));
      match KindOf(node.nodeType) {
        case None =>
          threw := false;
        case Some(k) =>
          if k == Destination {
            active := active.Set(id, DestinationHandle);
            threw := false;
          } else if node.data.None? {
            var _ := ctx.Create(k);
            threw := true;
          } else {
            var h := CreateConfigured(k, node.data.value);
            active := active.Set(id, h);
            threw := false;
          }
      }
    }

    /** The instantiation loop of `play`, over the nodes in map order; a throw ends it. */
    method InstantiateNodes() returns (thrown: Option<string>)
      requires Valid()
      modifies this, ctx
      ensures Valid()
      ensures (Built(active, ctx.instances), thrown) == InstantiateAll(nodes.keys, nodes.entries, Built(old(active), old(ctx.instances)))
      ensures ctx.currentTime == old(ctx.currentTime)
      ensures cleanupPending == old(cleanupPending) && cleanupDelayMs == old(cleanupDelayMs)
    {
      var i := 0;
      while i < |nodes.keys|
        invariant 0 <= i <= |nodes.keys| && Valid()
        invariant InstantiateAll(nodes.keys, nodes.entries, Built(old(active), old(ctx.instances)))
               == InstantiateAll(nodes.keys[i..], nodes.entries, Built(active, ctx.instances))
        invariant ctx.currentTime == old(ctx.currentTime)
        invariant cleanupPending == old(cleanupPending) && cleanupDelayMs == old(cleanupDelayMs)
      {
        var id := nodes.keys[i];
        assert nodes.keys[i..][1..] == nodes.keys[i + 1..];
        var threw := InstantiateNode(id, nodes.entries[id]);
        if threw {
          return Some(id);
        }
        i := i + 1;
      }
      return None;
    }

    /** The wiring loop of `play`, over the connections in list order; a falsy entry throws. */
    method WireConnections() returns (falsy: Option<nat>)
      requires Valid()
      modifies ctx
      ensures Valid()
      ensures (ctx.instances, falsy) == WireFrom(connections, 0, active.entries, old(ctx.instances))
      ensures ctx.currentTime == old(ctx.currentTime)
    {
      var i := 0;
      while i < |connections|
        invariant 0 <= i <= |connections| && Valid()
        invariant |ctx.instances| == |old(ctx.instances)|
        invariant WireFrom(connections, 0, active.entries, old(ctx.instances)) == WireFrom(connections, i, active.entries, ctx.instances)
        invariant ctx.currentTime == old(ctx.currentTime)
      {
        if connections[i].None? {
          return Some(i);
        }
        var c := connections[i].value;
        var fromNode := active.Get(c.from.nodeId);
        var toNode := active.Get(c.to.nodeId);
        if fromNode.Some? && toNode.Some? {
          var to := toNode.value;
          var target := if c.to.socket in ctx.instances[to].params then ParamInput(to, c.to.socket) else NodeInput(to);
          ctx.Connect(fromNode.value, target);
        }
        i := i + 1;
      }
      return None;
    }

    /** The start loop of `play`: `start(time)` on every scheduled source in the table. */
    method StartSources(time: real)
      requires Valid()
      modifies ctx
      ensures Valid()
      ensures ctx.instances == StartAll(active.keys, active.entries, old(ctx.instances), time)
      ensures ctx.currentTime == old(ctx.currentTime)
    {
      var i := 0;
      while i < |active.keys|
        invariant 0 <= i <= |active.keys| && Valid()
        invariant |ctx.instances| == |old(ctx.instances)|
        invariant StartAll(active.keys, active.entries, old(ctx.instances), time)
               == StartAll(active.keys[i..], active.entries, ctx.instances, time)
        invariant ctx.currentTime == old(ctx.currentTime)
      {
        var h := active.entries[active.keys[i]];
        StartAllAt(active.keys, active.entries, ctx.instances, time, i);
        if IsScheduledSource(ctx.instances[h].kind) {
          ctx.Start(h, time);
        }
        i := i + 1;
      }
    }

    /**
     * `play(time)`: instantiates the nodes, wires the connections, starts the
     * sources. A node whose kind needs a primitive but whose data is undefined
     * throws; what was built up to then stays in the table, and nothing is
     * wired or started. A falsy entry of the connection list throws out of the
     * wiring loop, and nothing is started.
     */
    method Play(time: real) returns (thrown: Option<Thrown>)
      requires Valid()
      modifies this, ctx
      ensures Valid()
      ensures (Built(active, ctx.instances), thrown) == Played(nodes, connections, Built(old(active), old(ctx.instances)), time)
      ensures ctx.currentTime == old(ctx.currentTime)
      ensures cleanupPending == old(cleanupPending) && cleanupDelayMs == old(cleanupDelayMs)
    {
      InstantiateAllSpec(nodes.keys, nodes.entries, Built(active, ctx.instances));
      var missing := InstantiateNodes();
      if missing.Some? {
        return Some(DataUndefined(missing.value));
      }
      var falsy := WireConnections();
      if falsy.Some? {
        return Some(FalsyConnection(falsy.value));
      }
      StartSources(time);
      return None;
    }

    /**
     * `stop(time)`: cancels a pending cleanup, tells every started scheduled
     * source to stop at the stop time (the clock's current time when none is
     * given; a raised error is swallowed), and schedules a single cleanup
     * `max(0, stopTime - now) * 1000` milliseconds ahead.
     */
    method Stop(time: Option<real>)
      requires Valid()
      modifies this, ctx
      ensures Valid() && active == old(active)
      ensures var stopTime := if time.None? then old(ctx.currentTime) else time.value;
        && ctx.instances == StopAll(active.keys, active.entries, old(ctx.instances), stopTime)
        && cleanupPending
        && cleanupDelayMs == NonNegative((stopTime - old(ctx.currentTime)) * 1000.0)
      ensures ctx.currentTime == old(ctx.currentTime)
    {
      cleanupPending := false;
      var stopTime := if time.None? then ctx.currentTime else time.value;
      var delayInMs := NonNegative((stopTime - ctx.currentTime) * 1000.0);
      StopSources(stopTime);
      cleanupPending := true;
      cleanupDelayMs := delayInMs;
    }

    /** The stop loop of `stop`: `stop(stopTime)` on every scheduled source in the table, a raised error swallowed. */
    method StopSources(stopTime: real)
      requires Valid()
      modifies ctx
      ensures Valid() && ctx.currentTime == old(ctx.currentTime)
      ensures ctx.instances == StopAll(active.keys, active.entries, old(ctx.instances), stopTime)
    {
      TableOkShares(active, |ctx.instances|);
      var i := 0;
      while i < |active.keys|
        invariant 0 <= i <= |active.keys| && Valid()
        invariant |ctx.instances| == |old(ctx.instances)| && ctx.currentTime == old(ctx.currentTime)
        invariant StopAll(active.keys, active.entries, old(ctx.instances), stopTime)
               == StopAll(active.keys[i..], active.entries, ctx.instances, stopTime)
      {
        var h := active.entries[active.keys[i]];
        StopAllAt(active.keys, active.entries, ctx.instances, stopTime, i);
        ctx.StopIfSource(h, stopTime);
        i := i + 1;
      }
    }

    /**
     * The cleanup timer fires: every primitive in the table but the
     * destination is disconnected, the table is cleared, and no cleanup is
     * pending any more.
     */
    method FireCleanup()
      requires Valid() && cleanupPending
      modifies this, ctx
      ensures Valid()
      ensures ctx.instances == DisconnectAll(old(active.keys), old(active.entries), old(ctx.instances))
      ensures active == Empty() && !cleanupPending
      ensures ctx.currentTime == old(ctx.currentTime)
    {
      DisconnectSources();
      active := Empty();
      cleanupPending := false;
    }

    /** The loop of the cleanup timer: `disconnect()` on every primitive in the table but the destination. */
    method DisconnectSources()
      requires Valid()
      modifies ctx
      ensures Valid() && ctx.currentTime == old(ctx.currentTime)
      ensures ctx.instances == DisconnectAll(active.keys, active.entries, old(ctx.instances))
    {
      TableOkShares(active, |ctx.instances|);
      var i := 0;
      while i < |active.keys|
        invariant 0 <= i <= |active.keys| && ctx.Valid()
        invariant |ctx.instances| == |old(ctx.instances)| && ctx.currentTime == old(ctx.currentTime)
        invariant DisconnectAll(active.keys, active.entries, old(ctx.instances))
               == DisconnectAll(active.keys[i..], active.entries, ctx.instances)
      {
        var h := active.entries[active.keys[i]];
        DisconnectAllAt(active.keys, active.entries, ctx.instances, i);
        if h != DestinationHandle {
          ctx.Disconnect(h);
        }
        i := i + 1;
      }
    }

    /**
     * Two stops before the cleanup fires: the second cancels the first timer,
     * so a single cleanup pass runs, after which nothing is pending, and every
     * primitive of the table but the destination was disconnected exactly once.
     */
    method StopTwiceThenCleanup(first: Option<real>, second: Option<real>)
      requires Valid()
      modifies this, ctx
      ensures Valid() && active == Empty() && !cleanupPending
      ensures forall id :: id in old(active.entries) && old(active.entries[id]) != DestinationHandle ==>
        old(active.entries[id]) < |ctx.instances|
        && ctx.instances[old(active.entries[id])].disconnects == old(ctx.instances[active.entries[id]].disconnects) + 1
        && ctx.instances[old(active.entries[id])].outputs == []
    {
      ghost var table := active;
      ghost var insts0 := ctx.instances;
      Stop(first);
      Stop(second);
      FireCleanup();
      StopStopCleanupDisconnectsOnce(table, insts0, if first.None? then old(ctx.currentTime) else first.value,
                                     if second.None? then old(ctx.currentTime) else second.value);
    }
  }
}

=== FILE: graph_store.dfy ===
/**
 * The editor's graph store: the node list, the connection list and the
 * currently raised node, with the write operations that compute a whole new
 * list from the old one (add, remove with cascade, move) and the derived
 * id-to-node index.
 */
module GraphStore {
  import opened Wrappers
  import opened JsValues
  import opened OrderedMaps

  /** A node on the canvas; `data` is `undefined` for the three initial nodes. */
  datatype GraphNode = GraphNode(
    id: string,
    nodeType: string,
    x: real,
    y: real,
    data: Option<map<string, Value>>)

  datatype Endpoint = Endpoint(nodeId: string, socket: string)

  datatype Connection = Connection(from: Endpoint, to: Endpoint)

  /** The store's three atoms. A connection slot may hold a falsy entry (`None`). */
  datatype Store = Store(
    nodes: seq<GraphNode>,
    connections: seq<Option<Connection>>,
    topNode: Option<string>)

  /** The payload of a position update: `null` is `None`. */
  datatype Position = Position(id: string, x: real, y: real)

  /** The destination node's id, which removal protects. */
  const DestinationId := "destination_1"

  /** The initial node list: an oscillator, a gain and the destination, none of them with `data`. */
  const InitialNodes := [
    GraphNode("osc_1", "Oscillator", 50.0, 150.0, None),
    GraphNode("gain_1", "Gain", 250.0, 150.0, None),
    GraphNode(DestinationId, "AudioDestination", 250.0, 50.0, None)
  ]

  /** The character of one decimal digit. */
  function DigitChar(d: nat): (c: char)
    requires d < 10
    ensures '0' <= c <= '9'
  {
    "0123456789"[d]
  }

  /** The decimal rendering of a timestamp, as template-string interpolation gives it. */
  function DecimalDigits(n: nat): (s: string)
    ensures |s| > 0
    ensures n >= 10 ==> |s| >= 2
    ensures forall i :: 0 <= i < |s| ==> '0' <= s[i] <= '9'
    decreases n
  {
    if n < 10 then [DigitChar(n)] else DecimalDigits(n / 10) + [DigitChar(n % 10)]
  }

  /** The id `addNode` gives a node of type `nodeType` created at `timestamp`. */
  function NewNodeId(nodeType: string, timestamp: nat): string
  {
    nodeType + "_" + DecimalDigits(timestamp)
  }

  /** Distinct timestamps give distinct decimal renderings. */
  lemma {:induction false} DecimalDigitsInjective(a: nat, b: nat)
    requires DecimalDigits(a) == DecimalDigits(b)
    ensures a == b
    decreases a
  {
    var s := DecimalDigits(a);
    if a < 10 || b < 10 {
      assert |s| == 1;
      assert a < 10 && b < 10;
      assert "0123456789"[a] == s[0] == "0123456789"[b];
    } else {
      var pa, pb := DecimalDigits(a / 10), DecimalDigits(b / 10);
      assert s == pa + [DigitChar(a % 10)] == pb + [DigitChar(b % 10)];
      assert |pa| == |pb|;
      assert pa == s[..|s| - 1] == pb;
      assert "0123456789"[a % 10] == s[|s| - 1] == "0123456789"[b % 10];
      DecimalDigitsInjective(a / 10, b / 10);
    }
  }

  /** Two nodes of one type added at different milliseconds get different ids. */
  lemma NewNodeIdsDiffer(nodeType: string, t1: nat, t2: nat)
    requires t1 != t2
    ensures NewNodeId(nodeType, t1) != NewNodeId(nodeType, t2)
  {
    if NewNodeId(nodeType, t1) == NewNodeId(nodeType, t2) {
      var p := nodeType + "_";
      assert NewNodeId(nodeType, t1)[|p|..] == DecimalDigits(t1);
      assert NewNodeId(nodeType, t2)[|p|..] == DecimalDigits(t2);
      DecimalDigitsInjective(t1, t2);
    }
  }

  /**
   * `addNode(type)`: appends one node with id `type_<now>`, empty `data` and a
   * position drawn from the two random numbers `rx`, `ry` in [0, 1).
   */
  function AddNode(s: Store, nodeType: string, now: nat, rx: real, ry: real): (r: Store)
    ensures |r.nodes| == |s.nodes| + 1 && r.nodes[..|s.nodes|] == s.nodes
    ensures var n := r.nodes[|s.nodes|];
      && n.id == NewNodeId(nodeType, now) && n.nodeType == nodeType
      && n.data == Some(map[])
      && (0.0 <= rx < 1.0 ==> 100.0 <= n.x < 300.0)
      && (0.0 <= ry < 1.0 ==> 100.0 <= n.y < 300.0)
    ensures r.connections == s.connections && r.topNode == s.topNode
  {
    var node := GraphNode(NewNodeId(nodeType, now), nodeType, 100.0 + rx * 200.0, 100.0 + ry * 200.0, Some(map[]));
    s.(nodes := s.nodes + [node])
  }

  /** `nodes.filter(node => node.id !== id)`. */
  function KeepNodes(nodes: seq<GraphNode>, id: string): (r: seq<GraphNode>)
    ensures |r| <= |nodes|
    ensures forall n :: n in r <==> n in nodes && n.id != id
  {
    if nodes == [] then []
    else (if nodes[0].id != id then [nodes[0]] else []) + KeepNodes(nodes[1..], id)
  }

  /** Whether a connection has `id` at either end. */
  predicate Touches(c: Connection, id: string)
  {
    c.from.nodeId == id || c.to.nodeId == id
  }

  /** `connections.filter(conn => conn && conn.from.nodeId !== id && conn.to.nodeId !== id)`. */
  function KeepConnections(connections: seq<Option<Connection>>, id: string): (r: seq<Option<Connection>>)
    ensures |r| <= |connections|
    ensures forall c :: c in r <==> c in connections && c.Some? && !Touches(c.value, id)
  {
    if connections == [] then []
    else
      var c := connections[0];
      (if c.Some? && !Touches(c.value, id) then [c] else []) + KeepConnections(connections[1..], id)
  }

  /** `removeNode(id)`: the destination is protected; any other id is deleted with its connections. */
  function RemoveNode(s: Store, id: string): (r: Store)
    ensures |r.nodes| <= |s.nodes| && |r.connections| <= |s.connections|
    ensures forall n :: n in r.nodes ==> n in s.nodes && (id != DestinationId ==> n.id != id)
    ensures forall c :: c in r.connections ==> c in s.connections
    ensures r.topNode == s.topNode || (id != DestinationId && s.topNode == Some(id) && r.topNode.None?)
  {
    if id == DestinationId then s
    else Store(KeepNodes(s.nodes, id), KeepConnections(s.connections, id),
               if s.topNode == Some(id) then None else s.topNode)
  }

  /** Removing nodes keeps the others in their order: filtering distributes over concatenation. */
  lemma {:induction false} KeepNodesAppend(a: seq<GraphNode>, b: seq<GraphNode>, id: string)
    ensures KeepNodes(a + b, id) == KeepNodes(a, id) + KeepNodes(b, id)
  {
    if a != [] {
      assert (a + b)[1..] == a[1..] + b;
      KeepNodesAppend(a[1..], b, id);
    } else {
      assert a + b == b;
    }
  }

  /** Filtering a node list in which no node has `id` changes nothing. */
  lemma {:induction false} KeepNodesUnchanged(nodes: seq<GraphNode>, id: string)
    requires forall n :: n in nodes ==> n.id != id
    ensures KeepNodes(nodes, id) == nodes
  {
    if nodes != [] {
      KeepNodesUnchanged(nodes[1..], id);
      assert [nodes[0]] + nodes[1..] == nodes;
    }
  }

  /** Removing connections keeps the others in their order. */
  lemma {:induction false} KeepConnectionsAppend(a: seq<Option<Connection>>, b: seq<Option<Connection>>, id: string)
    ensures KeepConnections(a + b, id) == KeepConnections(a, id) + KeepConnections(b, id)
  {
    if a != [] {
      assert (a + b)[1..] == a[1..] + b;
      KeepConnectionsAppend(a[1..], b, id);
    } else {
      assert a + b == b;
    }
  }

  /** Filtering a connection list with no falsy entry and no connection touching `id` changes nothing. */
  lemma {:induction false} KeepConnectionsUnchanged(connections: seq<Option<Connection>>, id: string)
    requires forall c :: c in connections ==> c.Some? && !Touches(c.value, id)
    ensures KeepConnections(connections, id) == connections
  {
    if connections != [] {
      KeepConnectionsUnchanged(connections[1..], id);
      assert [connections[0]] + connections[1..] == connections;
    }
  }

  /** Removing the destination leaves the whole store unchanged. */
  lemma RemoveDestinationIsNoop(s: Store)
    ensures RemoveNode(s, DestinationId) == s
  {
  }

  /**
   * Removing any other id deletes exactly the nodes with that id, deletes every
   * falsy entry and every connection with that id at either end, and clears the
   * raised node exactly when it was the removed one.
   */
  lemma RemoveNodeCascades(s: Store, id: string)
    requires id != DestinationId
    ensures var r := RemoveNode(s, id);
      && (forall n :: n in r.nodes <==> n in s.nodes && n.id != id)
      && (forall c :: c in r.connections ==> c.Some? && !Touches(c.value, id))
      && (forall c :: c in s.connections && c.Some? && !Touches(c.value, id) ==> c in r.connections)
      && (r.topNode.None? <==> s.topNode.None? || s.topNode == Some(id))
      && (r.topNode.Some? ==> r.topNode == s.topNode)
  {
  }

  /** Removing the same id twice gives the same store as removing it once. */
  lemma RemoveNodeIdempotent(s: Store, id: string)
    ensures RemoveNode(RemoveNode(s, id), id) == RemoveNode(s, id)
  {
    if id != DestinationId {
      var r := RemoveNode(s, id);
      KeepNodesUnchanged(r.nodes, id);
      KeepConnectionsUnchanged(r.connections, id);
    }
  }

  /** `updateNodePosition(payload)`: a `null` payload changes nothing; otherwise every node with the id moves. */
  function UpdateNodePosition(s: Store, payload: Option<Position>): (r: Store)
    ensures |r.nodes| == |s.nodes| && Ids(r.nodes) == Ids(s.nodes)
    ensures r.connections == s.connections && r.topNode == s.topNode
  {
    match payload
    case None => s
    case Some(p) =>
      s.(nodes := seq(|s.nodes|, i requires 0 <= i < |s.nodes| =>
                        if s.nodes[i].id == p.id then s.nodes[i].(x := p.x, y := p.y) else s.nodes[i]))
  }

  /**
   * A position update keeps the length and order of the list and every node's
   * id, type and data; it changes coordinates only on the nodes whose id
   * matches, and leaves the connections and the raised node alone.
   */
  lemma UpdateNodePositionPreserves(s: Store, payload: Option<Position>)
    ensures var r := UpdateNodePosition(s, payload);
      && |r.nodes| == |s.nodes|
      && r.connections == s.connections && r.topNode == s.topNode
      && (forall i :: 0 <= i < |s.nodes| ==>
            && r.nodes[i].id == s.nodes[i].id
            && r.nodes[i].nodeType == s.nodes[i].nodeType
            && r.nodes[i].data == s.nodes[i].data
            && (payload.None? || s.nodes[i].id != payload.value.id ==> r.nodes[i] == s.nodes[i])
            && (payload.Some? && s.nodes[i].id == payload.value.id ==>
                  r.nodes[i].x == payload.value.x && r.nodes[i].y == payload.value.y))
  {
  }

  /** The node-map fold: `map.set(node.id, node)` for each node in list order. */
  function IndexFrom(nodes: seq<GraphNode>, acc: OrderedMap<GraphNode>): OrderedMap<GraphNode>
    decreases |nodes|
  {
    if nodes == [] then acc else IndexFrom(nodes[1..], acc.Set(nodes[0].id, nodes[0]))
  }

  /**
   * `nodesMap`: the id-keyed index of the node list. Its keys are the list's
   * ids, each once, in the order of their first occurrence.
   */
  function NodesMap(nodes: seq<GraphNode>): (m: OrderedMap<GraphNode>)
    ensures m.Valid() && m.keys == FirstOccurrences(Ids(nodes), [])
  {
    IndexFromKeys(nodes, Empty());
    IndexFromOrder(nodes, Empty());
    IndexFrom(nodes, Empty())
  }

  /** The elements of `ids` not in `seen`, each once, in the order of their first occurrence. */
  function FirstOccurrences(ids: seq<string>, seen: seq<string>): seq<string>
    decreases |ids|
  {
    if ids == [] then []
    else if ids[0] in seen then FirstOccurrences(ids[1..], seen)
    else [ids[0]] + FirstOccurrences(ids[1..], seen + [ids[0]])
  }

  /** A list whose elements are distinct and unseen is its own first occurrences. */
  lemma {:induction false} FirstOccurrencesOfDistinct(ids: seq<string>, seen: seq<string>)
    requires forall i, j :: 0 <= i < j < |ids| ==> ids[i] != ids[j]
    requires forall k :: k in ids ==> k !in seen
    ensures FirstOccurrences(ids, seen) == ids
    decreases |ids|
  {
    if ids != [] {
      var rest := ids[1..];
      forall k | k in rest ensures k !in seen + [ids[0]] {
        var j :| 0 <= j < |rest| && rest[j] == k;
        assert ids[j + 1] == k;
      }
      FirstOccurrencesOfDistinct(rest, seen + [ids[0]]);
      assert [ids[0]] + rest == ids;
    }
  }

  /** The fold lists the accumulator's keys first, then the list's new ids in first-occurrence order. */
  lemma {:induction false} IndexFromOrder(nodes: seq<GraphNode>, acc: OrderedMap<GraphNode>)
    requires acc.Valid()
    ensures IndexFrom(nodes, acc).keys == acc.keys + FirstOccurrences(Ids(nodes), acc.keys)
    decreases |nodes|
  {
    if nodes != [] {
      var next := acc.Set(nodes[0].id, nodes[0]);
      IndexFromOrder(nodes[1..], next);
      IdsTail(nodes);
      FirstOccurrencesStep(Ids(nodes), acc.keys);
    }
  }

  /** The ids of a non-empty list: the first node's id, then the ids of the rest. */
  lemma {:induction false} IdsTail(nodes: seq<GraphNode>)
    requires nodes != []
    ensures Ids(nodes) == [nodes[0].id] + Ids(nodes[1..])
  {
  }

  /** Extending the seen keys by one unseen id: its first occurrence leads, then the rest's. */
  lemma {:induction false} FirstOccurrencesStep(ids: seq<string>, seen: seq<string>)
    requires ids != []
    ensures ids[0] in seen ==> seen + FirstOccurrences(ids, seen) == seen + FirstOccurrences(ids[1..], seen)
    ensures ids[0] !in seen ==>
      seen + FirstOccurrences(ids, seen) == (seen + [ids[0]]) + FirstOccurrences(ids[1..], seen + [ids[0]])
  {
    if ids[0] !in seen {
      var tail := FirstOccurrences(ids[1..], seen + [ids[0]]);
      assert seen + ([ids[0]] + tail) == (seen + [ids[0]]) + tail;
    }
  }



  /** Whether `nodes[i]` is the last node of the list with its id. */
  predicate LastWithId(nodes: seq<GraphNode>, i: int)
    requires 0 <= i < |nodes|
  {
    forall j :: i < j < |nodes| ==> nodes[j].id != nodes[i].id
  }

  /** The ids of a node list, in order. */
  function Ids(nodes: seq<GraphNode>): (ids: seq<string>)
    ensures |ids| == |nodes|
    ensures forall i :: 0 <= i < |nodes| ==> ids[i] == nodes[i].id
  {
    if nodes == [] then [] else [nodes[0].id] + Ids(nodes[1..])
  }

  /** The fold keeps the map valid and its keys are the accumulator's keys plus the list's ids. */
  lemma {:induction false} IndexFromKeys(nodes: seq<GraphNode>, acc: OrderedMap<GraphNode>)
    requires acc.Valid()
    ensures var m := IndexFrom(nodes, acc);
      && m.Valid()
      && (forall k :: k in m.entries <==> k in acc.entries || k in Ids(nodes))
    decreases |nodes|
  {
    if nodes != [] {
      IndexFromKeys(nodes[1..], acc.Set(nodes[0].id, nodes[0]));
      assert Ids(nodes) == [nodes[0].id] + Ids(nodes[1..]);
    }
  }

  /** The fold maps every id of the list to the last node carrying it. */
  lemma {:induction false} IndexFromLast(nodes: seq<GraphNode>, acc: OrderedMap<GraphNode>)
    ensures var m := IndexFrom(nodes, acc);
      forall i :: 0 <= i < |nodes| && LastWithId(nodes, i) ==>
        nodes[i].id in m.entries && m.entries[nodes[i].id] == nodes[i]
    decreases |nodes|
  {
    if nodes != [] {
      var next := acc.Set(nodes[0].id, nodes[0]);
      var rest := nodes[1..];
      IndexFromLast(rest, next);
      IndexFromUntouched(rest, next);
      var m := IndexFrom(nodes, acc);
      assert m == IndexFrom(rest, next);
      forall i | 0 <= i < |nodes| && LastWithId(nodes, i)
        ensures nodes[i].id in m.entries && m.entries[nodes[i].id] == nodes[i]
      {
        if i > 0 {
          assert rest[i - 1] == nodes[i];
          assert LastWithId(rest, i - 1) by {
            forall j | i - 1 < j < |rest| ensures rest[j].id != rest[i - 1].id {
              assert rest[j] == nodes[j + 1];
            }
          }
        } else {
          assert nodes[0].id !in Ids(rest) by {
            forall j | 0 <= j < |rest| ensures Ids(rest)[j] != nodes[0].id {
              assert rest[j] == nodes[j + 1];
            }
          }
        }
      }
    }
  }

  /** The fold leaves the value of a key no node of the list carries as it was. */
  lemma {:induction false} IndexFromUntouched(nodes: seq<GraphNode>, acc: OrderedMap<GraphNode>)
    ensures var m := IndexFrom(nodes, acc);
      forall k :: k in acc.entries && k !in Ids(nodes) ==> k in m.entries && m.entries[k] == acc.entries[k]
    decreases |nodes|
  {
    if nodes != [] {
      IndexFromUntouched(nodes[1..], acc.Set(nodes[0].id, nodes[0]));
      assert Ids(nodes) == [nodes[0].id] + Ids(nodes[1..]);
    }
  }

  /**
   * The index has exactly the ids of the list as keys, each once, and maps each
   * id to the last node of the list carrying it; when the ids are distinct, the
   * keys are the ids in list order.
   */
  lemma NodesMapIndexesLastNode(nodes: seq<GraphNode>)
    ensures var m := NodesMap(nodes);
      && m.Valid()
      && (forall k :: k in m.entries <==> k in Ids(nodes))
      && (forall i :: 0 <= i < |nodes| && LastWithId(nodes, i) ==> m.entries[nodes[i].id] == nodes[i])
      && ((forall i, j :: 0 <= i < j < |nodes| ==> nodes[i].id != nodes[j].id) ==> m.keys == Ids(nodes))
  {
    IndexFromKeys(nodes, Empty());
    IndexFromLast(nodes, Empty());
    if forall i, j :: 0 <= i < j < |nodes| ==> nodes[i].id != nodes[j].id {
      FirstOccurrencesOfDistinct(Ids(nodes), []);
    }
  }
}

=== FILE: js_values.dfy ===
/**
 * The JavaScript values that flow through a graph node's `data` record, with the
 * two comparisons the source relies on: truthiness (`if (x)`) and strict
 * equality (`===` / `!==`).
 */
module JsValues {
  import opened Wrappers

  /** An IEEE double as JavaScript sees it; the sign of zero is not modelled. */
  datatype Number = Finite(r: real) | NaN | PosInfinity | NegInfinity

  /** `Object` stands for any other object (a function, an array, a record). */
  datatype Value =
    | Undefined
    | Null
    | Bool(b: bool)
    | Num(n: Number)
    | Str(s: string)
    | Object(ref: nat)

  /** JavaScript's `ToBoolean`: the values an `if (x)` guard lets through. */
  predicate Truthy(v: Value)
  {
    match v
    case Undefined => false
    case Null => false
    case Bool(b) => b
    case Num(n) => !n.NaN? && n != Finite(0.0)
    case Str(s) => s != ""
    case Object(_) => true
  }

  /** `a === b`: structural for primitives and object identity, except that NaN differs from itself. */
  predicate StrictEquals(a: Value, b: Value)
  {
    a == b && a != Num(NaN)
  }

  /** Reading `record.key`: a missing key reads as `undefined`. */
  function Property(record: map<string, Value>, key: string): (v: Value)
    ensures key !in record ==> v == Undefined
    ensures key in record ==> v == record[key]
  {
    if key in record then record[key] else Undefined
  }

  /** Reading `record.key` where `record` itself may be `undefined` (`record?.key`). */
  function OptionalProperty(record: Option<map<string, Value>>, key: string): (v: Value)
    ensures record.None? ==> v == Undefined
    ensures record.Some? ==> v == Property(record.value, key)
  {
    match record
    case None => Undefined
    case Some(r) => Property(r, key)
  }

}

=== FILE: node_registry.dfy ===
/**
 * The node-type registry: the descriptor types of a node kind (sockets and
 * user-adjustable parameters) and the process-wide map from type name to
 * descriptor that `registerNode` fills.
 */
module NodeRegistry {
  import opened Wrappers

  /** Whether a socket carries an audio signal or feeds a named parameter. */
  datatype SocketKind = AudioSocket | ParamSocket

  datatype Socket = Socket(name: string, kind: SocketKind)

  /** A user-adjustable parameter: exactly one of slider, selector or url. */
  datatype ParameterDefinition =
    | Slider(name: string, min: real, max: real, step: real, defaultValue: real)
    | Selector(name: string, options: seq<string>, defaultOption: string)
    | Url(name: string, defaultUrl: string)

  /**
   * A node descriptor. Every `compute` of the source ignores its arguments and
   * returns a constant record, kept here as `computed`.
   */
  datatype NodeImpl = NodeImpl(
    typeName: string,
    inputs: seq<Socket>,
    outputs: seq<Socket>,
    parameters: Option<seq<ParameterDefinition>>,
    computed: map<string, string>)

  /** A slider's default lies in its range and its step is positive. */
  predicate SliderWellFormed(p: ParameterDefinition)
    requires p.Slider?
  {
    p.min <= p.defaultValue <= p.max && p.step > 0.0
  }

  /** A selector's default is one of its options. */
  predicate SelectorWellFormed(p: ParameterDefinition)
    requires p.Selector?
  {
    p.defaultOption in p.options
  }

  /** No two sockets of the list share a name. */
  predicate UniqueSocketNames(sockets: seq<Socket>)
  {
    forall i, j :: 0 <= i < j < |sockets| ==> sockets[i].name != sockets[j].name
  }

  /** Every slider and selector of the descriptor is well formed, and its socket names are unique per side. */
  predicate DescriptorWellFormed(d: NodeImpl)
  {
    && UniqueSocketNames(d.inputs)
    && UniqueSocketNames(d.outputs)
    && (d.parameters.Some? ==>
          forall p :: p in d.parameters.value ==>
            (p.Slider? ==> SliderWellFormed(p)) && (p.Selector? ==> SelectorWellFormed(p)))
  }

  /** The registry after `registerNode(d)`: `d` is stored under its type name, replacing any earlier entry. */
  function Registered(registry: map<string, NodeImpl>, d: NodeImpl): (r: map<string, NodeImpl>)
    ensures d.typeName in r && r[d.typeName] == d
    ensures forall t :: t != d.typeName ==> (t in r <==> t in registry)
    ensures forall t :: t in registry && t != d.typeName ==> r[t] == registry[t]
    ensures |r| == if d.typeName in registry then |registry| else |registry| + 1
  {
    registry[d.typeName := d]
  }

  /** The registry after registering `ds` in order, as a module body of `registerNode` calls does. */
  function RegisteredAll(registry: map<string, NodeImpl>, ds: seq<NodeImpl>): map<string, NodeImpl>
    decreases |ds|
  {
    if ds == [] then registry else RegisteredAll(Registered(registry, ds[0]), ds[1..])
  }

  /** The type names of a descriptor list, in order. */
  function TypeNames(ds: seq<NodeImpl>): (names: seq<string>)
    ensures |names| == |ds|
    ensures forall i :: 0 <= i < |ds| ==> names[i] == ds[i].typeName
  {
    if ds == [] then [] else [ds[0].typeName] + TypeNames(ds[1..])
  }

  /** No two descriptors of the list share a type name. */
  predicate DistinctTypeNames(ds: seq<NodeImpl>)
  {
    forall i, j :: 0 <= i < j < |ds| ==> ds[i].typeName != ds[j].typeName
  }

  /** Registering two descriptors of different type names gives the same registry in either order. */
  lemma RegisterCommutes(registry: map<string, NodeImpl>, d1: NodeImpl, d2: NodeImpl)
    requires d1.typeName != d2.typeName
    ensures Registered(Registered(registry, d1), d2) == Registered(Registered(registry, d2), d1)
  {
  }

  /**
   * Registering a list of descriptors with pairwise distinct type names adds
   * exactly those names, each looked up to its own descriptor, and leaves every
   * other entry as it was; the registry grows by the number of new names.
   */
  lemma {:induction false} RegisteredAllDistinct(registry: map<string, NodeImpl>, ds: seq<NodeImpl>)
    requires DistinctTypeNames(ds)
    ensures var r := RegisteredAll(registry, ds);
      && (forall t :: t in r <==> t in registry || t in TypeNames(ds))
      && (forall i :: 0 <= i < |ds| ==> r[ds[i].typeName] == ds[i])
      && (forall t :: t in registry && t !in TypeNames(ds) ==> r[t] == registry[t])
      && ((forall i :: 0 <= i < |ds| ==> ds[i].typeName !in registry) ==> |r| == |registry| + |ds|)
    decreases |ds|
  {
    if ds != [] {
      var head := Registered(registry, ds[0]);
      RegisteredAllDistinct(head, ds[1..]);
      var r := RegisteredAll(registry, ds);
      assert r == RegisteredAll(head, ds[1..]);
      assert TypeNames(ds) == [ds[0].typeName] + TypeNames(ds[1..]);
      forall i | 0 <= i < |ds|
        ensures r[ds[i].typeName] == ds[i]
      {
        if i > 0 {
          assert ds[1..][i - 1] == ds[i];
        } else {
          assert ds[0].typeName !in TypeNames(ds[1..]) by {
            forall j | 0 <= j < |ds[1..]| ensures TypeNames(ds[1..])[j] != ds[0].typeName {
              assert ds[1..][j] == ds[j + 1];
            }
          }
        }
      }
    }
  }

  /** The process-wide `NodeRegistry` map. */
  class Registry {
    var entries: map<string, NodeImpl>

    /** `new Map()`: the registry starts empty. */
    constructor ()
      ensures entries == map[]
    {
      entries := map[];
    }

    /** `NodeRegistry.get(typeName)`. */
    function Get(typeName: string): (r: Option<NodeImpl>)
      reads this
      ensures r.Some? <==> typeName in entries
      ensures r.Some? ==> r.value == entries[typeName] && r.value in entries.Values
    {
      if typeName in entries then Some(entries[typeName]) else None
    }

    /** `registerNode(d)`: `NodeRegistry.set(d.type, d)`. */
    method RegisterNode(d: NodeImpl)
      modifies this
      ensures entries == Registered(old(entries), d)
    {
      entries := entries[d.typeName := d];
    }

    /** A module body that calls `registerNode` once per descriptor of `ds`, in order. */
    method RegisterAll(ds: seq<NodeImpl>)
      modifies this
      ensures entries == RegisteredAll(old(entries), ds)
    {
      var i := 0;
      while i < |ds|
        invariant 0 <= i <= |ds|
        invariant RegisteredAll(old(entries), ds) == RegisteredAll(entries, ds[i..])
      {
        assert ds[i..][1..] == ds[i + 1..];
        RegisterNode(ds[i]);
        i := i + 1;
      }
    }
  }
}

=== FILE: ordered_maps.dfy ===
/**
 * A JavaScript `Map` with string keys: lookup by key, iteration in the order in
 * which keys were first inserted, and `set` on an existing key updating the value
 * in place without moving the key.
 */
module OrderedMaps {
  import opened Wrappers

  datatype OrderedMap<V> = OrderedMap(keys: seq<string>, entries: map<string, V>) {

    /** The keys are listed once each, and exactly the keys of `entries` are listed. */
    ghost predicate Valid()
    {
      && (forall i, j :: 0 <= i < j < |keys| ==> keys[i] != keys[j])
      && (forall k :: k in entries <==> k in keys)
    }

    /** `map.size`. */
    function Size(): nat
    {
      |keys|
    }

    /** `map.get(k)`. */
    function Get(k: string): (r: Option<V>)
      ensures r.Some? <==> k in entries
      ensures r.Some? ==> r.value == entries[k]
    {
      if k in entries then Some(entries[k]) else None
    }

    /** `map.set(k, v)`. */
    function Set(k: string, v: V): (m: OrderedMap<V>)
      ensures m.entries == entries[k := v]
      ensures k in entries ==> m.keys == keys
      ensures k !in entries ==> m.keys == keys + [k]
      ensures Valid() ==> m.Valid()
    {
      if k in entries then OrderedMap(keys, entries[k := v])
      else OrderedMap(keys + [k], entries[k := v])
    }
  }

  /** `new Map()` and the state left by `map.clear()`. */
  function Empty<V>(): (m: OrderedMap<V>)
    ensures m.Valid() && m.Size() == 0 && m.entries == map[]
  {
    OrderedMap([], map[])
  }
}

=== FILE: playback.dfy ===
/**
 * What playing and stopping a graph does to the primitives, as functions of the
 * instance table (node id to primitive handle) and the primitives before the
 * step: how a node's `data` configures a new primitive, how connections are
 * wired, and the start, stop and disconnect passes over the table. The graph
 * compiler and the playback hook both follow these rules.
 */
module Playback {
  import opened Wrappers
  import opened JsValues
  import opened OrderedMaps
  import opened Primitives
  import opened GraphStore

  /** The primitive a node type instantiates; any other type (Streamer, Music, ...) gets none. */
  function KindOf(nodeType: string): (k: Option<Kind>)
    ensures k.Some? <==> nodeType in {"Oscillator", "Gain", "BiquadFilter", "StereoPanner", "AudioBufferSource", "AudioDestination"}
    ensures k == Some(Destination) <==> nodeType == "AudioDestination"
  {
    match nodeType
    case "Oscillator" => Some(Oscillator)
    case "Gain" => Some(Gain)
    case "BiquadFilter" => Some(BiquadFilter)
    case "StereoPanner" => Some(StereoPanner)
    case "AudioBufferSource" => Some(BufferSource)
    case "AudioDestination" => Some(Destination)
    case _ => None
  }

  // ---------------------------------------------------------------- configuring a new primitive

  /** `if (data.name) instance[name].value = data.name`. */
  function WhenTruthyParam(i: Instance, name: string, data: map<string, Value>): (r: Instance)
    requires name in i.params
    ensures r.kind == i.kind && r.params.Keys == i.params.Keys
  {
    var v := Property(data, name);
    if Truthy(v) then WithParamValue(i, name, v) else i
  }

  /** `if (data.type) instance.type = data.type`. */
  function WhenTruthyType(i: Instance, data: map<string, Value>): (r: Instance)
    requires "type" !in i.params
    ensures r.kind == i.kind && r.params == i.params
  {
    var v := Property(data, "type");
    if Truthy(v) then WithField(i, "type", v) else i
  }

  /**
   * The primitive the graph compiler builds for a node of kind `kind` whose
   * `data` is the record `data`, statement by statement: the gain is applied
   * whenever it is defined, every other parameter and the `type` only when truthy.
   */
  function Configure(kind: Kind, data: map<string, Value>): (i: Instance)
    ensures i.kind == kind && i.params.Keys == DefaultParams(kind).Keys && i.fields.Keys == DefaultFields(kind).Keys
    ensures i.outputs == [] && i.starts == [] && i.stops == [] && i.disconnects == 0 && i.buffer.None?
  {
    var i := Fresh(kind);
    match kind
    case Oscillator => WhenTruthyType(WhenTruthyParam(i, "frequency", data), data)
    case Gain =>
      var g := Property(data, "gain");
      if g != Undefined then WithParamValue(i, "gain", g) else i
    case BiquadFilter => WhenTruthyParam(WhenTruthyParam(WhenTruthyType(i, data), "frequency", data), "Q", data)
    case StereoPanner => WhenTruthyParam(i, "pan", data)
    case BufferSource => WhenTruthyParam(i, "playbackRate", data)
    case Destination => i
  }

  /** The parameters a kind takes from `data` only when the value is truthy. */
  function TruthyParams(kind: Kind): set<string>
  {
    match kind
    case Oscillator => {"frequency"}
    case BiquadFilter => {"frequency", "Q"}
    case StereoPanner => {"pan"}
    case BufferSource => {"playbackRate"}
    case _ => {}
  }

  /** Whether the value `v` found in `data` for parameter `name` is applied to a new primitive of kind `kind`. */
  predicate ParamApplied(kind: Kind, name: string, v: Value)
  {
    (kind == Gain && name == "gain" && v != Undefined) || (name in TruthyParams(kind) && Truthy(v))
  }

  /**
   * The configuration rule as a table: a new primitive has its kind's params
   * and plain attributes, each param holds the data value when the rule applies
   * it and its default otherwise (so 0 is ignored everywhere but in `gain`, and
   * `detune` is never touched), `type` is copied only when truthy, and nothing
   * is connected, started, stopped or buffered.
   */
  ghost predicate FollowsRules(i: Instance, kind: Kind, data: map<string, Value>)
  {
    && i.kind == kind
    && i.params.Keys == DefaultParams(kind).Keys
    && i.fields.Keys == DefaultFields(kind).Keys
    && (forall n :: n in i.params ==>
          i.params[n] == if ParamApplied(kind, n, Property(data, n))
                         then Param(Property(data, n), []) else DefaultParams(kind)[n])
    && (forall n :: n in i.fields ==>
          i.fields[n] == if n == "type" && Truthy(Property(data, "type"))
                         then Property(data, "type") else DefaultFields(kind)[n])
    && i.outputs == [] && i.starts == [] && i.stops == [] && i.disconnects == 0 && i.buffer.None?
  }

  /** The statement-by-statement configuration of every kind but the destination follows the rule table. */
  lemma ConfigureFollowsRules(kind: Kind, data: map<string, Value>)
    requires kind != Destination
    ensures FollowsRules(Configure(kind, data), kind, data)
  {
    match kind
    case Oscillator => ConfigureOscillatorRules(data);
    case Gain => ConfigureGainRules(data);
    case BiquadFilter => ConfigureBiquadRules(data);
    case StereoPanner => ConfigurePannerRules(data);
    case BufferSource => ConfigureBufferSourceRules(data);
  }

  lemma ConfigureOscillatorRules(data: map<string, Value>)
    ensures FollowsRules(Configure(Oscillator, data), Oscillator, data)
  {
  }

  lemma ConfigureGainRules(data: map<string, Value>)
    ensures FollowsRules(Configure(Gain, data), Gain, data)
  {
  }

  lemma ConfigureBiquadRules(data: map<string, Value>)
    ensures FollowsRules(Configure(BiquadFilter, data), BiquadFilter, data)
  {
    var t := WhenTruthyType(Fresh(BiquadFilter), data);
    var f := WhenTruthyParam(t, "frequency", data);
    var i := WhenTruthyParam(f, "Q", data);
    assert t.params == DefaultParams(BiquadFilter);
    assert f.params == if Truthy(Property(data, "frequency"))
                       then t.params["frequency" := Param(Property(data, "frequency"), [])] else t.params;
    assert i.params == if Truthy(Property(data, "Q")) then f.params["Q" := Param(Property(data, "Q"), [])] else f.params;
  }

  lemma ConfigurePannerRules(data: map<string, Value>)
    ensures FollowsRules(Configure(StereoPanner, data), StereoPanner, data)
  {
  }

  lemma ConfigureBufferSourceRules(data: map<string, Value>)
    ensures FollowsRules(Configure(BufferSource, data), BufferSource, data)
  {
  }

  // ---------------------------------------------------------------- the instance table

  /**
   * The table's handles name existing primitives (the destination, handle 0,
   * always exists), and two node ids share a handle only when it is the destination.
   */
  ghost predicate TableOk(table: OrderedMap<nat>, count: nat)
  {
    && count > DestinationHandle
    && table.Valid()
    && (forall id :: id in table.entries ==> table.entries[id] < count)
    && (forall a, b :: a in table.entries && b in table.entries && a != b && table.entries[a] == table.entries[b] ==>
          table.entries[a] == DestinationHandle)
  }

  /** The table and the primitives while `play` instantiates nodes. */
  datatype Built = Built(table: OrderedMap<nat>, instances: seq<Instance>)

  /**
   * The compiler's step for one node: an unknown type is skipped, the
   * destination maps to the context's destination, any other kind gets a new
   * primitive. Reading a property of `undefined` data throws a TypeError right
   * after the primitive was created, before it is recorded.
   */
  function CompileNode(id: string, node: GraphNode, b: Built): (r: (Built, bool))
    ensures r.1 <==> ThrowsOn(node)
    ensures |b.instances| <= |r.0.instances| <= |b.instances| + 1 && r.0.instances[..|b.instances|] == b.instances
  {
    match KindOf(node.nodeType)
    case None => (b, false)
    case Some(Destination) => (Built(b.table.Set(id, DestinationHandle), b.instances), false)
    case Some(k) =>
      if node.data.None? then (Built(b.table, b.instances + [Fresh(k)]), true)
      else (Built(b.table.Set(id, |b.instances|), b.instances + [Configure(k, node.data.value)]), false)
  }

  /** The instantiation loop: one step per node id in map order, stopping at the first throw. */
  function InstantiateAll(ids: seq<string>, nodes: map<string, GraphNode>, b: Built): (r: (Built, Option<string>))
    requires forall id :: id in ids ==> id in nodes
    ensures r.1.Some? ==> r.1.value in ids && ThrowsOn(nodes[r.1.value])
    ensures |b.instances| <= |r.0.instances| && r.0.instances[..|b.instances|] == b.instances
    decreases |ids|
  {
    if ids == [] then (b, None)
    else
      var (next, threw) := CompileNode(ids[0], nodes[ids[0]], b);
      if threw then (next, Some(ids[0])) else InstantiateAll(ids[1..], nodes, next)
  }

  /** Whether `play` of the graph compiler throws on this node. */
  predicate ThrowsOn(node: GraphNode)
  {
    node.data.None? && KindOf(node.nodeType).Some? && KindOf(node.nodeType) != Some(Destination)
  }

  /** Mapping an id to the destination keeps the table well formed. */
  lemma TableOkSetDestination(table: OrderedMap<nat>, count: nat, id: string)
    requires TableOk(table, count)
    ensures TableOk(table.Set(id, DestinationHandle), count)
  {
    var r := table.Set(id, DestinationHandle);
    forall a, c | a in r.entries && c in r.entries && a != c && r.entries[a] == r.entries[c]
      ensures r.entries[a] == DestinationHandle
    {
      if a != id && c != id {
        assert table.entries[a] == table.entries[c];
      }
    }
  }

  /** Mapping an id to a handle past every existing one keeps the table well formed. */
  lemma TableOkSetFresh(table: OrderedMap<nat>, count: nat, id: string)
    requires TableOk(table, count)
    ensures TableOk(table.Set(id, count), count + 1)
  {
    var r := table.Set(id, count);
    forall a, c | a in r.entries && c in r.entries && a != c && r.entries[a] == r.entries[c]
      ensures r.entries[a] == DestinationHandle
    {
      if a != id && c != id {
        assert table.entries[a] == table.entries[c];
      }
    }
  }

  /** A well-formed table stays well formed when primitives are added. */
  lemma TableOkGrow(table: OrderedMap<nat>, count: nat, count': nat)
    requires TableOk(table, count) && count <= count'
    ensures TableOk(table, count')
  {
  }

  /** A single step keeps the table well formed and never touches an existing primitive. */
  lemma CompileNodeKeepsTable(id: string, node: GraphNode, b: Built)
    requires TableOk(b.table, |b.instances|)
    ensures var (r, threw) := CompileNode(id, node, b);
      && TableOk(r.table, |r.instances|)
      && |b.instances| <= |r.instances| && r.instances[..|b.instances|] == b.instances
      && (threw <==> ThrowsOn(node))
      && (!threw ==>
            && (forall x :: x in r.table.entries <==> x in b.table.entries || (x == id && KindOf(node.nodeType).Some?))
            && (forall x :: x in b.table.entries && x != id ==> r.table.entries[x] == b.table.entries[x]))
  {
    match KindOf(node.nodeType)
    case None =>
    case Some(Destination) => TableOkSetDestination(b.table, |b.instances|, id);
    case Some(k) =>
      if node.data.None? {
        TableOkGrow(b.table, |b.instances|, |b.instances| + 1);
      } else {
        TableOkSetFresh(b.table, |b.instances|, id);
      }
  }

  /**
   * Instantiating a node list: the table stays well formed; old primitives are
   * untouched; a throw names a node whose kind needs a primitive but whose data
   * is undefined; without a throw, every node of a known type has an entry
   * (the destination's is the context destination, every other a new primitive
   * configured from its data), and no other id gains one.
   */
  lemma {:induction false} InstantiateAllSpec(ids: seq<string>, nodes: map<string, GraphNode>, b: Built)
    requires forall id :: id in ids ==> id in nodes
    requires TableOk(b.table, |b.instances|)
    ensures var (r, thrown) := InstantiateAll(ids, nodes, b);
      && TableOk(r.table, |r.instances|)
      && |b.instances| <= |r.instances| && r.instances[..|b.instances|] == b.instances
      && (thrown.Some? ==> thrown.value in ids && ThrowsOn(nodes[thrown.value]))
      && (thrown.None? ==>
            && (forall id :: id in ids ==> !ThrowsOn(nodes[id]))
            && (forall id :: id in r.table.entries <==> id in b.table.entries || (id in ids && KindOf(nodes[id].nodeType).Some?))
            && (forall id :: id in b.table.entries && id !in ids ==> r.table.entries[id] == b.table.entries[id]))
    decreases |ids|
  {
    if ids != [] {
      var (next, threw) := CompileNode(ids[0], nodes[ids[0]], b);
      CompileNodeKeepsTable(ids[0], nodes[ids[0]], b);
      if !threw {
        var rest := ids[1..];
        InstantiateAllSpec(rest, nodes, next);
        var (r, thrown) := InstantiateAll(ids, nodes, b);
        assert (r, thrown) == InstantiateAll(rest, nodes, next);
        assert r.instances[..|b.instances|] == r.instances[..|next.instances|][..|b.instances|];
        if thrown.None? {
          forall id | id in ids ensures !ThrowsOn(nodes[id]) {
            if id != ids[0] { assert id in rest; }
          }
          forall id ensures id in r.table.entries <==> id in b.table.entries || (id in ids && KindOf(nodes[id].nodeType).Some?) {
            if id != ids[0] { assert id in ids <==> id in rest; }
          }
          forall id | id in b.table.entries && id !in ids ensures r.table.entries[id] == b.table.entries[id] {
            assert id !in rest && id != ids[0];
          }
        }
      }
    }
  }

  /**
   * Without a throw, the entry of a listed node of a known type is fixed by
   * that node alone: the destination handle for the destination, and otherwise a
   * primitive created during this pass, configured from the node's data.
   */
  lemma {:induction false} InstantiateAllEntry(ids: seq<string>, nodes: map<string, GraphNode>, b: Built, id: string)
    requires forall x :: x in ids ==> x in nodes
    requires forall i, j :: 0 <= i < j < |ids| ==> ids[i] != ids[j]
    requires TableOk(b.table, |b.instances|)
    requires id in ids && KindOf(nodes[id].nodeType).Some?
    requires InstantiateAll(ids, nodes, b).1.None?
    ensures var r := InstantiateAll(ids, nodes, b).0;
      && id in r.table.entries
      && (KindOf(nodes[id].nodeType) == Some(Destination) ==> r.table.entries[id] == DestinationHandle)
      && (KindOf(nodes[id].nodeType) != Some(Destination) ==>
            && nodes[id].data.Some?
            && |b.instances| <= r.table.entries[id] < |r.instances|
            && r.instances[r.table.entries[id]] == Configure(KindOf(nodes[id].nodeType).value, nodes[id].data.value))
    decreases |ids|
  {
    var (next, threw) := CompileNode(ids[0], nodes[ids[0]], b);
    CompileNodeKeepsTable(ids[0], nodes[ids[0]], b);
    assert !threw;
    var rest := ids[1..];
    var r := InstantiateAll(ids, nodes, b).0;
    assert r == InstantiateAll(rest, nodes, next).0;
    InstantiateAllSpec(rest, nodes, next);
    DistinctIdsTail(ids);
    if id == ids[0] {
      CompileNodeEntry(id, nodes[id], b);
      FirstEntryKept(rest, nodes, next, id);
    } else {
      assert id in rest;
      InstantiateAllEntry(rest, nodes, next, id);
    }
  }

  /** The entry a step records for a node of a known type. */
  lemma CompileNodeEntry(id: string, node: GraphNode, b: Built)
    requires KindOf(node.nodeType).Some? && !CompileNode(id, node, b).1
    ensures var r := CompileNode(id, node, b).0;
      && id in r.table.entries
      && (KindOf(node.nodeType) == Some(Destination) ==> r.table.entries[id] == DestinationHandle)
      && (KindOf(node.nodeType) != Some(Destination) ==>
            && node.data.Some? && r.table.entries[id] == |b.instances| < |r.instances|
            && r.instances[|b.instances|] == Configure(KindOf(node.nodeType).value, node.data.value))
  {
  }

  /** The tail of a list of distinct ids is distinct and misses the head. */
  lemma DistinctIdsTail(ids: seq<string>)
    requires ids != [] && forall i, j :: 0 <= i < j < |ids| ==> ids[i] != ids[j]
    ensures ids[0] !in ids[1..]
    ensures forall i, j :: 0 <= i < j < |ids[1..]| ==> ids[1..][i] != ids[1..][j]
  {
    var rest := ids[1..];
    forall j | 0 <= j < |rest| ensures rest[j] != ids[0] { assert rest[j] == ids[j + 1]; }
    forall i, j | 0 <= i < j < |rest| ensures rest[i] != rest[j] {
      assert rest[i] == ids[i + 1] && rest[j] == ids[j + 1];
    }
  }

  /**
   * An entry made before a pass over ids that do not include it survives the
   * pass, and so does the primitive it names when it was created by that step.
   */
  lemma FirstEntryKept(rest: seq<string>, nodes: map<string, GraphNode>, next: Built, id: string)
    requires forall x :: x in rest ==> x in nodes
    requires TableOk(next.table, |next.instances|)
    requires id in next.table.entries && id !in rest
    requires InstantiateAll(rest, nodes, next).1.None?
    ensures var r := InstantiateAll(rest, nodes, next).0;
      && id in r.table.entries && r.table.entries[id] == next.table.entries[id]
      && |next.instances| <= |r.instances|
      && (next.table.entries[id] < |next.instances| ==> r.instances[next.table.entries[id]] == next.instances[next.table.entries[id]])
  {
    var r := InstantiateAll(rest, nodes, next).0;
    InstantiateAllSpec(rest, nodes, next);
    var h := next.table.entries[id];
    if h < |next.instances| {
      assert r.instances[h] == r.instances[..|next.instances|][h];
    }
  }

  // ---------------------------------------------------------------- wiring

  /** Both endpoints of the connection have a primitive. */
  predicate Resolved(c: Connection, table: map<string, nat>)
  {
    c.from.nodeId in table && c.to.nodeId in table
  }

  /** Handles in the table name existing primitives. */
  predicate InRange(table: map<string, nat>, count: nat)
  {
    forall id :: id in table ==> table[id] < count
  }

  /**
   * Where a resolved connection is routed: into the target's param named by the
   * socket when the target has such an `AudioParam`, into the target itself otherwise.
   */
  function TargetOf(c: Connection, table: map<string, nat>, insts: seq<Instance>): (t: Target)
    requires Resolved(c, table) && InRange(table, |insts|)
    ensures t.node == table[c.to.nodeId]
    ensures t.ParamInput? <==> c.to.socket in insts[table[c.to.nodeId]].params
    ensures t.ParamInput? ==> t.param == c.to.socket
  {
    var to := table[c.to.nodeId];
    if c.to.socket in insts[to].params then ParamInput(to, c.to.socket) else NodeInput(to)
  }

  /** One connection of the wiring loop: skipped unless resolved, otherwise `from.connect(target)`. */
  function WireOne(c: Connection, table: map<string, nat>, insts: seq<Instance>): (r: seq<Instance>)
    requires InRange(table, |insts|)
    ensures |r| == |insts|
  {
    if Resolved(c, table) then
      var f := table[c.from.nodeId];
      insts[f := insts[f].(outputs := insts[f].outputs + [TargetOf(c, table, insts)])]
    else insts
  }

  /** The wiring loop over the connection list, in order. */
  function Wire(conns: seq<Connection>, table: map<string, nat>, insts: seq<Instance>): (r: seq<Instance>)
    requires InRange(table, |insts|)
    ensures |r| == |insts|
    ensures forall h :: 0 <= h < |insts| ==> r[h] == insts[h].(outputs := r[h].outputs)
    decreases |conns|
  {
    if conns == [] then insts else Wire(conns[1..], table, WireOne(conns[0], table, insts))
  }

  /**
   * The connections before the first falsy entry of the store's list, in
   * order: the ones the wiring loop reaches before reading `from` of a falsy
   * entry throws a TypeError.
   */
  function PresentPrefix(conns: seq<Option<Connection>>): (r: seq<Connection>)
    ensures |r| <= |conns|
    ensures forall i :: 0 <= i < |r| ==> conns[i] == Some(r[i])
    ensures |r| < |conns| ==> conns[|r|].None?
    decreases |conns|
  {
    if conns == [] || conns[0].None? then [] else [conns[0].value] + PresentPrefix(conns[1..])
  }

  /**
   * The wiring loop over the store's list from position `i`: each connection is
   * wired as `WireOne` says, and a falsy entry throws, giving its position;
   * the entries after it are never reached.
   */
  function WireFrom(conns: seq<Option<Connection>>, i: nat, table: map<string, nat>, insts: seq<Instance>): (r: (seq<Instance>, Option<nat>))
    requires i <= |conns| && InRange(table, |insts|)
    ensures |r.0| == |insts|
    ensures r.1.Some? ==> i <= r.1.value < |conns| && conns[r.1.value].None?
    decreases |conns| - i
  {
    if i == |conns| then (insts, None)
    else if conns[i].None? then (insts, Some(i))
    else WireFrom(conns, i + 1, table, WireOne(conns[i].value, table, insts))
  }

  /**
   * The loop over the store's list wires exactly the connections before the
   * first falsy entry, in order, and throws exactly when there is a falsy
   * entry, at the first one.
   */
  lemma WireFromPresentPrefix(conns: seq<Option<Connection>>, i: nat, table: map<string, nat>, insts: seq<Instance>)
    requires i <= |conns| && InRange(table, |insts|)
    ensures var present := PresentPrefix(conns[i..]);
      && WireFrom(conns, i, table, insts).0 == Wire(present, table, insts)
      && WireFrom(conns, i, table, insts).1 == if |present| < |conns| - i then Some(i + |present|) else None
  {
    WireFromWiresPresent(conns, i, table, insts);
    WireFromThrowsAtFirstFalsy(conns, i, table, insts);
  }

  /** The primitives the loop leaves: those the present prefix wires. */
  lemma {:induction false} WireFromWiresPresent(conns: seq<Option<Connection>>, i: nat, table: map<string, nat>, insts: seq<Instance>)
    requires i <= |conns| && InRange(table, |insts|)
    ensures WireFrom(conns, i, table, insts).0 == Wire(PresentPrefix(conns[i..]), table, insts)
    decreases |conns| - i
  {
    if i == |conns| {
      assert conns[i..] == [];
    } else if conns[i].None? {
      assert conns[i..][0] == conns[i];
    } else {
      var c := conns[i].value;
      WireFromWiresPresent(conns, i + 1, table, WireOne(c, table, insts));
      assert conns[i..][0] == conns[i] && conns[i..][1..] == conns[i + 1..];
      assert PresentPrefix(conns[i..]) == [c] + PresentPrefix(conns[i + 1..]);
      WireCons(c, PresentPrefix(conns[i + 1..]), table, insts);
    }
  }

  /** Where the loop throws: at the first falsy entry from `i`, if any. */
  lemma {:induction false} WireFromThrowsAtFirstFalsy(conns: seq<Option<Connection>>, i: nat, table: map<string, nat>, insts: seq<Instance>)
    requires i <= |conns| && InRange(table, |insts|)
    ensures var present := PresentPrefix(conns[i..]);
      WireFrom(conns, i, table, insts).1 == if |present| < |conns| - i then Some(i + |present|) else None
    decreases |conns| - i
  {
    if i == |conns| {
      assert conns[i..] == [];
    } else if conns[i].None? {
      assert conns[i..][0] == conns[i];
    } else {
      var next := WireOne(conns[i].value, table, insts);
      WireFromThrowsAtFirstFalsy(conns, i + 1, table, next);
      assert WireFrom(conns, i, table, insts).1 == WireFrom(conns, i + 1, table, next).1;
      assert conns[i..][0] == conns[i] && conns[i..][1..] == conns[i + 1..];
      assert |PresentPrefix(conns[i..])| == |PresentPrefix(conns[i + 1..])| + 1;
    }
  }

  /** Wiring a list that starts with `c`: `c` first, then the rest. */
  lemma WireCons(c: Connection, rest: seq<Connection>, table: map<string, nat>, insts: seq<Instance>)
    requires InRange(table, |insts|)
    ensures Wire([c] + rest, table, insts) == Wire(rest, table, WireOne(c, table, insts))
  {
    assert ([c] + rest)[1..] == rest;
  }

  /** The routes wired out of handle `h`: the targets of the resolved connections leaving it, in list order. */
  function RoutesFrom(conns: seq<Connection>, table: map<string, nat>, insts: seq<Instance>, h: nat): (r: seq<Target>)
    requires InRange(table, |insts|)
    ensures forall t :: t in r ==> exists c :: c in conns && Resolved(c, table) && table[c.from.nodeId] == h && t == TargetOf(c, table, insts)
    decreases |conns|
  {
    if conns == [] then []
    else
      var c := conns[0];
      var rest := RoutesFrom(conns[1..], table, insts, h);
      assert forall t :: t in rest ==> exists c' :: c' in conns && Resolved(c', table) && table[c'.from.nodeId] == h && t == TargetOf(c', table, insts) by {
        forall t | t in rest ensures exists c' :: c' in conns && Resolved(c', table) && table[c'.from.nodeId] == h && t == TargetOf(c', table, insts) {
          var c' :| c' in conns[1..] && Resolved(c', table) && table[c'.from.nodeId] == h && t == TargetOf(c', table, insts);
          assert c' in conns;
        }
      }
      (if Resolved(c, table) && table[c.from.nodeId] == h then [TargetOf(c, table, insts)] else []) + rest
  }

  /** Routes depend only on which params the primitives have. */
  lemma {:induction false} RoutesFromFrame(conns: seq<Connection>, table: map<string, nat>, a: seq<Instance>, b: seq<Instance>, h: nat)
    requires |a| == |b| && InRange(table, |a|)
    requires forall k :: 0 <= k < |a| ==> a[k].params == b[k].params
    ensures RoutesFrom(conns, table, a, h) == RoutesFrom(conns, table, b, h)
    decreases |conns|
  {
    if conns != [] {
      RoutesFromFrame(conns[1..], table, a, b, h);
    }
  }

  /** One connection appends its route to the primitive it leaves and to no other. */
  lemma WireOneEffect(c: Connection, table: map<string, nat>, insts: seq<Instance>, h: nat)
    requires InRange(table, |insts|) && h < |insts|
    ensures WireOne(c, table, insts)[h]
         == insts[h].(outputs := insts[h].outputs
                        + if Resolved(c, table) && table[c.from.nodeId] == h then [TargetOf(c, table, insts)] else [])
  {
  }

  /**
   * Wiring only appends to the primitives' outgoing connections: afterwards each
   * primitive has, after what it had, exactly the routes of the resolved
   * connections leaving it, in list order; a connection with an endpoint
   * missing from the table is skipped, and nothing else changes.
   */
  lemma {:induction false} WireAppendsRoutes(conns: seq<Connection>, table: map<string, nat>, insts: seq<Instance>)
    requires InRange(table, |insts|)
    ensures var r := Wire(conns, table, insts);
      forall h :: 0 <= h < |insts| ==>
        r[h] == insts[h].(outputs := insts[h].outputs + RoutesFrom(conns, table, insts, h))
    decreases |conns|
  {
    if conns != [] {
      var next := WireOne(conns[0], table, insts);
      WireAppendsRoutes(conns[1..], table, next);
      RoutesFromFrame(conns[1..], table, next, insts, 0);
      forall h | 0 <= h < |insts|
        ensures Wire(conns, table, insts)[h] == insts[h].(outputs := insts[h].outputs + RoutesFrom(conns, table, insts, h))
      {
        RoutesFromFrame(conns[1..], table, next, insts, h);
        var c := conns[0];
        var first := if Resolved(c, table) && table[c.from.nodeId] == h then [TargetOf(c, table, insts)] else [];
        WireOneEffect(c, table, insts, h);
        AppendAssociates(insts[h].outputs, first, RoutesFrom(conns[1..], table, insts, h));
      }
    }
  }

  // ---------------------------------------------------------------- start, stop, disconnect passes

  /** The handles the listed ids map to. */
  function HandlesOf(ids: seq<string>, table: map<string, nat>): set<nat>
    requires forall id :: id in ids ==> id in table
  {
    set id | id in ids :: table[id]
  }

  /** Two listed ids share a handle only if it is the destination. */
  predicate SharedOnlyDestination(ids: seq<string>, table: map<string, nat>)
    requires forall id :: id in ids ==> id in table
  {
    forall i, j :: 0 <= i < j < |ids| && table[ids[i]] == table[ids[j]] ==> table[ids[i]] == DestinationHandle
  }

  /** The start loop: `node.start(time)` for every scheduled source in the table. */
  function StartAll(ids: seq<string>, table: map<string, nat>, insts: seq<Instance>, time: real): (r: seq<Instance>)
    requires forall id :: id in ids ==> id in table && table[id] < |insts|
    ensures |r| == |insts|
    ensures forall h :: 0 <= h < |insts| ==> r[h] == insts[h].(starts := r[h].starts)
    decreases |ids|
  {
    if ids == [] then insts
    else
      var h := table[ids[0]];
      var next := if IsScheduledSource(insts[h].kind) then Started(insts, h, time) else insts;
      StartAll(ids[1..], table, next, time)
  }

  /** The stop loop: `node.stop(time)` on every scheduled source, a raised error being swallowed. */
  function StopAll(ids: seq<string>, table: map<string, nat>, insts: seq<Instance>, time: real): (r: seq<Instance>)
    requires forall id :: id in ids ==> id in table && table[id] < |insts|
    ensures |r| == |insts|
    ensures forall h :: 0 <= h < |insts| ==> r[h] == insts[h].(stops := r[h].stops)
    decreases |ids|
  {
    if ids == [] then insts
    else
      var h := table[ids[0]];
      var next := if IsScheduledSource(insts[h].kind) && insts[h].starts != []
                  then Stopped(insts, h, time) else insts;
      StopAll(ids[1..], table, next, time)
  }

  /** The cleanup loop: `node.disconnect()` on every primitive in the table but the destination. */
  function DisconnectAll(ids: seq<string>, table: map<string, nat>, insts: seq<Instance>): (r: seq<Instance>)
    requires forall id :: id in ids ==> id in table && table[id] < |insts|
    ensures |r| == |insts|
    ensures forall h :: 0 <= h < |insts| ==>
      r[h] == insts[h].(outputs := r[h].outputs, disconnects := r[h].disconnects) && r[h].disconnects >= insts[h].disconnects
    ensures DestinationHandle < |insts| ==> r[DestinationHandle] == insts[DestinationHandle]
    decreases |ids|
  {
    if ids == [] then insts
    else
      var h := table[ids[0]];
      var next := if h != DestinationHandle
                  then Disconnected(insts, h) else insts;
      DisconnectAll(ids[1..], table, next)
  }

  /** The start pass from position `i`: the step for `ids[i]`, then the pass from `i + 1`. */
  lemma StartAllAt(ids: seq<string>, table: map<string, nat>, insts: seq<Instance>, time: real, i: nat)
    requires forall id :: id in ids ==> id in table && table[id] < |insts|
    requires i < |ids|
    ensures var h := table[ids[i]];
      StartAll(ids[i..], table, insts, time)
        == StartAll(ids[i + 1..], table,
                    if IsScheduledSource(insts[h].kind) then Started(insts, h, time) else insts,
                    time)
  {
    assert ids[i..][1..] == ids[i + 1..];
  }

  /** The stop pass from position `i`: the step for `ids[i]`, then the pass from `i + 1`. */
  lemma StopAllAt(ids: seq<string>, table: map<string, nat>, insts: seq<Instance>, time: real, i: nat)
    requires forall id :: id in ids ==> id in table && table[id] < |insts|
    requires i < |ids|
    ensures var h := table[ids[i]];
      StopAll(ids[i..], table, insts, time)
        == StopAll(ids[i + 1..], table,
                   if IsScheduledSource(insts[h].kind) && insts[h].starts != []
                   then Stopped(insts, h, time) else insts,
                   time)
  {
    assert ids[i..][1..] == ids[i + 1..];
  }

  /** The cleanup pass from position `i`: the step for `ids[i]`, then the pass from `i + 1`. */
  lemma DisconnectAllAt(ids: seq<string>, table: map<string, nat>, insts: seq<Instance>, i: nat)
    requires forall id :: id in ids ==> id in table && table[id] < |insts|
    requires i < |ids|
    ensures var h := table[ids[i]];
      DisconnectAll(ids[i..], table, insts)
        == DisconnectAll(ids[i + 1..], table,
                         if h != DestinationHandle
                         then Disconnected(insts, h) else insts)
  {
    assert ids[i..][1..] == ids[i + 1..];
  }

  lemma DistinctTail(ids: seq<string>, table: map<string, nat>)
    requires ids != [] && forall id :: id in ids ==> id in table
    requires forall i, j :: 0 <= i < j < |ids| ==> ids[i] != ids[j]
    requires SharedOnlyDestination(ids, table)
    ensures forall i, j :: 0 <= i < j < |ids[1..]| ==> ids[1..][i] != ids[1..][j]
    ensures SharedOnlyDestination(ids[1..], table)
    ensures table[ids[0]] != DestinationHandle ==> table[ids[0]] !in HandlesOf(ids[1..], table)
    ensures HandlesOf(ids, table) == {table[ids[0]]} + HandlesOf(ids[1..], table)
  {
    var rest := ids[1..];
    forall i, j | 0 <= i < j < |rest| && table[rest[i]] == table[rest[j]]
      ensures table[rest[i]] == DestinationHandle
    {
      assert rest[i] == ids[i + 1] && rest[j] == ids[j + 1];
    }
    assert HandlesOf(ids, table) == {table[ids[0]]} + HandlesOf(rest, table) by {
      forall h | h in HandlesOf(ids, table) ensures h in {table[ids[0]]} + HandlesOf(rest, table) {
        var id :| id in ids && table[id] == h;
        if id != ids[0] { assert id in rest; }
      }
    }
  }

  /**
   * Every scheduled source the table names is started exactly once, at `time`;
   * gains, filters, panners and the destination are never started, and nothing
   * else about any primitive changes.
   */
  lemma {:induction false} StartAllStartsSourcesOnce(ids: seq<string>, table: map<string, nat>, insts: seq<Instance>, time: real)
    requires forall id :: id in ids ==> id in table && table[id] < |insts|
    requires forall i, j :: 0 <= i < j < |ids| ==> ids[i] != ids[j]
    requires SharedOnlyDestination(ids, table)
    requires |insts| > 0 && insts[DestinationHandle].kind == Destination
    ensures var r := StartAll(ids, table, insts, time);
      forall h :: 0 <= h < |insts| ==>
        r[h] == if h in HandlesOf(ids, table) && IsScheduledSource(insts[h].kind)
                then insts[h].(starts := insts[h].starts + [time]) else insts[h]
    decreases |ids|
  {
    if ids != [] {
      var h0 := table[ids[0]];
      var next := if IsScheduledSource(insts[h0].kind) then Started(insts, h0, time) else insts;
      DistinctTail(ids, table);
      StartAllStartsSourcesOnce(ids[1..], table, next, time);
    }
  }

  /**
   * Every scheduled source the table names that has been started gets exactly
   * one `stop(time)`; a source never started raises, which is swallowed, and is
   * left as it was; nothing else changes.
   */
  lemma {:induction false} StopAllStopsStartedSources(ids: seq<string>, table: map<string, nat>, insts: seq<Instance>, time: real)
    requires forall id :: id in ids ==> id in table && table[id] < |insts|
    requires forall i, j :: 0 <= i < j < |ids| ==> ids[i] != ids[j]
    requires SharedOnlyDestination(ids, table)
    requires |insts| > 0 && insts[DestinationHandle].kind == Destination
    ensures var r := StopAll(ids, table, insts, time);
      forall h :: 0 <= h < |insts| ==>
        r[h] == if h in HandlesOf(ids, table) && IsScheduledSource(insts[h].kind) && insts[h].starts != []
                then insts[h].(stops := insts[h].stops + [time]) else insts[h]
    decreases |ids|
  {
    if ids != [] {
      var h0 := table[ids[0]];
      var next := if IsScheduledSource(insts[h0].kind) && insts[h0].starts != []
                  then Stopped(insts, h0, time) else insts;
      DistinctTail(ids, table);
      StopAllStopsStartedSources(ids[1..], table, next, time);
    }
  }

  /**
   * The cleanup pass disconnects every primitive the table names exactly once,
   * except the destination, which is never disconnected; nothing else changes.
   */
  lemma {:induction false} DisconnectAllOnce(ids: seq<string>, table: map<string, nat>, insts: seq<Instance>)
    requires forall id :: id in ids ==> id in table && table[id] < |insts|
    requires forall i, j :: 0 <= i < j < |ids| ==> ids[i] != ids[j]
    requires SharedOnlyDestination(ids, table)
    ensures var r := DisconnectAll(ids, table, insts);
      forall h :: 0 <= h < |insts| ==>
        r[h] == if h in HandlesOf(ids, table) && h != DestinationHandle
                then insts[h].(outputs := [], disconnects := insts[h].disconnects + 1) else insts[h]
    decreases |ids|
  {
    if ids != [] {
      var h0 := table[ids[0]];
      var next := if h0 != DestinationHandle
                  then Disconnected(insts, h0) else insts;
      DistinctTail(ids, table);
      DisconnectAllOnce(ids[1..], table, next);
    }
  }

  /**
   * A stop pass and then the cleanup pass over a well-formed table: every
   * primitive in the table but the destination loses its outgoing connections
   * after one `disconnect()`, and a started scheduled source gains one stop;
   * a primitive outside the table is unchanged.
   */
  lemma StopCleanupEffect(table: OrderedMap<nat>, insts: seq<Instance>, stopTime: real)
    requires TableOk(table, |insts|) && insts[DestinationHandle].kind == Destination
    ensures var cleaned := DisconnectAll(table.keys, table.entries, StopAll(table.keys, table.entries, insts, stopTime));
      forall h :: 0 <= h < |insts| ==>
        if h in HandlesOf(table.keys, table.entries) && h != DestinationHandle then
          cleaned[h] == insts[h].(outputs := [], disconnects := insts[h].disconnects + 1,
                                  stops := if IsScheduledSource(insts[h].kind) && insts[h].starts != []
                                           then insts[h].stops + [stopTime] else insts[h].stops)
        else h !in HandlesOf(table.keys, table.entries) ==> cleaned[h] == insts[h]
  {
    TableOkShares(table, |insts|);
    var stopped := StopAll(table.keys, table.entries, insts, stopTime);
    StopAllStopsStartedSources(table.keys, table.entries, insts, stopTime);
    DisconnectAllOnce(table.keys, table.entries, stopped);
  }

  /** A well-formed table lists its keys once each and shares only the destination handle. */
  lemma TableOkShares(table: OrderedMap<nat>, count: nat)
    requires TableOk(table, count)
    ensures forall id :: id in table.keys ==> id in table.entries && table.entries[id] < count
    ensures forall i, j :: 0 <= i < j < |table.keys| ==> table.keys[i] != table.keys[j]
    ensures SharedOnlyDestination(table.keys, table.entries)
  {
  }

  /** A routed connection leaves a primitive only when the primitive is in the table. */
  lemma NoRoutesFromUnlisted(conns: seq<Connection>, table: OrderedMap<nat>, insts: seq<Instance>, h: nat)
    requires TableOk(table, |insts|)
    requires h !in HandlesOf(table.keys, table.entries)
    ensures RoutesFrom(conns, table.entries, insts, h) == []
  {
  }

  /** Why `play` threw: a node of a creatable kind without data, or a falsy entry of the connection list. */
  datatype Thrown = DataUndefined(id: string) | FalsyConnection(index: nat)

  /**
   * Once every node is instantiated: wire the connections of the store's list,
   * then start the sources; a falsy entry throws out of the wiring loop, and
   * then nothing is started.
   */
  function WireAndStart(b: Built, conns: seq<Option<Connection>>, time: real): (r: (Built, Option<nat>))
    requires TableOk(b.table, |b.instances|)
    ensures r.0.table == b.table && |r.0.instances| == |b.instances|
  {
    var (wired, falsy) := WireFrom(conns, 0, b.table.entries, b.instances);
    (Built(b.table, if falsy.Some? then wired else StartAll(b.table.keys, b.table.entries, wired, time)), falsy)
  }

  /**
   * The effect of wiring then starting on each primitive: it gains exactly the
   * routes of the resolved connections leaving it among those before the first
   * falsy entry; when there is no falsy entry it is started once at `time` if it
   * is a scheduled source in the table, and when there is one, the throw names
   * its position and nothing is started. Nothing else changes, and a primitive
   * outside the table is neither wired from nor started.
   */
  lemma WireAndStartEffect(b: Built, conns: seq<Option<Connection>>, time: real)
    requires TableOk(b.table, |b.instances|)
    requires b.instances[DestinationHandle].kind == Destination
    ensures var (r, falsy) := WireAndStart(b, conns, time);
      var present := PresentPrefix(conns);
      && (falsy.Some? <==> |present| < |conns|)
      && (falsy.Some? ==> falsy.value == |present|)
      && forall h :: 0 <= h < |b.instances| ==>
        var before := b.instances[h];
        var listed := h in HandlesOf(b.table.keys, b.table.entries);
        && r.instances[h] == before.(outputs := before.outputs + RoutesFrom(present, b.table.entries, b.instances, h),
                                     starts := if falsy.None? && listed && IsScheduledSource(before.kind) then before.starts + [time] else before.starts)
        && (!listed ==> r.instances[h] == before)
  {
    var table := b.table;
    var present := PresentPrefix(conns);
    assert conns[0..] == conns;
    WireFromPresentPrefix(conns, 0, table.entries, b.instances);
    var wired := Wire(present, table.entries, b.instances);
    WireAppendsRoutes(present, table.entries, b.instances);
    TableOkShares(table, |b.instances|);
    StartAllStartsSourcesOnce(table.keys, table.entries, wired, time);
    forall h | 0 <= h < |b.instances| && h !in HandlesOf(table.keys, table.entries)
      ensures RoutesFrom(present, table.entries, b.instances, h) == []
    {
      NoRoutesFromUnlisted(present, table, b.instances, h);
    }
  }
}

=== FILE: primitives.dfy ===
/**
 * The audio primitives the engine drives, treated as opaque objects: the model
 * records only which calls were made on each one and with which arguments.
 * All primitives live in one `AudioContext`; a primitive is named by its
 * handle (its index in `instances`), and handle 0 is the context's single
 * destination object.
 */
module Primitives {
  import opened Wrappers
  import opened JsValues

  datatype Kind = Oscillator | Gain | BiquadFilter | StereoPanner | BufferSource | Destination

  /** A decoded audio buffer, known only by its identity. */
  datatype Buffer = Buffer(id: nat)

  /** A recorded `param.setTargetAtTime(target, startTime, timeConstant)` call. */
  datatype Automation = SetTarget(target: Value, startTime: real, timeConstant: real)

  /** An `AudioParam`: its current `value` and the automation calls made on it. */
  datatype Param = Param(value: Value, automation: seq<Automation>)

  /** Where a `connect` call routes a primitive's output: into a node or into one of its params. */
  datatype Target = NodeInput(node: nat) | ParamInput(node: nat, param: string)

  /**
   * One primitive: its kind, its `AudioParam` members, its plain attributes, its
   * buffer (buffer sources only), and the log of `connect`, `start`, `stop` and
   * `disconnect` calls. `disconnect()` drops the outgoing connections.
   */
  datatype Instance = Instance(
    kind: Kind,
    params: map<string, Param>,
    fields: map<string, Value>,
    buffer: Option<Buffer>,
    outputs: seq<Target>,
    starts: seq<real>,
    stops: seq<real>,
    disconnects: nat)

  /** The handle of `audioContext.destination`. */
  const DestinationHandle: nat := 0

  function NumParam(r: real): Param
  {
    Param(Num(Finite(r)), [])
  }

  /** The `AudioParam` members of each kind, at their Web Audio defaults. */
  function DefaultParams(kind: Kind): map<string, Param>
  {
    match kind
    case Oscillator => map["frequency" := NumParam(440.0), "detune" := NumParam(0.0)]
    case Gain => map["gain" := NumParam(1.0)]
    case BiquadFilter =>
      map["frequency" := NumParam(350.0), "detune" := NumParam(0.0), "Q" := NumParam(1.0), "gain" := NumParam(0.0)]
    case StereoPanner => map["pan" := NumParam(0.0)]
    case BufferSource => map["playbackRate" := NumParam(1.0), "detune" := NumParam(0.0)]
    case Destination => map[]
  }

  /** The plain (non-param) attributes of each kind that parameter data can address. */
  function DefaultFields(kind: Kind): map<string, Value>
  {
    match kind
    case Oscillator => map["type" := Str("sine")]
    case BiquadFilter => map["type" := Str("lowpass")]
    case BufferSource => map["loop" := Bool(false), "loopStart" := Num(Finite(0.0)), "loopEnd" := Num(Finite(0.0))]
    case _ => map[]
  }

  /** A newly created primitive of the given kind. */
  function Fresh(kind: Kind): (i: Instance)
    ensures i.kind == kind && i.outputs == [] && i.starts == [] && i.stops == [] && i.disconnects == 0
    ensures i.buffer.None? && i.params.Keys !! i.fields.Keys
  {
    Instance(kind, DefaultParams(kind), DefaultFields(kind), None, [], [], [], 0)
  }

  /** Whether the kind is an `AudioScheduledSourceNode` (it has `start` and `stop`). */
  predicate IsScheduledSource(kind: Kind)
  {
    kind == Oscillator || kind == BufferSource
  }

  /** `instance[name].value = v`. */
  function WithParamValue(i: Instance, name: string, v: Value): (r: Instance)
    requires name in i.params
    ensures r.kind == i.kind
  {
    i.(params := i.params[name := i.params[name].(value := v)])
  }

  /** `instance[name] = v` for a plain attribute. */
  function WithField(i: Instance, name: string, v: Value): (r: Instance)
    requires name !in i.params
    ensures r.kind == i.kind
  {
    i.(fields := i.fields[name := v])
  }

  /** `instance[name].setTargetAtTime(v, t, tc)`: recorded; `value` itself is left to the primitive. */
  function WithScheduledTarget(i: Instance, name: string, v: Value, t: real, tc: real): (r: Instance)
    requires name in i.params
    ensures r.kind == i.kind
  {
    var p := i.params[name];
    i.(params := i.params[name := p.(automation := p.automation + [SetTarget(v, t, tc)])])
  }

  /** The primitives after `source.start(t)` on handle `h`. */
  function Started(insts: seq<Instance>, h: nat, t: real): (r: seq<Instance>)
    requires h < |insts|
    ensures |r| == |insts| && r[h].starts == insts[h].starts + [t]
  {
    insts[h := insts[h].(starts := insts[h].starts + [t])]
  }

  /** The primitives after a `source.stop(t)` that did not raise. */
  function Stopped(insts: seq<Instance>, h: nat, t: real): (r: seq<Instance>)
    requires h < |insts|
    ensures |r| == |insts| && r[h].stops == insts[h].stops + [t]
  {
    insts[h := insts[h].(stops := insts[h].stops + [t])]
  }

  /** The primitives after `node.disconnect()` on handle `h`. */
  function Disconnected(insts: seq<Instance>, h: nat): (r: seq<Instance>)
    requires h < |insts|
    ensures |r| == |insts| && r[h].outputs == [] && r[h].disconnects == insts[h].disconnects + 1
  {
    insts[h := insts[h].(outputs := [], disconnects := insts[h].disconnects + 1)]
  }

  /** Concatenation is associative. */
  lemma AppendAssociates<T>(a: seq<T>, b: seq<T>, c: seq<T>)
    ensures (a + b) + c == a + (b + c)
  {
  }

  /** A second update at the same index overrides the first. */
  lemma UpdateTwice<T>(s: seq<T>, h: nat, x: T, y: T)
    requires h < |s|
    ensures s[h := x][h := y] == s[h := y]
  {
  }

  /** Replacing the last element of `a + [x]`. */
  lemma UpdateLast<T>(a: seq<T>, x: T, y: T)
    ensures (a + [x])[|a| := y] == a + [y]
  {
  }

  class AudioContext {
    var instances: seq<Instance>
    var currentTime: real

    /** The destination sits at handle 0. */
    ghost predicate Valid()
      reads this
    {
      |instances| > 0 && instances[DestinationHandle].kind == Destination
    }

    /** A context holds its destination from the start; its clock starts at 0. */
    constructor ()
      ensures Valid() && instances == [Fresh(Destination)] && currentTime == 0.0
    {
      instances := [Fresh(Destination)];
      currentTime := 0.0;
    }

    /** `audioContext.createX()`: a fresh primitive with a new handle. */
    method Create(kind: Kind) returns (h: nat)
      requires Valid()
      modifies this
      ensures Valid() && currentTime == old(currentTime)
      ensures h == |old(instances)| && instances == old(instances) + [Fresh(kind)]
    {
      h := |instances|;
      instances := instances + [Fresh(kind)];
    }

    method SetParamValue(h: nat, name: string, v: Value)
      requires Valid() && h < |instances| && name in instances[h].params
      modifies this
      ensures Valid() && currentTime == old(currentTime)
      ensures instances == old(instances)[h := WithParamValue(old(instances)[h], name, v)]
    {
      instances := instances[h := WithParamValue(instances[h], name, v)];
    }

    method SetField(h: nat, name: string, v: Value)
      requires Valid() && h < |instances| && name !in instances[h].params
      modifies this
      ensures Valid() && currentTime == old(currentTime)
      ensures instances == old(instances)[h := WithField(old(instances)[h], name, v)]
    {
      instances := instances[h := WithField(instances[h], name, v)];
    }

    /** `source.buffer = b`. */
    method SetBuffer(h: nat, b: Buffer)
      requires Valid() && h < |instances|
      modifies this
      ensures Valid() && currentTime == old(currentTime)
      ensures instances == old(instances)[h := old(instances)[h].(buffer := Some(b))]
    {
      instances := instances[h := instances[h].(buffer := Some(b))];
    }

    method SetTargetAtTime(h: nat, name: string, v: Value, t: real, tc: real)
      requires Valid() && h < |instances| && name in instances[h].params
      modifies this
      ensures Valid() && currentTime == old(currentTime)
      ensures instances == old(instances)[h := WithScheduledTarget(old(instances)[h], name, v, t, tc)]
    {
      instances := instances[h := WithScheduledTarget(instances[h], name, v, t, tc)];
    }

    /** `from.connect(target)`. */
    method Connect(from: nat, target: Target)
      requires Valid() && from < |instances|
      modifies this
      ensures Valid() && currentTime == old(currentTime)
      ensures instances == old(instances)[from := old(instances)[from].(outputs := old(instances)[from].outputs + [target])]
    {
      instances := instances[from := instances[from].(outputs := instances[from].outputs + [target])];
    }

    /** `source.start(t)`. */
    method Start(h: nat, t: real)
      requires Valid() && h < |instances|
      modifies this
      ensures Valid() && currentTime == old(currentTime)
      ensures instances == Started(old(instances), h, t)
    {
      instances := instances[h := instances[h].(starts := instances[h].starts + [t])];
    }

    /**
     * `source.stop(t)`. A source that was never started raises (Web Audio's
     * InvalidStateError) and records nothing.
     */
    method Stop(h: nat, t: real) returns (raised: bool)
      requires Valid() && h < |instances|
      modifies this
      ensures Valid() && currentTime == old(currentTime)
      ensures raised <==> old(instances)[h].starts == []
      ensures raised ==> instances == old(instances)
      ensures !raised ==> instances == Stopped(old(instances), h, t)
    {
      raised := instances[h].starts == [];
      if !raised {
        instances := instances[h := instances[h].(stops := instances[h].stops + [t])];
      }
    }

    /** `if (isSource) try { node.stop(t) } catch {}`: the stop pass's step on one primitive. */
    method StopIfSource(h: nat, t: real)
      requires Valid() && h < |instances|
      modifies this
      ensures Valid() && currentTime == old(currentTime)
      ensures instances == if IsScheduledSource(old(instances)[h].kind) && old(instances)[h].starts != []
                           then Stopped(old(instances), h, t) else old(instances)
    {
      if IsScheduledSource(instances[h].kind) {
        var _ := Stop(h, t);
      }
    }

    /** `node.disconnect()`: every outgoing connection is dropped. */
    method Disconnect(h: nat)
      requires Valid() && h < |instances|
      modifies this
      ensures Valid() && currentTime == old(currentTime)
      ensures instances == Disconnected(old(instances), h)
    {
      instances := instances[h := instances[h].(outputs := [], disconnects := instances[h].disconnects + 1)];
    }

    /** The audio clock moves forward. */
    method AdvanceTime(t: real)
      requires Valid() && currentTime <= t
      modifies this
      ensures Valid() && currentTime == t && instances == old(instances)
    {
      currentTime := t;
    }
  }
}

=== FILE: wrappers.dfy ===
/** Optional values and results shared by every module of the model. */
module Wrappers {

  /** A value that may be absent (`undefined` in the source). */
  datatype Option<+T> = None | Some(value: T)

  /** The outcome of an operation that can fail with an error of type `E`. */
  datatype Result<+T, +E> = Ok(value: T) | Err(error: E)
}
